=== FILE: README.md ===
# CloudSync synchronization core in Dafny

This project models the decision logic of the Kodi CloudSync addon. The addon keeps the watched status, resume points, favourites and selected configuration files of several Kodi installations in step. It does this through a cloud copy of a small SQLite database and through MQTT messages between devices. Files, the cloud store, SQLite, JSON-RPC and the broker are abstracted. What remains is pure functions over immutable datatypes, plus small state records threaded through them. Those records are the change-tracking map, the anti-loop map, the single-flight flag, the monitor's last played item and the MQTT connection flags.

One Dafny module per source file:

- `Common` (common.dfy): an option type, Python string helpers (`strip`, `split`, `join`, substring search, ASCII `lower`), decimal printing and parsing, and association lists. Association lists stand for Python dicts wherever insertion order matters.
- `ConflictResolver` (conflict_resolver.dfy): the four strategies, timestamp extraction, database and file conflicts, the pending list, and the key-wise three-map merge with its resume-point rule.
- `FileChangeTracker` (file_change_tracker.dfy): the ordered change checks over a `path -> record` map, marking, removing and orphan cleanup.
- `FavoritesSync` (favorites_sync.dfy): the 10-second anti-loop map, add-only change detection and the mtime/size poll of `favourites.xml`.
- `HybridSync` (hybrid_sync.dfy): row merges of the remote database, movie identity, the watched and resume pushes, the upload/download tables for configuration files and favourites, the full-sync control flow and its single-flight flag.
- `DatabaseMonitor` (database_monitor.dfy): the snapshot diff and the baseline rule.
- `FileMonitor` (file_monitor.dfy): the state-pair change test, the monitored-file filter, the state update and the restore guards.
- `KodiRpc` (kodi_rpc.dfy): parsing of favourite action strings, `add_favourite` parameters, first-match library lookups and first-match removal from the favourites XML.
- `Service` (service.dfy): favourite path validation and keys, the favourites poll, the incoming-message guards and the main-loop counter.
- `KodiMonitor` (kodi_monitor.dfy): topic construction (`cloudsync/watched/...`, `cloudsync/resume/...`, zero-padded `_SxxExx`) and the play/stop state machine.
- `MqttClient` (mqtt_client.dfy): the paho-based client's device id, configuration, publish envelope, connection flags, self-echo filter and first-match routing. MQTT topic filters follow section 4.7 of the MQTT 3.1.1 standard: `+` matches one level and a final `#` matches the rest.
- `MqttSyncManager` (mqtt_sync_manager.dfy): the second MQTT manager with its simulated client, publishing, routing and subscriptions.

One module spans two files: `MessageFlow` (message_flow.dfy) follows a message from the Kodi monitor on one device to the service's handlers on another.

Clocks, random hex strings, stat and hash results, parse results, JSON-RPC answers and transport outcomes are parameters of the functions that need them.

## Model

| member | source | states |
|---|---|---|
| ConflictResolver.StrategyNamed | service.cloudsync/resources/lib/conflict_resolver.py:72-91 | exactly the names other than newer, local, remote and ask are unrecognised, and an unrecognised strategy keeps the name it was given |
| ConflictResolver.ExtractTimestamp | service.cloudsync/resources/lib/conflict_resolver.py:118-153 | a row's timestamp is its parsed last-played time, else its play count; a remote file's is 0; a local file's is its state's modified time, else the current time |
| ConflictResolver.ResolveByTimestamp | service.cloudsync/resources/lib/conflict_resolver.py:97-112 | remote wins if and only if its timestamp is strictly greater than local's, so ties keep local |
| ConflictResolver.ApplyStrategy | service.cloudsync/resources/lib/conflict_resolver.py:72-91 | `local` always picks local and `remote` always picks remote; every other strategy decides as `newer`; only `ask` appends the conflict to the pending list; the strategy never changes |
| ConflictResolver.ResolveDatabaseConflict | service.cloudsync/resources/lib/conflict_resolver.py:16-38 | the result is one of the two inputs and is empty only when both are; identical rows return local, and a single present row wins, both without touching the resolver; two present, different rows go to local under `local`, to remote under `remote`, and otherwise to remote exactly when its last-played time (else play count) is strictly greater; they add exactly that conflict to the pending list under `ask` and nothing under any other strategy |
| ConflictResolver.ResolveFileConflict | service.cloudsync/resources/lib/conflict_resolver.py:44-66 | identical contents return local; when exactly one content is empty the other wins without touching the resolver; two different contents that are both empty or both non-empty go to local under `local`, to remote under `remote`, and otherwise to remote only when the local timestamp is negative; under `ask` exactly that file conflict is appended, under any other strategy nothing; the result is always one of the inputs |
| ConflictResolver.SetStrategy | service.cloudsync/resources/lib/conflict_resolver.py:276-282 | a known name sets the strategy it names; any other name leaves the resolver unchanged; pending conflicts are kept |
| ConflictResolver.ClearPending | service.cloudsync/resources/lib/conflict_resolver.py:272-274 | the pending list becomes empty and the strategy is kept |
| ConflictResolver.IdenticalIsNoConflict | service.cloudsync/resources/lib/conflict_resolver.py:20-21 | identical versions come back unchanged under every strategy, and nothing is queued |
| ConflictResolver.AskAndUnrecognisedBehaveAsNewer | service.cloudsync/resources/lib/conflict_resolver.py:89-91 | `ask` picks what `newer` picks and queues exactly one record; an unrecognised strategy picks what `newer` picks and queues nothing |
| ConflictResolver.NewerTieGoesToLocal | service.cloudsync/resources/lib/conflict_resolver.py:103-112 | under `newer`, two different present rows resolve to remote exactly when its timestamp is strictly greater |
| ConflictResolver.FileNewerPrefersLocal | service.cloudsync/resources/lib/conflict_resolver.py:142-147 | under `newer`, two different non-empty files resolve to local exactly when the local timestamp is not negative |
| ConflictResolver.WinnerIgnoresPending | service.cloudsync/resources/lib/conflict_resolver.py:155-165 | which row wins does not depend on the conflicts already queued |
| ConflictResolver.MergeItems | service.cloudsync/resources/lib/conflict_resolver.py:186-197 | the merged ids are exactly the union of both sides' ids, and each entry is the resolver's winner for that id |
| ConflictResolver.MergeResumePoint | service.cloudsync/resources/lib/conflict_resolver.py:234-252 | the larger position wins; equal positions go to the conflict resolver; a point present on one side only is kept |
| ConflictResolver.MergeResume | service.cloudsync/resources/lib/conflict_resolver.py:225-252 | the merged ids are exactly the union of both sides' ids, and each point is merged as above |
| ConflictResolver.ComplexMerge | service.cloudsync/resources/lib/conflict_resolver.py:171-262 | a missing side returns the other; otherwise each category covers the union of keys, each movie and episode is the resolver's winner for its id, each resume point follows the more-progress rule, and the timestamp is the larger of the two |
| ConflictResolver.MergeItemsQueued | service.cloudsync/resources/lib/conflict_resolver.py:189-218 | under `ask` the movie or episode loop queues exactly one conflict per id whose two rows are present and differ, carrying both rows; under every other strategy it queues nothing |
| ConflictResolver.MergeResumeQueued | service.cloudsync/resources/lib/conflict_resolver.py:229-248 | under `ask` the resume loop queues exactly the ids present on both sides with equal positions and different points; nothing otherwise |
| ConflictResolver.ComplexMergeQueued | service.cloudsync/resources/lib/conflict_resolver.py:171-262 | a merge with a missing side, or under a strategy other than `ask`, queues nothing; every queued conflict is a database conflict of a movie, an episode or a resume point |
| ConflictResolver.AskMergeQueuesMovieConflicts | service.cloudsync/resources/lib/conflict_resolver.py:155-198 | under `ask` a movie conflict is queued by the merge if and only if the movie is on both sides with different rows, and it carries those rows |
| ConflictResolver.ComplexMergeKeepsMostProgress | service.cloudsync/resources/lib/conflict_resolver.py:227-252 | for an id on both sides, the merged resume position is the larger of the two under every strategy |
| FileChangeTracker.HasFileChanged | service.cloudsync/resources/lib/file_change_tracker.py:91-141 | each reason holds exactly when the checks before it pass and its own fails, in the order missing file, unreadable stat, no record, mtime or size, unusable hash, different hash, 24-hour horizon; the file is unchanged exactly when every check passes |
| FileChangeTracker.MarkFileSynced | service.cloudsync/resources/lib/file_change_tracker.py:143-168 | an existing file with readable stat and hash gets a record of its mtime, size, hash and the current time; otherwise nothing changes; other paths are never touched |
| FileChangeTracker.RemoveFileTracking | service.cloudsync/resources/lib/file_change_tracker.py:173-177 | exactly the given path loses its record, and every other record is unchanged |
| FileChangeTracker.CollectOrphans | service.cloudsync/resources/lib/file_change_tracker.py:197-201 | the collected paths are exactly the tracked paths that no longer exist, and the count is their number |
| FileChangeTracker.CleanupOrphaned | service.cloudsync/resources/lib/file_change_tracker.py:195-210 | exactly the records of missing files are dropped, the others are kept unchanged, and the result is how many were dropped |
| FileChangeTracker.MarkThenCheckIsUnchanged | service.cloudsync/resources/lib/file_change_tracker.py:135-141 | checking a file right after marking it, and within 24 hours of that mark, reports no change |
| FileChangeTracker.MarkThenCheckAfterADay | service.cloudsync/resources/lib/file_change_tracker.py:134-138 | more than 86400 seconds after a mark, the same unchanged file is reported as needing a forced sync |
| FileChangeTracker.MarkIdempotent | service.cloudsync/resources/lib/file_change_tracker.py:162-168 | marking the same file twice at the same time gives the same data as marking it once |
| FileChangeTracker.RemoveThenCheck | service.cloudsync/resources/lib/file_change_tracker.py:113-116 | a file that still exists reports no tracking data after its record is removed |
| FavoritesSync.Titles | service.cloudsync/favorites_sync.py:185-186 | the title set holds the key of every favourite in the list and nothing else |
| FavoritesSync.MarkReceived | service.cloudsync/favorites_sync.py:316-319 | the title is recorded with the current time, and every other title's entry is unchanged |
| FavoritesSync.CleanupReceived | service.cloudsync/favorites_sync.py:338-346 | exactly the entries younger than the 10-second grace period survive, with their times unchanged |
| FavoritesSync.IsRecentlyReceived | service.cloudsync/favorites_sync.py:322-336 | a title is recent if and only if it is recorded and strictly younger than the grace period; the purge keeps exactly the recent titles |
| FavoritesSync.CleanupIdempotent | service.cloudsync/favorites_sync.py:338-346 | purging twice at the same time is the same as purging once |
| FavoritesSync.CleanupKeepsRecent | service.cloudsync/favorites_sync.py:326-332 | the purge done before the lookup never changes whether a title counts as recent |
| FavoritesSync.MarkThenRecent | service.cloudsync/favorites_sync.py:316-336 | a title marked at time T is held back by a check at a later time exactly when that time is before T + 10 |
| FavoritesSync.ScanAdded | service.cloudsync/favorites_sync.py:198-212 | the kept favourites are exactly those of the current list whose title is new and not recent, never more than the list holds |
| FavoritesSync.ScanAddedPurges | service.cloudsync/favorites_sync.py:198-212 | the anti-loop map the scan leaves is the purged map exactly when some title is new, and the map it was given otherwise |
| FavoritesSync.DetectChangesContents | service.cloudsync/favorites_sync.py:181-215 | a favourite is announced if and only if it is in the current list, its title was not in the previous list and it was not received recently |
| FavoritesSync.DetectChangesAddOnly | service.cloudsync/favorites_sync.py:188-189 | when no title was added, nothing is announced, whatever was removed |
| FavoritesSync.FileChanged | service.cloudsync/favorites_sync.py:124-143 | a missing file counts as changed exactly when a non-zero mtime or size was recorded; a present file counts as changed exactly when its mtime or size differs; a failing stat reports no change |
| FavoritesSync.UpdateFileState | service.cloudsync/favorites_sync.py:89-101 | a present file's mtime and size are recorded, a missing file records zeros, a failing stat keeps the state, and nothing else changes |
| FavoritesSync.DetectChangesAnnounces | service.cloudsync/favorites_sync.py:180-213 | for every favourite at once: announced iff listed now, its title is new and it was not received within the grace period |
| FavoritesSync.DetectChangesPurges | service.cloudsync/favorites_sync.py:199-205 | the anti-loop map is purged iff some current title is new, and left alone otherwise |
| FavoritesSync.OnFavoritesChanged | service.cloudsync/favorites_sync.py:145-176 | during an API write or after a parse failure nothing changes and nothing is announced; otherwise the parsed list becomes the previous list; the first scan announces nothing; later scans announce exactly the listed favourites whose title is new and not recently received, and purge the anti-loop map iff some title is new |
| FavoritesSync.Poll | service.cloudsync/favorites_sync.py:103-115 | an unchanged file leaves the state alone and announces nothing; a changed file has its mtime and size (or zeros, when missing) recorded, then the list is re-read with the announcement rule above |
| FavoritesSync.AnnouncedOnce | service.cloudsync/favorites_sync.py:103-176 | a favourite announced by one poll is never announced by the next poll, whatever the file then shows |
| FavoritesSync.ReceivedNotEchoed | service.cloudsync/favorites_sync.py:199-205 | a favourite whose title was marked as received less than 10 s ago is not announced by a poll |
| FavoritesSync.PollSettles | service.cloudsync/favorites_sync.py:103-143 | after one poll has seen the file, polling the same file again changes nothing and announces nothing |
| HybridSync.MergeMovies | service.cloudsync/resources/lib/hybrid_sync_manager.py:554-574 | a remote movie row replaces the local one exactly when there is no local row or the local lastchange is strictly older; every other local row is kept; the change flag is set if and only if some remote row won |
| HybridSync.MergeResume | service.cloudsync/resources/lib/hybrid_sync_manager.py:578-605 | a remote resume row replaces the local one exactly when there is no local row, the remote one is newer, or it is further along; every other local row is kept; the change flag is set if and only if some remote row won |
| HybridSync.MergeRemoteDatabase | service.cloudsync/resources/lib/hybrid_sync_manager.py:545-620 | the merge reports a change if and only if one of the two tables took a remote row, and a merge reporting no change leaves both tables as they were |
| HybridSync.MergeIdempotent | service.cloudsync/resources/lib/hybrid_sync_manager.py:567-607 | merging the same remote snapshot a second time writes nothing and reports no change |
| HybridSync.MergeResumeKeepsProgress | service.cloudsync/resources/lib/hybrid_sync_manager.py:592-605 | a local resume point whose lastchange is at least the remote one never moves backwards in a merge |
| HybridSync.MovieIdentity | service.cloudsync/resources/lib/hybrid_sync_manager.py:323-350 | the identity is the IMDb number, else the TMDB uniqueid, else the first non-empty uniqueid, else title_year, and title_year only when there are no uniqueids and both title and year are set; a chosen id is never empty |
| HybridSync.SyncWatchedStatusAsWritten | service.cloudsync/resources/lib/hybrid_sync_manager.py:296-388 | the method as written never changes the table |
| HybridSync.SyncWatchedStatusAsWrittenNeverSyncs | service.cloudsync/resources/lib/hybrid_sync_manager.py:353-370 | whatever Kodi reports, the method as written writes no row and reports no change |
| HybridSync.SyncWatchedStatus | service.cloudsync/resources/lib/hybrid_sync_manager.py:352-378 | corrected method: no reported change means an unchanged table; only keys of movies in the list can change; a change needs a movie with an identity |
| HybridSync.SyncWatchedChangeIffWrite | service.cloudsync/resources/lib/hybrid_sync_manager.py:358-376 | corrected method: a change is reported if and only if some movie's stored row is missing or differs in playcount or lastplayed |
| HybridSync.SyncWatchedAsWrittenMissesChange | service.cloudsync/resources/lib/hybrid_sync_manager.py:355-370 | where some movie needs a write, the corrected method reports a change and the method as written reports none and leaves the table as it was |
| HybridSync.IdKey | service.cloudsync/resources/lib/hybrid_sync_manager.py:352-354 | a movie has a storage key exactly when it has an identity, and the key is that identity's id |
| HybridSync.WatchedStoredMeansQuiet | service.cloudsync/resources/lib/hybrid_sync_manager.py:358-361 | when every movie's playcount and lastplayed are already stored, the sync writes nothing and reports no change |
| HybridSync.WatchedSyncStoresAll | service.cloudsync/resources/lib/hybrid_sync_manager.py:361-376 | after a sync of movies with distinct identities, every movie's playcount and lastplayed are stored |
| HybridSync.WatchedWrittenRows | service.cloudsync/resources/lib/hybrid_sync_manager.py:358-376 | with distinct identities, each movie's key holds afterwards its title, playcount and lastplayed stamped with the current time when it needed a write, and the stored row otherwise |
| HybridSync.SyncWatchedIdempotent | service.cloudsync/resources/lib/hybrid_sync_manager.py:358-376 | pushing the same watched list twice, the second push writes nothing and reports no change |
| HybridSync.SyncResumePoints | service.cloudsync/resources/lib/hybrid_sync_manager.py:417-441 | no reported change means an unchanged table; only files with a positive position can change; a change needs such a file |
| HybridSync.StoredMeansQuiet | service.cloudsync/resources/lib/hybrid_sync_manager.py:428-429 | when every positive resume point is already stored with the same position and total, the sync writes nothing |
| HybridSync.SyncStoresAll | service.cloudsync/resources/lib/hybrid_sync_manager.py:419-441 | after a sync of distinct files, every positive resume point is stored |
| HybridSync.ResumeWrittenRows | service.cloudsync/resources/lib/hybrid_sync_manager.py:419-441 | with distinct files, each positive point's file holds afterwards its position, total and IMDb number stamped with the current time when it needed a write, and the stored row otherwise |
| HybridSync.SyncResumeIdempotent | service.cloudsync/resources/lib/hybrid_sync_manager.py:419-441 | pushing the same resume points twice, the second push writes nothing and reports no change |
| HybridSync.BothPresentDirection | service.cloudsync/resources/lib/hybrid_sync_manager.py:973-991 | with content on both sides, `local` uploads, `remote` downloads, and `newer` uploads exactly when the local file is at least as long; other strategies keep the upload default |
| HybridSync.SyncUserdataFile | service.cloudsync/resources/lib/hybrid_sync_manager.py:929-1034 | an unchanged or unreadable local file does nothing; only local uploads and remote downloads, never both; local only uploads its content, remote only downloads exactly when the write succeeds, neither does nothing; the file is recorded exactly when the call reports success |
| HybridSync.SyncUserdata | service.cloudsync/resources/lib/hybrid_sync_manager.py:901-927 | a disabled sync does nothing; otherwise every one of the seven listed files gets its own outcome, in order, and the result is true exactly when one of them succeeded |
| HybridSync.SyncFiles | service.cloudsync/resources/lib/hybrid_sync_manager.py:917-920 | one outcome per file, in order, each that of syncing that file alone; the flag is true exactly when some file succeeded |
| HybridSync.UserdataQuietWhenUnchanged | service.cloudsync/resources/lib/hybrid_sync_manager.py:949-954 | when every listed file exists and is unchanged, no file does anything and the sync reports no change |
| HybridSync.UserdataUploadReported | service.cloudsync/resources/lib/hybrid_sync_manager.py:992-1016 | a changed, readable, non-empty file with no remote copy and a successful upload is uploaded with its content, recorded, and makes the sync report a change |
| HybridSync.SyncFavorites | service.cloudsync/resources/lib/hybrid_sync_manager.py:738-824 | nothing happens unless syncing is enabled and the local file exists, changed and could be read; with a remote copy, upload happens exactly when the strategy is not `remote` and, under `newer`, the local file is strictly longer; the file is recorded only after a successful upload |
| HybridSync.RestoreFavorites | service.cloudsync/resources/lib/hybrid_sync_manager.py:826-899 | only non-empty remote content is ever written; an unreadable or missing local file is overwritten; `local` keeps a readable file; otherwise the write happens exactly when the strategy is not `newer` or the stripped local file is shorter |
| HybridSync.NewerEqualLengthFavoritesStandStill | service.cloudsync/resources/lib/hybrid_sync_manager.py:791-795 | under `newer`, with equally long files, favourites are neither uploaded nor restored, while a configuration file of the same length is uploaded |
| HybridSync.PerformFullSyncAsWritten | service.cloudsync/resources/lib/hybrid_sync_manager.py:235-294 | as written, the flag is false after every call; a call that finds the flag set returns false and does nothing; restore and upload run exactly when some step reported a change |
| HybridSync.PerformFullSync | service.cloudsync/resources/lib/hybrid_sync_manager.py:239-243 | corrected: a rejected call leaves the running sync's flag set, and otherwise the call behaves as written |
| HybridSync.Run | service.cloudsync/resources/lib/hybrid_sync_manager.py:239-243 | corrected flag handling keeps the invariant that the flag is set exactly when one sync is running |
| HybridSync.TwoSyncsRunAtOnce | service.cloudsync/resources/lib/hybrid_sync_manager.py:293-294 | as written, three calls made while the first sync still runs leave two syncs running at once |
| HybridSync.SingleFlight | service.cloudsync/resources/lib/hybrid_sync_manager.py:239-243 | corrected: from an idle start at most one sync is ever running |
| DatabaseMonitor.FindChanges | service.cloudsync/resources/lib/database_monitor.py:271-293 | a current key gets an update entry, carrying old and new values, exactly when it is new or its value differs; every vanished key gets a delete entry with its old value; no other key appears |
| DatabaseMonitor.ApplyChanges | service.cloudsync/resources/lib/database_monitor.py:280-293 | replaying a diff keeps the old keys that were not deleted and adds the updated ones |
| DatabaseMonitor.ApplyFindChanges | service.cloudsync/resources/lib/database_monitor.py:271-293 | replaying the diff of two snapshots on the first one gives exactly the second |
| DatabaseMonitor.EmptyDiffIffEqual | service.cloudsync/resources/lib/database_monitor.py:279 | the diff is empty if and only if the two snapshots are equal |
| DatabaseMonitor.CheckForChanges | service.cloudsync/resources/lib/database_monitor.py:80-123 | a category's baseline moves to the current snapshot only when that category is enabled and changed, and otherwise stays; a report is made if and only if an enabled category changed |
| DatabaseMonitor.CheckSettles | service.cloudsync/resources/lib/database_monitor.py:95-116 | a second check against the same library state keeps the baselines and reports nothing |
| FileMonitor.HasFileChanged | service.cloudsync/resources/lib/file_monitor.py:167-189 | with no stored state a file is changed exactly when it exists; a change in existence always counts; two missing states never do; two non-empty different hashes count; otherwise the file is changed exactly when its mtime or size differs |
| FileMonitor.UnchangedStateIsQuiet | service.cloudsync/resources/lib/file_monitor.py:173-189 | a stored state compared with itself never counts as a change |
| FileMonitor.ShouldMonitor | service.cloudsync/resources/lib/file_monitor.py:191-197 | favourites and sources follow their settings, and any other type is monitored |
| FileMonitor.CheckFiles | service.cloudsync/resources/lib/file_monitor.py:98-117 | a stored state changes only to the file's current state, and only for a monitored file of an enabled type; every reported change is a real change carrying the current state; when every file is quiet nothing is stored or reported |
| FileMonitor.CheckFilesReports | service.cloudsync/resources/lib/file_monitor.py:98-117 | with distinct names, a pass reports a file if and only if it is listed with an enabled type and its observed state differs from the stored one |
| FileMonitor.CheckForChangesReports | service.cloudsync/resources/lib/file_monitor.py:89-117 | `favourites.xml` is reported exactly when favourites sync is on and its state moved, `sources.xml` exactly when sources sync is on and its state moved, and no other file ever |
| FileMonitor.CheckFilesSettles | service.cloudsync/resources/lib/file_monitor.py:106-117 | after one pass every enabled file is quiet against the stored states |
| FileMonitor.CheckSettles | service.cloudsync/resources/lib/file_monitor.py:89-117 | checking again while nothing on disk moved stores nothing and reports nothing |
| FileMonitor.RestoreFile | service.cloudsync/resources/lib/file_monitor.py:264-299 | a file outside the monitored pair, or of a disabled type, is refused and nothing changes; a monitored, enabled file whose write succeeds is restored and stores the state observed afterwards; a failed write changes nothing |
| FileMonitor.RestoreThenCheckIsQuiet | service.cloudsync/resources/lib/file_monitor.py:290-291 | after a successful restore, while the disk shows the recorded state, the next check does not report that file |
| KodiRpc.ParseWindow | service.cloudsync/resources/lib/kodi_rpc.py:307-322 | the window branch always yields a window action; the window and its parameter contain no comma, the window carries no surrounding whitespace and the parameter no surrounding quote |
| KodiRpc.ParseAction | service.cloudsync/resources/lib/kodi_rpc.py:291-327 | the action is a window exactly when the string starts with `ActivateWindow(`; any string with neither prefix is a media action with the whole string as its path; a media path is never longer than the input |
| KodiRpc.ParseFormattedMedia | service.cloudsync/resources/lib/kodi_rpc.py:293-294 | every media path written as `PlayMedia("p")` is read back as exactly p |
| KodiRpc.ParseUnquotedMedia | service.cloudsync/resources/lib/kodi_rpc.py:295-299 | an unquoted `PlayMedia(p)` whose argument does not start with a quote is read back as exactly p |
| KodiRpc.ParseWindowArgs | service.cloudsync/resources/lib/kodi_rpc.py:310-320 | a plain window with a quoted parameter is read back exactly, whatever comma-separated arguments follow it |
| KodiRpc.ParseBareWindow | service.cloudsync/resources/lib/kodi_rpc.py:307-318 | `ActivateWindow(w)` with a plain window is read back as that window with an empty parameter |
| KodiRpc.ParseQuotedWindow | service.cloudsync/resources/lib/kodi_rpc.py:307-322 | `ActivateWindow(w,"p")` with plain parts is read back as exactly that window and parameter |
| KodiRpc.ParseFormattedWindow | service.cloudsync/resources/lib/kodi_rpc.py:307-322 | every plain window action, written the way a favourites file writes it, is read back exactly |
| KodiRpc.IfNonEmpty | service.cloudsync/resources/lib/kodi_rpc.py:269-280 | an optional parameter is absent exactly when its value is empty, and otherwise carries that value |
| KodiRpc.AddFavoriteRequest | service.cloudsync/resources/lib/kodi_rpc.py:261-327 | the request keeps the title and the non-empty thumbnail; it has type window exactly for `ActivateWindow(` actions; a media request carries no window fields and a window request no path |
| KodiRpc.RequestCarriesAction | service.cloudsync/resources/lib/kodi_rpc.py:261-327 | reading the request back gives exactly the parsed action |
| KodiRpc.FirstMatchIndex | service.cloudsync/resources/lib/kodi_rpc.py:149-155 | the index is that of the first item sharing an id with the query, or the list's length when none does |
| KodiRpc.FindByUniqueId | service.cloudsync/resources/lib/kodi_rpc.py:136-161 | a failed call finds nothing; otherwise nothing is found exactly when no listed item shares an id with the query, and a found id is that of the first item that does |
| KodiRpc.FindTheOnlyMatch | service.cloudsync/resources/lib/kodi_rpc.py:193-219 | when exactly one listed item shares an id with the query, that item is found wherever it is listed |
| KodiRpc.FirstEpisodeIndex | service.cloudsync/resources/lib/kodi_rpc.py:181-183 | the index is that of the first episode with the given season and episode numbers, or the list's length when none has them |
| KodiRpc.FindEpisode | service.cloudsync/resources/lib/kodi_rpc.py:163-191 | no show, a show id of 0 or a failed episode listing finds nothing; otherwise nothing is found exactly when no episode has both numbers, and a found id is that of the first episode that has them |
| KodiRpc.FirstNamedIndex | service.cloudsync/resources/lib/kodi_rpc.py:474-479 | the index is that of the first element named after the title, or the list's length when there is none |
| KodiRpc.RemoveFirstNamed | service.cloudsync/resources/lib/kodi_rpc.py:472-483 | removal fails exactly when no element carries the title; otherwise the first such element, and only it, is removed |
| KodiRpc.RemoveDropsOne | service.cloudsync/resources/lib/kodi_rpc.py:474-479 | a successful removal shortens the list by one, drops one element of that name, and keeps the count of every other name |
| KodiRpc.RemoveFromXml | service.cloudsync/resources/lib/kodi_rpc.py:446-496 | a missing file gives false; the call succeeds exactly when the file exists, has an element of that name and can be written back; the file changes only on success |
| KodiRpc.RemoveFavorite | service.cloudsync/resources/lib/kodi_rpc.py:333-362 | a title the API does not list is refused and the file is untouched; a listed title goes to the XML removal; on success exactly one element of that name is gone |
| Service.StartsWithAny | service.cloudsync/service.py:293 | true if and only if the path starts with one of the given prefixes |
| Service.IsValidFavoritePath | service.cloudsync/service.py:281-293 | a path is valid if and only if it is non-empty and starts with one of the sixteen listed protocol prefixes |
| Service.ValidPathHasScheme | service.cloudsync/service.py:287-291 | every accepted path contains `://` |
| Service.FavoriteKey | service.cloudsync/service.py:353-358 | the key is the title, a `|` at the title's length, then the path, with missing fields counted as empty |
| Service.FavoriteKeyInjective | service.cloudsync/service.py:355-358 | for titles without `|`, two favourites share a key if and only if they share title and path |
| Service.KeysCanCollide | service.cloudsync/service.py:358 | with a `|` in a title, two favourites with different titles can share a key |
| Service.KeySet | service.cloudsync/service.py:330-331 | the key set holds exactly the keys of the listed favourites |
| Service.WithKeys | service.cloudsync/service.py:338-339 | the selection holds exactly the listed favourites whose key is selected, and is empty for an empty key set |
| Service.AsAdded | service.cloudsync/service.py:342-343 | each selected favourite is announced as an addition, in order |
| Service.AsRemoved | service.cloudsync/service.py:345-346 | each selected favourite is announced as a removal, in order |
| Service.CheckFavoritesChanges | service.cloudsync/service.py:307-351 | a disabled setting or a listing that raises changes nothing; the first poll only stores the list; later polls announce exactly the favourites whose key is new as added and exactly those whose key vanished as removed, then store the current list |
| Service.GetFavourites | service.cloudsync/resources/lib/kodi_rpc.py:220-223 | a failed RPC or a reply without `favourites` gives the empty list; otherwise the listed favourites |
| Service.FailedListingAnnouncesRemovals | service.cloudsync/service.py:314-345 | a poll whose listing RPC failed announces every stored favourite as removed and nothing as added, and stores the empty list |
| Service.CheckFavoritesSettles | service.cloudsync/service.py:323-348 | polling again while the list stands still stores the same list and announces nothing |
| Service.HandleWatched | service.cloudsync/service.py:99-156 | a disabled setting, a missing uniqueid or an unknown content type writes nothing; a movie or episode found with a non-zero id gets its playcount set, and one not found gets nothing |
| Service.HandleResume | service.cloudsync/service.py:176-239 | a disabled setting, a missing uniqueid or a zero or absent position writes nothing; a write carries the found item's non-zero id, the message's position and total; a found movie or episode is always written |
| Service.HandleResumeCorrected | service.cloudsync/service.py:190-200 | corrected handler: movies are handled as before; an episode is written exactly when the setting is on, the show's unique ids and a non-zero position are present and the episode is found, with the message's position and total |
| Service.HandleFavorite | service.cloudsync/service.py:241-279 | an add request is sent if and only if syncing is enabled, the action is `add` and the path is valid; it carries the message's title, type, path and thumbnail; a `remove` is never applied |
| Service.AcceptedFavouriteHasPath | service.cloudsync/service.py:263-275 | an accepted favourite always sends its path, and that path contains `://` |
| Service.Tick | service.cloudsync/service.py:416-419 | the poll runs exactly when the incremented counter reaches 30, and then the counter restarts at 0 |
| Service.TicksPace | service.cloudsync/service.py:416-419 | from a counter below 30, n ticks run the poll once for every 30 ticks completed, and leave the counter at the remainder |
| KodiMonitor.MovieTopicId | service.cloudsync/resources/lib/kodi_monitor.py:131 | the movie's topic id is its imdb id, else its tmdb id, else `unknown`; a present key wins even when its value is empty |
| KodiMonitor.ShowTopicId | service.cloudsync/resources/lib/kodi_monitor.py:172 | the show's topic id is its imdb id, else its tvdb id, else its tmdb id, else `unknown` |
| KodiMonitor.EpisodeTopic | service.cloudsync/resources/lib/kodi_monitor.py:173 | the topic starts with its prefix, and with season and episode below 100 it is exactly seven characters longer than prefix and show id together |
| KodiMonitor.EpisodeTopicTail | service.cloudsync/resources/lib/kodi_monitor.py:173 | after the prefix, the show id and `_S`, the topic is the two-digit season, `E` and the two-digit episode |
| KodiMonitor.SeasonEpisodeInjective | service.cloudsync/resources/lib/kodi_monitor.py:173 | for non-negative numbers, the zero-padded `SxxExx` text determines season and episode |
| KodiMonitor.EpisodeTopicInjective | service.cloudsync/resources/lib/kodi_monitor.py:172-173 | for one show, no two episodes with non-negative numbers share a topic |
| KodiMonitor.PublishMovieWatched | service.cloudsync/resources/lib/kodi_monitor.py:118-154 | nothing is published exactly when the movie has no unique ids; otherwise the message goes to `cloudsync/watched/` plus the movie's topic id and carries title, unique ids, playcount and year |
| KodiMonitor.ShowUniqueid | service.cloudsync/resources/lib/kodi_monitor.py:106-110 | a missing or zero show id attaches no show ids; attached ids are what the show's details returned |
| KodiMonitor.PublishEpisodeWatched | service.cloudsync/resources/lib/kodi_monitor.py:156-188 | nothing is published exactly when the show has no unique ids; otherwise the message goes to the show's `_SxxExx` topic under `cloudsync/watched/` and carries title, show title, season, episode, the episode's and the show's unique ids and playcount |
| KodiMonitor.LibraryUpdate | service.cloudsync/resources/lib/kodi_monitor.py:59-116 | an update without a type or id, or of another type, publishes nothing; a movie whose details are returned publishes exactly its watched message, an episode whose details are returned exactly its watched message with the show's unique ids; every message goes under `cloudsync/watched/` |
| KodiMonitor.PublishMovieResume | service.cloudsync/resources/lib/kodi_monitor.py:257-282 | nothing is published exactly when the movie has no unique ids or no non-zero position; otherwise the message goes under `cloudsync/resume/` and carries position and total |
| KodiMonitor.PublishEpisodeResume | service.cloudsync/resources/lib/kodi_monitor.py:287-319 | nothing is published exactly when the show has no unique ids or the position is not non-zero; otherwise the message goes to the show's `_SxxExx` topic under `cloudsync/resume/` and carries title, show title, numbers, the show's unique ids, position and total, but no unique ids of the episode |
| KodiMonitor.ResumeCheck | service.cloudsync/resources/lib/kodi_monitor.py:212-255 | an item without an id, of another type, without details or with a position that is not positive publishes nothing; a movie or episode with details and a positive position publishes exactly its resume message; a message matches the item's type and goes under `cloudsync/resume/` |
| MessageFlow.MovieWatchedApplied | service.cloudsync/service.py:99-156 | a movie's published watched message makes the receiving service set that play count on the movie it finds under the same unique ids |
| MessageFlow.EpisodeWatchedApplied | service.cloudsync/service.py:99-156 | an episode's published watched message, when the episode has unique ids of its own, sets that play count on the episode the receiver finds by show and numbers |
| MessageFlow.MovieResumeApplied | service.cloudsync/service.py:176-221 | a movie's published resume message sets the same position and total on the movie the receiver finds |
| MessageFlow.LibraryUpdateApplied | service.cloudsync/resources/lib/kodi_monitor.py:59-146 | a library update of a movie with unique ids ends, on a receiver that has the movie, in a write of the movie's play count |
| MessageFlow.PlayStopApplied | service.cloudsync/resources/lib/kodi_monitor.py:204-282 | stopping a movie with a positive resume position ends, on a receiver that has the movie, in a write of that position and total |
| MessageFlow.EpisodeResumeNeverApplied | service.cloudsync/service.py:188-192 | as written, a published episode resume message is never applied by the receiving service, whatever its settings and library |
| MessageFlow.EpisodeResumeAppliedCorrected | service.cloudsync/service.py:196-200 | with the corrected handler, a published episode resume message sets its position and total on the episode the receiver finds |
| KodiMonitor.OnNotification | service.cloudsync/resources/lib/kodi_monitor.py:28-57 | without a publish callback nothing happens; play remembers the item; stop always forgets it and can publish only the remembered item's resume check; a library update publishes its watched message; other notifications do nothing |
| KodiMonitor.SecondStopIsQuiet | service.cloudsync/resources/lib/kodi_monitor.py:204-217 | a stop right after a stop publishes nothing |
| KodiMonitor.PlayThenStop | service.cloudsync/resources/lib/kodi_monitor.py:194-217 | play followed by stop publishes exactly the resume check of the played item and leaves nothing remembered |
| MqttClient.LevelsMatchPointwise | service.cloudsync/resources/lib/mqtt_client.py:191-196 | a filter without `#` matches exactly the topics with as many levels that agree with it on every level that is not `+` (section 4.7 of MQTT 3.1.1, which the subscriptions rely on) |
| MqttClient.FilterMatches | service.cloudsync/resources/lib/mqtt_client.py:191-196 | a filter with `+` exactly where the topic has a free level receives that topic |
| MqttClient.FilterMisses | service.cloudsync/resources/lib/mqtt_client.py:191-196 | a filter without `#` never receives a topic with a different number of levels |
| MqttClient.PatternNotIn | service.cloudsync/resources/lib/mqtt_client.py:178-179 | a handler pattern `head/w/` is not a substring of a topic none of whose inner levels is `w` |
| MqttClient.NameSuffix | service.cloudsync/resources/lib/mqtt_client.py:57 | each character of the name part is the name's character with a space turned into `_` and an upper-case letter lowered, so it holds neither spaces nor upper-case letters |
| MqttClient.RandomSuffix | service.cloudsync/resources/lib/mqtt_client.py:59 | the random part is the first 8 digits of the random hex, or all of them when there are fewer |
| MqttClient.DeviceId | service.cloudsync/resources/lib/mqtt_client.py:50-64 | a stored id is reused and not written; otherwise a new id is written: `cloudsync_` followed by the name part of the stripped device name, or by the first 8 random hex digits when the name is blank |
| MqttClient.NameSuffixIdempotent | service.cloudsync/resources/lib/mqtt_client.py:57 | applying the name transformation to its own output changes nothing |
| MqttClient.DeviceNamesCollide | service.cloudsync/resources/lib/mqtt_client.py:55-57 | two different device names, `A b` and `a_b`, generate the same id |
| MqttClient.DeviceIdStable | service.cloudsync/resources/lib/mqtt_client.py:52-53 | once an id is chosen, later calls return it and write nothing, whatever the device name and randomness |
| MqttClient.Configure | service.cloudsync/resources/lib/mqtt_client.py:70-88 | the configuration loads if and only if the port is empty or a number and the stripped host, username and password are all non-empty; the fields are the stripped settings, and an empty port means 8883 |
| MqttClient.ConfigureStable | service.cloudsync/resources/lib/mqtt_client.py:73-77 | writing a loaded configuration back and loading it again gives the same configuration |
| MqttClient.Publish | service.cloudsync/resources/lib/mqtt_client.py:210-236 | nothing is sent and false is returned when not connected; otherwise one non-retained message goes to the topic, the result is the broker's verdict, and the envelope holds the payload's fields plus `device_id` and `timestamp` where the payload lacks them |
| MqttClient.Envelope | service.cloudsync/resources/lib/mqtt_client.py:218-222 | every key reads as in the payload, else as the device id or the timestamp for those two keys, else is absent |
| MqttClient.PublishDeviceStatus | service.cloudsync/resources/lib/mqtt_client.py:238-254 | a status goes out exactly when a client object exists, retained, on `cloudsync/devices/<id>/status`, carrying the device id and the status |
| MqttClient.Start | service.cloudsync/resources/lib/mqtt_client.py:90-138 | start succeeds exactly when the library is present, the settings are complete and the connect call succeeds, and then enables the client; it never sets the connected flag |
| MqttClient.OnConnect | service.cloudsync/resources/lib/mqtt_client.py:140-154 | the link is connected exactly when the return code is 0, and only then is `online` announced |
| MqttClient.OnDisconnect | service.cloudsync/resources/lib/mqtt_client.py:156-158 | the link is no longer connected and nothing else changes |
| MqttClient.Disconnect | service.cloudsync/resources/lib/mqtt_client.py:261-280 | afterwards the link is neither connected nor enabled; a retained `offline` status on the device's status topic is sent exactly when a connected client existed |
| MqttClient.Stop | service.cloudsync/resources/lib/mqtt_client.py:290-294 | afterwards the link is neither connected nor enabled and keeps its client; a retained `offline` status on the device's status topic is sent exactly when a connected client existed |
| MqttClient.StartConnectStop | service.cloudsync/resources/lib/mqtt_client.py:282-298 | a successful start and a broker acknowledgement leave the client connected; stopping then announces `offline` and every later publish is refused |
| MqttClient.FirstPatternIndex | service.cloudsync/resources/lib/mqtt_client.py:178-179 | the index is that of the first registered pattern that is a substring of the topic, or the number of handlers when none is |
| MqttClient.OnMessage | service.cloudsync/resources/lib/mqtt_client.py:164-187 | an undecodable message goes nowhere; a message carrying this device's id is dropped; a message matching no pattern is unrouted; a delivered message goes to a registered handler whose pattern occurs in the topic, and a raising handler is contained |
| MqttClient.FirstMatchWins | service.cloudsync/resources/lib/mqtt_client.py:178-184 | the handler that runs is the first registered one whose pattern occurs in the topic, whatever follows it |
| MqttClient.OwnPublishIgnored | service.cloudsync/resources/lib/mqtt_client.py:172-173 | a device never handles a message it published itself, when the payload carried no `device_id` of its own |
| MqttClient.RegisterHandler | service.cloudsync/resources/lib/mqtt_client.py:205-207 | the pattern now maps to the handler, every other pattern keeps its handler, and a new pattern goes last |
| MqttClient.DeviceStatusSubscribed | service.cloudsync/resources/lib/mqtt_client.py:191-196 | the status filter receives every device's status topic when the id is a single level |
| MqttClient.StatusTopicFirstMatch | service.cloudsync/resources/lib/mqtt_client.py:178-179 | among the service's patterns, the device pattern is the first to occur in a status topic |
| MqttClient.DeviceStatusReachesPeers | service.cloudsync/resources/lib/mqtt_client.py:164-187 | a device's status message reaches another device's device handler, and the sender drops its own copy as an echo |
| MqttClient.KindSubscribed | service.cloudsync/resources/lib/mqtt_client.py:191-194 | `cloudsync/<kind>/+` receives `cloudsync/<kind>/<id>` for every single-level id |
| MqttClient.WatchedTopicFirstMatch | service.cloudsync/resources/lib/mqtt_client.py:178-179 | the watched pattern is the first to occur in a watched topic |
| MqttClient.ResumeTopicFirstMatch | service.cloudsync/resources/lib/mqtt_client.py:178-179 | the resume pattern is the first to occur in a single-level resume topic |
| MqttClient.WatchedReachesPeers | service.cloudsync/resources/lib/mqtt_client.py:164-222 | a watched message published on `cloudsync/watched/<id>` is received through the watched subscription and handed to another device's watched handler |
| MqttClient.ResumeReachesPeers | service.cloudsync/resources/lib/mqtt_client.py:164-222 | a resume message published on `cloudsync/resume/<id>` is received through the resume subscription and handed to another device's resume handler |
| MqttSyncManager.StubSubscribe | service.cloudsync/resources/lib/mqtt_sync_manager.py:82-86 | a connected client adds exactly the filter to its subscriptions; a disconnected one is left as it was |
| MqttSyncManager.SubscribeAll | service.cloudsync/resources/lib/mqtt_sync_manager.py:220-230 | a connected client ends up subscribed to its old filters plus every filter of the list; a disconnected one is unchanged |
| MqttSyncManager.DeviceId | service.cloudsync/resources/lib/mqtt_sync_manager.py:131-137 | a stored id is kept without writing; otherwise the new id is `kodi_` followed by the first 12 digits of the random hex (all of them when there are fewer), and is written |
| MqttSyncManager.DeviceIdStable | service.cloudsync/resources/lib/mqtt_sync_manager.py:133-136 | the id written by the first call is read back unchanged by every later call |
| MqttSyncManager.PublishDeviceStatus | service.cloudsync/resources/lib/mqtt_sync_manager.py:232-244 | a status is sent exactly while connected, retained, on `cloudsync/devices/<id>/status`, with the device id and the status |
| MqttSyncManager.Initialize | service.cloudsync/resources/lib/mqtt_sync_manager.py:148-190 | initialization succeeds exactly when host and username are set and the port is empty or a number; on success the manager is connected, subscribed to every filter of the list and has announced `online`; on failure nothing changes |
| MqttSyncManager.Start | service.cloudsync/resources/lib/mqtt_sync_manager.py:360-366 | a successful start leaves the manager enabled and connected; a failed one leaves it as it was |
| MqttSyncManager.Stop | service.cloudsync/resources/lib/mqtt_sync_manager.py:368-375 | afterwards the manager is neither enabled nor connected; `offline` is announced exactly when it was connected |
| MqttSyncManager.PublishWatchedChange | service.cloudsync/resources/lib/mqtt_sync_manager.py:246-283 | a message goes out exactly when connected and some unique id has a non-empty value; the topic ends in `<type>/<key>_<value>` of the first such id and the content carries every field that was passed |
| MqttSyncManager.PublishFavoritesChange | service.cloudsync/resources/lib/mqtt_sync_manager.py:285-307 | a message goes out exactly when connected, on `cloudsync/sync/favorites/<action>`, with the action, type and data as content |
| MqttSyncManager.StoppedPublishesNothing | service.cloudsync/resources/lib/mqtt_sync_manager.py:249-250 | after `stop` the manager is not enabled and publishes neither watched changes, nor favourites changes, nor a status |
| MqttSyncManager.Handle | service.cloudsync/resources/lib/mqtt_sync_manager.py:309-350 | a callback runs exactly for a watched or favourites message whose content (missing means `{}`) is an object and whose callback is registered, and it receives that content; device messages are only logged |
| MqttSyncManager.OnMessage | service.cloudsync/resources/lib/mqtt_sync_manager.py:197-218 | undecodable messages, the device's own messages and topics containing no marker lead nowhere; a decodable message from another device whose topic holds a marker goes to the route of the first marker in the `if`/`elif` order; a callback gets the content (`{}` when absent) and runs only when registered |
| MqttSyncManager.StatusUnroutedAsWritten | service.cloudsync/resources/lib/mqtt_sync_manager.py:210-215 | no routing marker as written occurs in a status topic, so its index is past the end of the list |
| MqttSyncManager.PeerStatusDroppedAsWritten | service.cloudsync/resources/lib/mqtt_sync_manager.py:214 | another device's status message, with a generated id, is dropped instead of reaching the device handler |
| MqttSyncManager.PeerStatusRouted | service.cloudsync/resources/lib/mqtt_sync_manager.py:214 | with the marker `/devices/` another device's status message reaches the device handler |
| MqttSyncManager.FiveLevelsMissedAsWritten | service.cloudsync/resources/lib/mqtt_sync_manager.py:222-226 | no filter of the subscription list receives any topic of five levels |
| MqttSyncManager.WatchedMissedAsWritten | service.cloudsync/resources/lib/mqtt_sync_manager.py:223 | no subscription of the manager receives the watched messages it publishes on line 277 |
| MqttSyncManager.WatchedReceived | service.cloudsync/resources/lib/mqtt_sync_manager.py:223 | the filter `cloudsync/sync/watched/+/+` receives every watched message the manager publishes |
| MqttSyncManager.WatchedDelivered | service.cloudsync/resources/lib/mqtt_sync_manager.py:197-211 | a watched message from another device, once received, reaches the registered watched callback with exactly the content that was sent, under the routing as written and the corrected one |
| MqttSyncManager.FavoritesReceived | service.cloudsync/resources/lib/mqtt_sync_manager.py:224 | the favourites filter receives every favourites message published for a single-level action |
| MqttSyncManager.FavoritesTopicFirstMatch | service.cloudsync/resources/lib/mqtt_sync_manager.py:210-213 | the favourites marker, not the watched one, is the first to occur in a favourites topic |
| MqttSyncManager.FavoritesDelivered | service.cloudsync/resources/lib/mqtt_sync_manager.py:197-213 | a favourites message from another device reaches the registered favourites callback with exactly the content that was sent, under the routing as written and the corrected one |

## Left out

- File, SQLite, XML and JSON reading and writing: their results are parameters. A failed read is an `Option` or a flag, as is a failed write, and the stored database is a pair of maps.
- SHA-256 and MD5 hashing: hashes are opaque strings.
- Datetime parsing of `lastplayed`: the parsed time is an optional integer passed in.
- Float modification times and positions: these are integers, compared only for equality and order.
- The cloud transport (the Dropbox provider, HTTP, `old_` backups): uploads and downloads are inputs that succeed or fail, or return content or nothing.
- Threads, the paho network loop, QoS, retained-message delivery and the broker itself: messages are values. Delivery to a subscriber is stated through the section 4.7 filter match.
- `HybridSync.Run`: concurrency is abstracted to a sequence of call and finish events over a flag and a running count.
- `api_write_in_progress`: only a sequential guard.
- The connection details `connect` passes to paho: client id, TLS context, keep-alive and the in-flight and queue settings. They do not affect any decision.
- Logging, notifications and dialogs: no effect on state.
- `kodi_utils.py`, `service_v2.py`, the setup and OAuth servers, the UI and test scripts, the packaging scripts and `favorites_addon.py` are not part of this model. They are wrappers, user interface or build tooling without sync decisions.
- The main loop's waiting, its 60-tick status log and its reconnect attempt: timing only. The 30-tick favourites counter is modelled.
- Handler exceptions are a flag on the delivery: the model records that the error stops at `_on_message`, not the log line.
- `MqttClient.ServiceHandlers` is declared as the list that the service's four `register_handler` calls build, not computed from the calls.
- `MqttClient.Configure`: accepts a port only as plain decimal digits. Python's `int()` also accepts surrounding whitespace, a sign and underscores.
- `MqttSyncManager.Initialize`: the same narrowing of `int()` for the port setting.
- `MqttClient.NameSuffix`: lower-cases ASCII letters only. Python's `lower()` also folds other alphabets.
- `FileChangeTracker.HasFileChanged`: a stored record that is an empty dict is treated as a record with missing fields, giving `mtime_size_changed`. The source reports `no_tracking_data` for it. The tracker never writes such a record itself.
- `DatabaseMonitor.FindChanges`: item values are opaque. The source also reports an update for a key whose old and new item are both empty dicts, and records `{}` rather than nothing as the old value of a new key. Library rows are never empty.
- `HybridSync.SyncWatchedStatusAsWritten`: models only the outcome of the exception the method raises, not the partial reads made before it.
- `ConflictResolver.ComplexMerge`: returns the merged state only. The conflicts the merge appends to the pending list under `ask` are stated as a set by `ConflictResolver.ComplexMergeQueued`; the order in which they are appended follows Python's iteration over the id sets and is not modelled.
- `MessageFlow.Received`: the MQTT envelope and the JSON encoding are taken to carry a message's `content` unchanged; number and string conversions on the way are not modelled.

## Findings

| source | as written | input that shows it | evidently intended | confidence | as-written member | corrected member |
|---|---|---|---|---|---|---|
| service.cloudsync/resources/lib/mqtt_sync_manager.py:214 | device messages are routed on the marker `/device/`, but status messages are published and subscribed on `cloudsync/devices/<id>/status` (lines 225, 243) | a peer with device id `kodi_0123456789ab` publishes `online`; the topic contains `/devices/` and never `/device/`, so the message is dropped | route on `/devices/` so that peers' status messages reach `_handle_device_message`; the bundled `SimpleMQTTClient` (lines 50-93) never calls its message callback, so the defect only shows with a real MQTT client | not executed | MqttSyncManager.PeerStatusDroppedAsWritten | MqttSyncManager.PeerStatusRouted |
| service.cloudsync/resources/lib/hybrid_sync_manager.py:239-243 | a call that finds `sync_in_progress` set returns from inside the `try`, and the `finally` on lines 293-294 clears the flag of the sync that is still running | three calls while the first sync still runs: the second is rejected but clears the flag, so the third starts a second sync | leave the flag alone when a call is rejected, so that at most one sync runs | not executed | HybridSync.TwoSyncsRunAtOnce | HybridSync.SingleFlight |
| service.cloudsync/resources/lib/hybrid_sync_manager.py:355 | the lookup selects a `movie_id` column the table does not have, and lines 364 and 370 use the undefined name `imdb_id`, so every movie with an identity ends in the `except` clause | one movie with imdbnumber `tt1` and playcount 1: nothing is written and the method returns False | look up and write the row keyed by the movie's identity, writing only when playcount or lastplayed differ | not executed | HybridSync.SyncWatchedAsWrittenMissesChange | HybridSync.SyncWatchedChangeIffWrite |
| service.cloudsync/resources/lib/mqtt_sync_manager.py:223 | the watched subscription is `cloudsync/sync/watched/+`, one level after `watched`, but line 277 publishes on `cloudsync/sync/watched/<type>/<key>_<value>`, two levels after it | content type `movie`, uniqueid `imdb=tt1`: the topic `cloudsync/sync/watched/movie/imdb_tt1` has five levels and no filter of the list matches it | subscribe to `cloudsync/sync/watched/+/+` (or `#`) so that peers receive watched changes; the bundled `SimpleMQTTClient` (lines 50-93) never delivers messages, so the defect only shows with a real MQTT client | not executed | MqttSyncManager.WatchedMissedAsWritten | MqttSyncManager.WatchedReceived |
| service.cloudsync/service.py:190 | the resume handler stops when the message has no `uniqueid`, but the monitor's episode resume message carries only `show_uniqueid` (service.cloudsync/resources/lib/kodi_monitor.py:302-314) | an episode of a show with imdb id `tt2` stopped at position 600: the message reaches the handler with `uniqueid` `{}` and nothing is written | for episodes, require the show's unique ids that the episode lookup on line 226 uses | not executed | MessageFlow.EpisodeResumeNeverApplied | Service.HandleResumeCorrected |

=== FILE: common.dfy ===
/** Shared vocabulary for the CloudSync model: an Option type, the Python
    string operations the addon relies on (prefix tests, substring search,
    slicing with negative ends, strip, split, decimal formatting), and
    ordered key/value lists standing in for Python dicts whose iteration
    order matters. */
module Common {

  datatype Option<+T> = None | Some(value: T) {
    function GetOr(default: T): T {
      match this
      case Some(v) => v
      case None => default
    }
  }

  /** Python's `d.get(k)` on a map. */
  function Lookup<K, V>(m: map<K, V>, k: K): Option<V> {
    if k in m then Some(m[k]) else None
  }

  // ---------------------------------------------------------------------
  // Prefixes, suffixes, substrings

  predicate StartsWith(s: string, p: string) {
    |p| <= |s| && s[..|p|] == p
  }

  predicate EndsWith(s: string, p: string) {
    |p| <= |s| && s[|s| - |p|..] == p
  }

  lemma PrefixOfAppend(p: string, x: string)
    ensures StartsWith(p + x, p)
  {
    assert (p + x)[..|p|] == p;
  }

  /** Python's `sub in s`. */
  predicate Contains(s: string, sub: string)
    decreases |s|
  {
    StartsWith(s, sub) || (|s| > 0 && Contains(s[1..], sub))
  }

  /** `sub` occurs in `s` starting at index `i`. */
  predicate OccursAt(s: string, sub: string, i: int) {
    0 <= i && i + |sub| <= |s| && s[i..i + |sub|] == sub
  }

  /** `Contains` agrees with the positional definition of a substring. */
  lemma {:induction false} ContainsAt(s: string, sub: string)
    ensures Contains(s, sub) <==> exists i :: OccursAt(s, sub, i)
    decreases |s|
  {
    if StartsWith(s, sub) {
      assert OccursAt(s, sub, 0);
    } else if |s| == 0 {
      assert forall i :: !OccursAt(s, sub, i);
    } else {
      ContainsAt(s[1..], sub);
      if Contains(s, sub) {
        var i :| OccursAt(s[1..], sub, i);
        assert s[i + 1..i + 1 + |sub|] == s[1..][i..i + |sub|];
        assert OccursAt(s, sub, i + 1);
      }
      if exists i :: OccursAt(s, sub, i) {
        var i :| OccursAt(s, sub, i);
        assert i != 0;
        assert s[1..][i - 1..i - 1 + |sub|] == s[i..i + |sub|];
        assert OccursAt(s[1..], sub, i - 1);
      }
    }
  }

  /** Python `s[a:-b]` for a >= 0 and b > 0: the slice is empty once the
      start passes the end. */
  function SliceDrop(s: string, a: nat, b: nat): (r: string)
    ensures a + b <= |s| ==> |r| == |s| - a - b
    ensures a + b > |s| ==> r == []
    ensures forall i :: 0 <= i < |r| ==> r[i] == s[a + i]
  {
    if a + b <= |s| then s[a..|s| - b] else []
  }

  // ---------------------------------------------------------------------
  // Whitespace and character stripping

  /** Python's `str.isspace()` for one character. */
  predicate IsSpace(c: char) {
    var n := c as int;
    (0x09 <= n <= 0x0D) || (0x1C <= n <= 0x20) || n == 0x85 || n == 0xA0
    || n == 0x1680 || (0x2000 <= n <= 0x200A) || n == 0x2028 || n == 0x2029
    || n == 0x202F || n == 0x205F || n == 0x3000
  }

  /** The characters a strip removes: whitespace, or one given character. */
  datatype CharClass = Whitespace | Only(c: char)

  predicate InClass(k: CharClass, c: char) {
    match k
    case Whitespace => IsSpace(c)
    case Only(x) => c == x
  }

  function TrimLeft(s: string, k: CharClass): (r: string)
    ensures |r| <= |s| && r == s[|s| - |r|..]
    ensures |r| > 0 ==> !InClass(k, r[0])
    ensures forall i :: 0 <= i < |s| - |r| ==> InClass(k, s[i])
  {
    if |s| > 0 && InClass(k, s[0]) then
      var r := TrimLeft(s[1..], k);
      assert forall i :: 1 <= i < |s| - |r| ==> s[i] == s[1..][i - 1];
      r
    else s
  }

  function TrimRight(s: string, k: CharClass): (r: string)
    ensures |r| <= |s| && r == s[..|r|]
    ensures |r| > 0 ==> !InClass(k, r[|r| - 1])
    ensures forall i :: |r| <= i < |s| ==> InClass(k, s[i])
  {
    if |s| > 0 && InClass(k, s[|s| - 1]) then
      var r := TrimRight(s[..|s| - 1], k);
      assert forall i :: |r| <= i < |s| - 1 ==> s[i] == s[..|s| - 1][i];
      r
    else s
  }

  /** Python `s.strip()`. */
  function Strip(s: string): (r: string)
    ensures |r| <= |s|
    ensures |r| > 0 ==> !IsSpace(r[0]) && !IsSpace(r[|r| - 1])
  {
    TrimRight(TrimLeft(s, Whitespace), Whitespace)
  }

  /** Python `s.strip(c)` for a single character `c`. */
  function StripChar(s: string, c: char): (r: string)
    ensures |r| <= |s|
    ensures |r| > 0 ==> r[0] != c && r[|r| - 1] != c
  {
    TrimRight(TrimLeft(s, Only(c)), Only(c))
  }

  /** A string with no whitespace at either end is left alone by `strip`. */
  lemma StripNoop(s: string)
    requires |s| > 0 ==> !IsSpace(s[0]) && !IsSpace(s[|s| - 1])
    ensures Strip(s) == s
  {
    assert TrimLeft(s, Whitespace) == s;
  }

  /** Stripping is idempotent: a stripped string has nothing left to strip. */
  lemma StripIdempotent(s: string)
    ensures Strip(Strip(s)) == Strip(s)
  {
    var r := Strip(s);
    assert TrimLeft(r, Whitespace) == r;
  }

  // ---------------------------------------------------------------------
  // Splitting

  /** Python `s.split(c)`: the pieces between occurrences of `c`, always at
      least one. */
  function Split(s: string, c: char): (parts: seq<string>)
    ensures |parts| >= 1
    ensures forall k :: 0 <= k < |parts| ==> c !in parts[k]
    decreases |s|
  {
    if c !in s then [s]
    else
      var i := IndexOf(s, c);
      [s[..i]] + Split(s[i + 1..], c)
  }

  function IndexOf(s: string, c: char): (i: nat)
    requires c in s
    ensures i < |s| && s[i] == c && c !in s[..i]
  {
    if s[0] == c then 0
    else
      assert c in s[1..] by { var j :| 0 <= j < |s| && s[j] == c; assert s[1..][j - 1] == c; }
      var k := IndexOf(s[1..], c);
      assert s[..k + 1] == [s[0]] + s[1..][..k];
      k + 1
  }

  function Join(parts: seq<string>, c: char): string
    requires |parts| >= 1
  {
    if |parts| == 1 then parts[0] else parts[0] + [c] + Join(parts[1..], c)
  }

  /** Joining the pieces with the separator gives back the original. */
  lemma {:induction false} SplitJoin(s: string, c: char)
    ensures Join(Split(s, c), c) == s
    decreases |s|
  {
    if c in s {
      var i := IndexOf(s, c);
      SplitJoin(s[i + 1..], c);
      assert Split(s, c)[1..] == Split(s[i + 1..], c);
      assert s == s[..i] + [c] + s[i + 1..];
    }
  }

  /** The first `c` in `a + [c] + b` is the one after `a` when `a` has none. */
  lemma {:induction false} IndexOfAfter(a: string, c: char, b: string)
    requires c !in a
    ensures IndexOf(a + [c] + b, c) == |a|
  {
    var s := a + [c] + b;
    assert s[|a|] == c;
    var i := IndexOf(s, c);
    assert forall j :: 0 <= j < |a| ==> s[j] == a[j];
    assert forall j :: 0 <= j < i ==> s[..i][j] == s[j] != c;
  }

  /** Splitting a join of separator-free pieces gives the pieces back. */
  lemma {:induction false} JoinSplit(parts: seq<string>, c: char)
    requires |parts| >= 1
    requires forall k :: 0 <= k < |parts| ==> c !in parts[k]
    ensures Split(Join(parts, c), c) == parts
    decreases |parts|
  {
    if |parts| > 1 {
      var tail := parts[1..];
      assert forall k :: 0 <= k < |tail| ==> tail[k] == parts[k + 1];
      JoinSplit(tail, c);
      JoinSplitStep(parts[0], tail, c);
      assert [parts[0]] + tail == parts;
    }
  }

  /** One more separator-free piece in front of a join that splits back. */
  lemma JoinSplitStep(p: string, tail: seq<string>, c: char)
    requires |tail| >= 1 && c !in p
    requires Split(Join(tail, c), c) == tail
    ensures Split(Join([p] + tail, c), c) == [p] + tail
  {
    assert ([p] + tail)[1..] == tail;
    assert Join([p] + tail, c) == p + [c] + Join(tail, c);
    SplitLeading(p, c, Join(tail, c));
  }

  /** Splitting `w + c + t`, with `w` free of `c`, yields `w` first. */
  lemma SplitLeading(w: string, c: char, t: string)
    requires c !in w
    ensures Split(w + [c] + t, c) == [w] + Split(t, c)
  {
    var s := w + [c] + t;
    IndexOfAfter(w, c, t);
    assert s[..|w|] == w;
    assert s[|w| + 1..] == t;
  }

  /** No occurrence of `c` comes before the first one. */
  lemma IndexOfFirst(s: string, c: char, i: int)
    requires 0 <= i < |s| && s[i] == c
    ensures c in s && IndexOf(s, c) <= i
  {
    assert forall j :: 0 <= j < IndexOf(s, c) ==> s[..IndexOf(s, c)][j] == s[j];
  }

  /** A string opening with `w + c` splits into `w` and at least one more piece. */
  lemma SplitOpening(s: string, c: char, w: string)
    requires c !in w
    requires |w| < |s| && s[..|w| + 1] == w + [c]
    ensures |Split(s, c)| >= 2 && Split(s, c)[0] == w
  {
    assert s == w + [c] + s[|w| + 1..];
    SplitLeading(w, c, s[|w| + 1..]);
  }

  /** An occurrence survives dropping a prefix that ends before it. */
  lemma OccursShift(s: string, sub: string, i: int, d: int)
    requires OccursAt(s, sub, i) && 0 <= d <= i
    ensures OccursAt(s[d..], sub, i - d)
  {
    assert s[d..][i - d..i - d + |sub|] == s[i..i + |sub|];
  }

  /** The separator right at the first `c`: the piece after it is `w`. */
  lemma DelimitedAtFirst(s: string, c: char, w: string)
    requires c !in w && c in s
    requires OccursAt(s, [c] + w + [c], IndexOf(s, c))
    ensures |Split(s, c)| >= 3 && Split(s, c)[1] == w
  {
    var m := IndexOf(s, c);
    var rest := s[m + 1..];
    assert rest[..|w| + 1] == s[m..m + |w| + 2][1..] == ([c] + w + [c])[1..];
    SplitOpening(rest, c, w);
  }

  /** An occurrence of `c + w + c`, with `w` free of `c`, sits exactly on a
      piece of the split that is neither the first nor the last. */
  lemma {:induction false} DelimitedOccurrence(s: string, c: char, w: string, i: int)
    requires c !in w
    requires OccursAt(s, [c] + w + [c], i)
    ensures exists k :: 0 < k < |Split(s, c)| - 1 && Split(s, c)[k] == w
    decreases |s|
  {
    var pat := [c] + w + [c];
    assert s[i] == c by {
      assert s[i..i + |pat|][0] == s[i];
    }
    IndexOfFirst(s, c, i);
    var m := IndexOf(s, c);
    if i == m {
      DelimitedAtFirst(s, c, w);
      assert 0 < 1 < |Split(s, c)| - 1;
    } else {
      var rest := s[m + 1..];
      OccursShift(s, pat, i, m + 1);
      DelimitedOccurrence(rest, c, w, i - m - 1);
      var k :| 0 < k < |Split(rest, c)| - 1 && Split(rest, c)[k] == w;
      assert Split(s, c)[1..] == Split(rest, c);
      assert 0 < k + 1 < |Split(s, c)| - 1 && Split(s, c)[k + 1] == w;
    }
  }

  /** Whatever contains `a + b` contains `b`. */
  lemma ContainsSuffix(s: string, a: string, b: string)
    requires Contains(s, a + b)
    ensures Contains(s, b)
  {
    ContainsAt(s, a + b);
    var i :| OccursAt(s, a + b, i);
    assert s[i + |a|..i + |a| + |b|] == (a + b)[|a|..];
    assert OccursAt(s, b, i + |a|);
    ContainsAt(s, b);
  }

  // ---------------------------------------------------------------------
  // Character mapping

  /** Python `s.lower()` restricted to the ASCII letters. */
  function LowerAscii(s: string): (r: string)
    ensures |r| == |s|
    ensures forall i :: 0 <= i < |s| ==>
      r[i] == (if 'A' <= s[i] <= 'Z' then (s[i] as int + 32) as char else s[i])
  {
    if |s| == 0 then []
    else [if 'A' <= s[0] <= 'Z' then (s[0] as int + 32) as char else s[0]] + LowerAscii(s[1..])
  }

  /** Python `s.replace(a, b)` for single characters. */
  function ReplaceChar(s: string, a: char, b: char): (r: string)
    ensures |r| == |s|
    ensures forall i :: 0 <= i < |s| ==> r[i] == (if s[i] == a then b else s[i])
  {
    if |s| == 0 then [] else [if s[0] == a then b else s[0]] + ReplaceChar(s[1..], a, b)
  }

  // ---------------------------------------------------------------------
  // Decimal numbers

  predicate IsDigit(c: char) { '0' <= c <= '9' }

  predicate AllDigits(s: string) { forall i :: 0 <= i < |s| ==> IsDigit(s[i]) }

  function DigitChar(d: nat): (c: char)
    requires d < 10
    ensures IsDigit(c)
  {
    ('0' as int + d) as char
  }

  /** Decimal digits of a natural number, no leading zeros ("0" for zero). */
  function NatToString(n: nat): (r: string)
    ensures |r| >= 1 && AllDigits(r)
    ensures n >= 10 ==> |r| >= 2
    ensures n < 10 ==> |r| == 1
    ensures r[0] == '0' ==> n == 0
  {
    if n < 10 then [DigitChar(n)] else NatToString(n / 10) + [DigitChar(n % 10)]
  }

  /** Python `str(n)`. */
  function IntToString(n: int): string {
    if n >= 0 then NatToString(n) else "-" + NatToString(-n)
  }

  /** Value of a string of decimal digits. */
  function DigitsValue(s: string): nat
    requires AllDigits(s)
  {
    if |s| == 0 then 0 else DigitsValue(s[..|s| - 1]) * 10 + (s[|s| - 1] as int - '0' as int)
  }

  /** Reading back the printed digits gives the number. */
  lemma {:induction false} NatToStringRoundTrip(n: nat)
    ensures DigitsValue(NatToString(n)) == n
  {
    if n >= 10 {
      NatToStringRoundTrip(n / 10);
      var r := NatToString(n);
      assert r[..|r| - 1] == NatToString(n / 10);
    }
  }

  /** Distinct naturals print differently. */
  lemma NatToStringInjective(m: nat, n: nat)
    requires NatToString(m) == NatToString(n)
    ensures m == n
  {
    NatToStringRoundTrip(m);
    NatToStringRoundTrip(n);
  }

  /** Python `f"{n:02d}"`: zero-padded to width two; a sign counts towards
      the width, so negative numbers are never padded. */
  function Pad2(n: int): (r: string)
    ensures 0 <= n < 100 ==> |r| == 2
    ensures n >= 0 ==> AllDigits(r) && DigitsValue(r) == n
    ensures n >= 0 ==> 'E' !in r
  {
    if n < 0 then "-" + NatToString(-n)
    else
      NatToStringRoundTrip(n);
      var d := NatToString(n);
      if |d| < 2 then
        assert DigitsValue("0" + d) == DigitsValue(d) by {
          assert ("0" + d)[..1] == "0";
        }
        "0" + d
      else d
  }

  /** Different non-negative numbers give different padded strings. */
  lemma Pad2Injective(m: int, n: int)
    requires m >= 0 && n >= 0 && Pad2(m) == Pad2(n)
    ensures m == n
  {
  }

  /** Python `int(s)` restricted to unsigned decimal digits. */
  function ParseNat(s: string): (r: Option<nat>)
    ensures r.Some? <==> |s| > 0 && AllDigits(s)
    ensures r.Some? ==> r.value == DigitsValue(s)
  {
    if |s| > 0 && AllDigits(s) then Some(DigitsValue(s)) else None
  }

  /** Parsing the printed form of a natural gives it back. */
  lemma ParseNatRoundTrip(n: nat)
    ensures ParseNat(NatToString(n)) == Some(n)
  {
    NatToStringRoundTrip(n);
  }

  // ---------------------------------------------------------------------
  // Ordered key/value lists (Python dicts whose order matters)

  type AssocList<K, V> = seq<(K, V)>

  function Keys<K, V>(d: AssocList<K, V>): (ks: seq<K>)
    ensures |ks| == |d|
    ensures forall i :: 0 <= i < |d| ==> ks[i] == d[i].0
  {
    if |d| == 0 then [] else [d[0].0] + Keys(d[1..])
  }

  /** Python `d.get(k)`: the value of the first entry with key `k`. */
  function Get<K(==), V(==)>(d: AssocList<K, V>, k: K): (r: Option<V>)
    ensures r.None? <==> forall i :: 0 <= i < |d| ==> d[i].0 != k
    ensures r.Some? ==> exists i :: 0 <= i < |d| && d[i] == (k, r.value)
  {
    if |d| == 0 then None
    else if d[0].0 == k then Some(d[0].1)
    else
      var r := Get(d[1..], k);
      if r.Some? then
        var i :| 0 <= i < |d[1..]| && d[1..][i] == (k, r.value);
        assert d[i + 1] == (k, r.value);
        r
      else r
  }

  /** `Get` finds the first entry with the key. */
  lemma {:induction false} GetFirst<K, V>(d: AssocList<K, V>, k: K, i: nat)
    requires i < |d| && d[i].0 == k
    requires forall j :: 0 <= j < i ==> d[j].0 != k
    ensures Get(d, k) == Some(d[i].1)
    decreases i
  {
    if i > 0 {
      GetFirst(d[1..], k, i - 1);
    }
  }

  /** Python `d[k] = v`: an existing key keeps its position, a new key is
      appended. */
  function Put<K(==,!new), V(==)>(d: AssocList<K, V>, k: K, v: V): (r: AssocList<K, V>)
    ensures Get(r, k) == Some(v)
    ensures forall j :: j != k ==> Get(r, j) == Get(d, j)
    ensures Get(d, k).Some? ==> |r| == |d|
    ensures Get(d, k).None? ==> r == d + [(k, v)]
  {
    if |d| == 0 then [(k, v)]
    else if d[0].0 == k then [(k, v)] + d[1..]
    else
      var t := Put(d[1..], k, v);
      assert forall j :: j != d[0].0 ==> Get([d[0]] + t, j) == Get(t, j);
      [d[0]] + t
  }

  /** No key occurs twice, as in every Python dict. */
  predicate UniqueKeys<K(==), V>(d: AssocList<K, V>) {
    forall i, j :: 0 <= i < j < |d| ==> d[i].0 != d[j].0
  }

  /** Python `{**a, **b}`: every entry of `b` written over `a` in order. */
  function Merge<K(==,!new), V(==)>(a: AssocList<K, V>, b: AssocList<K, V>): (r: AssocList<K, V>)
    requires UniqueKeys(b)
    ensures forall k :: Get(r, k) == (if Get(b, k).Some? then Get(b, k) else Get(a, k))
    decreases |b|
  {
    if |b| == 0 then a
    else
      var r := Merge(Put(a, b[0].0, b[0].1), b[1..]);
      assert Get(b[1..], b[0].0).None?;
      r
  }

  /** Position of the first entry whose value is a non-empty string, or
      `|d|` when there is none: the first truthy value of a dict. */
  function FirstNonEmptyIndex<K>(d: AssocList<K, string>): (i: nat)
    ensures i <= |d|
    ensures forall j :: 0 <= j < i ==> d[j].1 == ""
    ensures i < |d| ==> d[i].1 != ""
  {
    if |d| == 0 then 0
    else if d[0].1 != "" then 0
    else 1 + FirstNonEmptyIndex(d[1..])
  }

  /** The first entry of `d` with a non-empty value. */
  function FirstNonEmpty<K>(d: AssocList<K, string>): (r: Option<(K, string)>)
    ensures r.None? <==> forall j :: 0 <= j < |d| ==> d[j].1 == ""
    ensures r.Some? ==> r.value.1 != "" && r.value in d
  {
    var i := FirstNonEmptyIndex(d);
    if i < |d| then Some(d[i]) else None
  }
}

=== FILE: conflict_resolver.dfy ===
/** The conflict resolver: given a local and a remote version of a library
    row or of a file, pick the winner under the configured strategy, queueing
    the conflict when the strategy is `ask`, and merge whole database
    snapshots key by key. */
module ConflictResolver {
  import opened Common

  /** The strategy names the resolver understands; any other name is kept
      as given and behaves like `newer`. */
  datatype Strategy = Newer | KeepLocal | KeepRemote | Ask | Unrecognised(name: string)

  const StrategyNames: seq<string> := ["newer", "local", "remote", "ask"]

  function StrategyNamed(name: string): (s: Strategy)
    ensures name !in StrategyNames <==> s.Unrecognised?
    ensures s.Unrecognised? ==> s.name == name
  {
    if name == "newer" then Newer
    else if name == "local" then KeepLocal
    else if name == "remote" then KeepRemote
    else if name == "ask" then Ask
    else Unrecognised(name)
  }

  /** A library row as the resolver reads it: the parsed `lastplayed`
      timestamp (None when absent, empty or unparsable), the play count and
      the resume position (both 0 when absent), and the remaining fields. */
  datatype DbItem = DbItem(lastplayed: Option<int>, playcount: int, position: int, rest: string)

  /** A recorded conflict; `at` is the clock reading when it was recorded.
      `localModified` is the `modified_time` of a non-empty local file state
      (0 when that state lacks the key), None when no state was given. */
  datatype Conflict =
    | DatabaseConflict(itemType: string, itemId: string, localItem: DbItem, remoteItem: DbItem, at: int)
    | FileConflict(filename: string, localContent: string, remoteContent: string,
                   localModified: Option<int>, at: int)

  datatype Side = LocalSide | RemoteSide

  datatype Resolver = Resolver(strategy: Strategy, pending: seq<Conflict>)

  /** The constructor's default strategy. */
  const Initial: Resolver := Resolver(Newer, [])

  /** The comparable time of a library row: its parsed last-played time,
      else its play count. */
  function ItemTime(d: DbItem): int {
    if d.lastplayed.Some? then d.lastplayed.value else d.playcount
  }

  /** The comparable timestamp of one side of a conflict. Database rows use
      the parsed last-played time and fall back to the play count; for files
      the remote side is always 0 and the local side is the file state's
      modification time, or the current time when no state was given. */
  function ExtractTimestamp(c: Conflict, side: Side): (t: int)
    ensures c.DatabaseConflict? ==>
      t == ItemTime(if side == LocalSide then c.localItem else c.remoteItem)
    ensures c.FileConflict? && side == RemoteSide ==> t == 0
    ensures c.FileConflict? && side == LocalSide ==> t == c.localModified.GetOr(c.at)
  {
    match c
    case DatabaseConflict(_, _, l, r, _) =>
      ItemTime(if side == LocalSide then l else r)
    case FileConflict(_, _, _, m, at) =>
      if side == LocalSide && m.Some? then m.value
      else if side == RemoteSide then 0
      else at
  }

  /** `newer`: the strictly greater timestamp wins, ties keep local. */
  function ResolveByTimestamp(c: Conflict): (s: Side)
    ensures s == RemoteSide <==> ExtractTimestamp(c, RemoteSide) > ExtractTimestamp(c, LocalSide)
  {
    var lt := ExtractTimestamp(c, LocalSide);
    var rt := ExtractTimestamp(c, RemoteSide);
    if lt > rt then LocalSide else if rt > lt then RemoteSide else LocalSide
  }

  /** Apply the configured strategy to a genuine conflict. Only `ask`
      changes the resolver: it queues the conflict, then decides as `newer`. */
  function ApplyStrategy(r: Resolver, c: Conflict): (out: (Side, Resolver))
    ensures out.1.strategy == r.strategy
    ensures r.strategy == KeepLocal ==> out.0 == LocalSide
    ensures r.strategy == KeepRemote ==> out.0 == RemoteSide
    ensures r.strategy != KeepLocal && r.strategy != KeepRemote ==> out.0 == ResolveByTimestamp(c)
    ensures out.1.pending == if r.strategy == Ask then r.pending + [c] else r.pending
  {
    match r.strategy
    case KeepLocal => (LocalSide, r)
    case KeepRemote => (RemoteSide, r)
    case Newer => (ResolveByTimestamp(c), r)
    case Ask => (ResolveByTimestamp(c), r.(pending := r.pending + [c]))
    case Unrecognised(_) => (ResolveByTimestamp(c), r)
  }

  function Pick<T>(s: Side, local: T, remote: T): T {
    if s == LocalSide then local else remote
  }

  /** Resolve two versions of a library row; None stands for a missing or
      empty row. Identical versions and a single present version are not
      conflicts and leave the resolver untouched. */
  function ResolveDatabaseConflict(r: Resolver, local: Option<DbItem>, remote: Option<DbItem>,
                                   itemType: string, itemId: string, now: int): (out: (Option<DbItem>, Resolver))
    ensures out.0 == local || out.0 == remote
    ensures out.0.None? <==> local.None? && remote.None?
    ensures local == remote ==> out == (local, r)
    ensures local.None? ==> out == (remote, r)
    ensures remote.None? ==> out == (local, r)
    ensures out.1.strategy == r.strategy
    ensures local.Some? && remote.Some? && local != remote ==>
      && (r.strategy == KeepLocal ==> out.0 == local)
      && (r.strategy == KeepRemote ==> out.0 == remote)
      && (r.strategy != KeepLocal && r.strategy != KeepRemote ==>
            (out.0 == remote <==> ItemTime(remote.value) > ItemTime(local.value)))
      && out.1.pending == r.pending + (if r.strategy == Ask then [DatabaseConflict(itemType, itemId, local.value, remote.value, now)] else [])
  {
    if local == remote then (local, r)
    else if local.None? then (remote, r)
    else if remote.None? then (local, r)
    else
      var c := DatabaseConflict(itemType, itemId, local.value, remote.value, now);
      var (side, r') := ApplyStrategy(r, c);
      (Pick(side, local, remote), r')
  }

  predicate Truthy(s: Option<string>) { s.Some? && s.value != "" }

  /** Resolve two versions of a file's content; None and "" are both empty.
      Two different versions that are both empty or both non-empty are a
      genuine conflict. Under `newer` the remote file's timestamp is 0, so it
      wins only against a negative local one. */
  function ResolveFileConflict(r: Resolver, filename: string, local: Option<string>, remote: Option<string>,
                               localModified: Option<int>, now: int): (out: (Option<string>, Resolver))
    ensures out.0 == local || out.0 == remote
    ensures local == remote ==> out == (local, r)
    ensures !Truthy(local) && Truthy(remote) ==> out == (remote, r)
    ensures Truthy(local) && !Truthy(remote) ==> out == (local, r)
    ensures out.1.strategy == r.strategy
    ensures local != remote && Truthy(local) == Truthy(remote) ==>
      && (r.strategy == KeepLocal ==> out.0 == local)
      && (r.strategy == KeepRemote ==> out.0 == remote)
      && (r.strategy != KeepLocal && r.strategy != KeepRemote ==> (out.0 == remote <==> localModified.GetOr(now) < 0))
      && out.1.pending == r.pending + (if r.strategy == Ask
                                       then [FileConflict(filename, local.GetOr(""), remote.GetOr(""), localModified, now)]
                                       else [])
  {
    if local == remote then (local, r)
    else if !Truthy(local) && Truthy(remote) then (remote, r)
    else if Truthy(local) && !Truthy(remote) then (local, r)
    else
      var c := FileConflict(filename, local.GetOr(""), remote.GetOr(""), localModified, now);
      var (side, r') := ApplyStrategy(r, c);
      (Pick(side, local, remote), r')
  }

  /** `set_strategy`: only the four known names replace the strategy. */
  function SetStrategy(r: Resolver, name: string): (r': Resolver)
    ensures r'.pending == r.pending
    ensures name in StrategyNames ==> r'.strategy == StrategyNamed(name)
    ensures name !in StrategyNames ==> r' == r
  {
    if name in StrategyNames then r.(strategy := StrategyNamed(name)) else r
  }

  function ClearPending(r: Resolver): (r': Resolver)
    ensures r'.strategy == r.strategy && r'.pending == []
  {
    r.(pending := [])
  }

  // -----------------------------------------------------------------------
  // Properties relating several calls

  /** Identical versions come back unchanged under every strategy. */
  lemma IdenticalIsNoConflict(r: Resolver, item: Option<DbItem>, t: string, id: string, now: int)
    ensures ResolveDatabaseConflict(r, item, item, t, id, now) == (item, r)
  {
  }

  /** `ask` queues exactly one record and then agrees with `newer`; an
      unrecognised strategy agrees with `newer` too. */
  lemma AskAndUnrecognisedBehaveAsNewer(pending: seq<Conflict>, name: string,
                                        local: DbItem, remote: DbItem, t: string, id: string, now: int)
    requires local != remote
    ensures var (w, r') := ResolveDatabaseConflict(Resolver(Ask, pending), Some(local), Some(remote), t, id, now);
      && w == ResolveDatabaseConflict(Resolver(Newer, pending), Some(local), Some(remote), t, id, now).0
      && r'.pending == pending + [DatabaseConflict(t, id, local, remote, now)]
    ensures name !in StrategyNames ==>
      var out := ResolveDatabaseConflict(Resolver(StrategyNamed(name), pending), Some(local), Some(remote), t, id, now);
      out.0 == ResolveDatabaseConflict(Resolver(Newer, pending), Some(local), Some(remote), t, id, now).0
      && out.1.pending == pending
  {
  }

  /** Under `newer` two present, different rows resolve to the remote one
      exactly when its timestamp is strictly greater: ties keep local. */
  lemma NewerTieGoesToLocal(pending: seq<Conflict>, local: DbItem, remote: DbItem, t: string, id: string, now: int)
    requires local != remote
    ensures ResolveDatabaseConflict(Resolver(Newer, pending), Some(local), Some(remote), t, id, now).0
      == (if ItemTime(remote) > ItemTime(local) then Some(remote) else Some(local))
  {
  }

  /** For files the remote timestamp is 0, so under `newer` the local file
      wins whenever its timestamp is not negative. */
  lemma FileNewerPrefersLocal(pending: seq<Conflict>, f: string, local: string, remote: string,
                              localModified: Option<int>, now: int)
    requires local != "" && remote != "" && local != remote
    ensures var lt := localModified.GetOr(now);
      ResolveFileConflict(Resolver(Newer, pending), f, Some(local), Some(remote), localModified, now).0
      == (if lt >= 0 then Some(local) else Some(remote))
  {
  }

  // -----------------------------------------------------------------------
  // Complex merge of whole snapshots

  /** A database snapshot: watched movies, watched episodes and resume points
      keyed by item id, and the snapshot's timestamp. */
  datatype DbState = DbState(movies: map<string, DbItem>, episodes: map<string, DbItem>,
                             resume: map<string, DbItem>, timestamp: int)

  function Winner(s: Strategy, local: Option<DbItem>, remote: Option<DbItem>, t: string, id: string, now: int): Option<DbItem> {
    ResolveDatabaseConflict(Resolver(s, []), local, remote, t, id, now).0
  }

  /** The winner does not depend on what is already queued. */
  lemma WinnerIgnoresPending(r: Resolver, local: Option<DbItem>, remote: Option<DbItem>, t: string, id: string, now: int)
    ensures ResolveDatabaseConflict(r, local, remote, t, id, now).0 == Winner(r.strategy, local, remote, t, id, now)
  {
  }

  /** Key-wise merge of watched movies or episodes: every id of either side,
      resolved as a database conflict. */
  function MergeItems(s: Strategy, kind: string, l: map<string, DbItem>, r: map<string, DbItem>, now: int)
    : (m: map<string, DbItem>)
    ensures m.Keys == l.Keys + r.Keys
    ensures forall k :: k in m ==> Some(m[k]) == Winner(s, Lookup(l, k), Lookup(r, k), kind, k, now)
  {
    map k | k in l.Keys + r.Keys :: Winner(s, Lookup(l, k), Lookup(r, k), kind, k, now).value
  }

  /** One resume point: more progress wins, equal positions go to the
      conflict resolver. */
  function MergeResumePoint(s: Strategy, l: Option<DbItem>, r: Option<DbItem>, id: string, now: int): (w: Option<DbItem>)
    requires l.Some? || r.Some?
    ensures w.Some? && (w == l || w == r)
    ensures l.Some? && r.Some? && l.value.position > r.value.position ==> w == l
    ensures l.Some? && r.Some? && r.value.position > l.value.position ==> w == r
    ensures l.Some? && r.Some? && l.value.position == r.value.position ==> w == Winner(s, l, r, "resume", id, now)
    ensures l.None? ==> w == r
    ensures r.None? ==> w == l
  {
    if l.Some? && r.Some? then
      if l.value.position > r.value.position then l
      else if r.value.position > l.value.position then r
      else Winner(s, l, r, "resume", id, now)
    else if l.Some? then l
    else r
  }

  function MergeResume(s: Strategy, l: map<string, DbItem>, r: map<string, DbItem>, now: int): (m: map<string, DbItem>)
    ensures m.Keys == l.Keys + r.Keys
    ensures forall k :: k in m ==> Some(m[k]) == MergeResumePoint(s, Lookup(l, k), Lookup(r, k), k, now)
  {
    map k | k in l.Keys + r.Keys :: MergeResumePoint(s, Lookup(l, k), Lookup(r, k), k, now).value
  }

  /** `resolve_complex_database_merge`; None stands for an empty snapshot. */
  function ComplexMerge(s: Strategy, local: Option<DbState>, remote: Option<DbState>, now: int): (m: Option<DbState>)
    ensures remote.None? ==> m == local
    ensures local.None? && remote.Some? ==> m == remote
    ensures local.Some? && remote.Some? ==> (
      && m.Some?
      && m.value.movies.Keys == local.value.movies.Keys + remote.value.movies.Keys
      && m.value.episodes.Keys == local.value.episodes.Keys + remote.value.episodes.Keys
      && m.value.resume.Keys == local.value.resume.Keys + remote.value.resume.Keys
      && (forall k :: k in m.value.movies ==>
            Some(m.value.movies[k]) == Winner(s, Lookup(local.value.movies, k), Lookup(remote.value.movies, k), "movie", k, now))
      && (forall k :: k in m.value.episodes ==>
            Some(m.value.episodes[k]) == Winner(s, Lookup(local.value.episodes, k), Lookup(remote.value.episodes, k), "episode", k, now))
      && (forall k :: k in m.value.resume ==>
            Some(m.value.resume[k]) == MergeResumePoint(s, Lookup(local.value.resume, k), Lookup(remote.value.resume, k), k, now))
      && m.value.timestamp >= local.value.timestamp && m.value.timestamp >= remote.value.timestamp
      && (m.value.timestamp == local.value.timestamp || m.value.timestamp == remote.value.timestamp))
  {
    if remote.None? then local
    else if local.None? then remote
    else
      var l := local.value;
      var r := remote.value;
      Some(DbState(MergeItems(s, "movie", l.movies, r.movies, now),
                   MergeItems(s, "episode", l.episodes, r.episodes, now),
                   MergeResume(s, l.resume, r.resume, now),
                   if l.timestamp >= r.timestamp then l.timestamp else r.timestamp))
  }

  /** What resolving one id of a merge queues: the pending list of a fresh
      resolver with the strategy after resolving that id. */
  function QueuedFor(s: Strategy, kind: string, l: map<string, DbItem>, r: map<string, DbItem>, k: string, now: int)
    : (p: seq<Conflict>)
    ensures s == Ask && k in l && k in r && l[k] != r[k] ==> p == [DatabaseConflict(kind, k, l[k], r[k], now)]
    ensures !(s == Ask && k in l && k in r && l[k] != r[k]) ==> p == []
  {
    ResolveDatabaseConflict(Resolver(s, []), Lookup(l, k), Lookup(r, k), kind, k, now).1.pending
  }

  /** The conflicts the loop over movie or episode ids appends to the
      pending list: one per id whose two rows are present and differ, and
      only under `ask`. */
  function MergeItemsQueued(s: Strategy, kind: string, l: map<string, DbItem>, r: map<string, DbItem>, now: int)
    : (q: set<Conflict>)
    ensures s != Ask ==> q == {}
    ensures s == Ask ==> forall k :: k in l && k in r && l[k] != r[k] ==> DatabaseConflict(kind, k, l[k], r[k], now) in q
    ensures forall c :: c in q ==>
      && c.DatabaseConflict? && c.itemType == kind && c.at == now && c.itemId in l && c.itemId in r
      && c.localItem == l[c.itemId] && c.remoteItem == r[c.itemId] && c.localItem != c.remoteItem
  {
    var q := set k, c | k in l.Keys + r.Keys && c in QueuedFor(s, kind, l, r, k, now) :: c;
    assert s == Ask ==> forall k :: k in l && k in r && l[k] != r[k] ==> DatabaseConflict(kind, k, l[k], r[k], now) in q by {
      forall k | s == Ask && k in l && k in r && l[k] != r[k]
        ensures DatabaseConflict(kind, k, l[k], r[k], now) in q
      {
        var c := DatabaseConflict(kind, k, l[k], r[k], now);
        assert QueuedFor(s, kind, l, r, k, now) == [c];
        assert k in l.Keys + r.Keys && c in QueuedFor(s, kind, l, r, k, now);
      }
    }
    q
  }

  /** The conflicts the loop over resume ids appends: only ids present on
      both sides with equal positions reach the resolver. */
  function MergeResumeQueued(s: Strategy, l: map<string, DbItem>, r: map<string, DbItem>, now: int)
    : (q: set<Conflict>)
    ensures s != Ask ==> q == {}
    ensures s == Ask ==> forall k :: k in l && k in r && l[k] != r[k] && l[k].position == r[k].position ==>
      DatabaseConflict("resume", k, l[k], r[k], now) in q
    ensures forall c :: c in q ==>
      && c.DatabaseConflict? && c.itemType == "resume" && c.at == now && c.itemId in l && c.itemId in r
      && c.localItem == l[c.itemId] && c.remoteItem == r[c.itemId] && c.localItem != c.remoteItem
      && c.localItem.position == c.remoteItem.position
  {
    var q := set k, c | k in l.Keys && k in r.Keys && l[k].position == r[k].position && c in QueuedFor(s, "resume", l, r, k, now) :: c;
    assert s == Ask ==> forall k :: k in l && k in r && l[k] != r[k] && l[k].position == r[k].position ==>
      DatabaseConflict("resume", k, l[k], r[k], now) in q by {
      forall k | s == Ask && k in l && k in r && l[k] != r[k] && l[k].position == r[k].position
        ensures DatabaseConflict("resume", k, l[k], r[k], now) in q
      {
        var c := DatabaseConflict("resume", k, l[k], r[k], now);
        assert QueuedFor(s, "resume", l, r, k, now) == [c];
        assert k in l.Keys && k in r.Keys && c in QueuedFor(s, "resume", l, r, k, now);
      }
    }
    q
  }

  /** The conflicts `resolve_complex_database_merge` appends to the pending
      list, as a set: the order follows Python's iteration over the id sets. */
  function ComplexMergeQueued(s: Strategy, local: Option<DbState>, remote: Option<DbState>, now: int): (q: set<Conflict>)
    ensures local.None? || remote.None? || s != Ask ==> q == {}
    ensures forall c :: c in q ==> c.DatabaseConflict? && c.itemType in {"movie", "episode", "resume"}
  {
    if remote.None? || local.None? then {}
    else
      MergeItemsQueued(s, "movie", local.value.movies, remote.value.movies, now)
      + MergeItemsQueued(s, "episode", local.value.episodes, remote.value.episodes, now)
      + MergeResumeQueued(s, local.value.resume, remote.value.resume, now)
  }

  /** Under `ask` a merge queues a conflict for every movie whose two rows
      differ, and every queued movie conflict is such a pair. */
  lemma AskMergeQueuesMovieConflicts(local: DbState, remote: DbState, now: int, c: Conflict)
    requires c.DatabaseConflict? && c.itemType == "movie"
    ensures c in ComplexMergeQueued(Ask, Some(local), Some(remote), now) <==>
      && c.itemId in local.movies && c.itemId in remote.movies
      && c == DatabaseConflict("movie", c.itemId, local.movies[c.itemId], remote.movies[c.itemId], now)
      && local.movies[c.itemId] != remote.movies[c.itemId]
  {
    var q := ComplexMergeQueued(Ask, Some(local), Some(remote), now);
    assert "movie" != "episode" && "movie" != "resume";
    if c in q {
      assert c in MergeItemsQueued(Ask, "movie", local.movies, remote.movies, now);
    }
  }

  /** Resume points never lose progress in a merge: the merged position is
      the larger of the two, whatever the strategy. */
  lemma ComplexMergeKeepsMostProgress(s: Strategy, local: DbState, remote: DbState, now: int, k: string)
    requires k in local.resume && k in remote.resume
    ensures var m := ComplexMerge(s, Some(local), Some(remote), now).value;
      k in m.resume
      && m.resume[k].position == (if local.resume[k].position >= remote.resume[k].position
                                  then local.resume[k].position else remote.resume[k].position)
  {
    var m := ComplexMerge(s, Some(local), Some(remote), now).value;
    assert Some(m.resume[k]) == MergeResumePoint(s, Some(local.resume[k]), Some(remote.resume[k]), k, now);
  }
}

=== FILE: database_monitor.dfy ===
/** The database monitor: it polls the library for watched movies, watched
    episodes and resume points, diffs each against the last snapshot, and
    moves the snapshot forward only for categories that changed. Querying
    the library is an input. */
module DatabaseMonitor {
  import opened Common

  /** One entry of a diff: an item that appeared or changed (with its old
      value when there was one), or an item that disappeared. */
  datatype Change<V> = Update(before: Option<V>, after: V) | Delete(gone: V)

  type Snapshot<V> = map<string, V>
  type Diff<V> = map<string, Change<V>>

  /** `_find_changes`. */
  function FindChanges<V(==)>(prev: Snapshot<V>, cur: Snapshot<V>): (d: Diff<V>)
    ensures d.Keys <= prev.Keys + cur.Keys
    ensures forall k :: k in cur ==> (k in d <==> k !in prev || prev[k] != cur[k])
    ensures forall k :: k in cur && k in d ==> d[k] == Update(if k in prev then Some(prev[k]) else None, cur[k])
    ensures forall k :: k in prev && k !in cur ==> k in d && d[k] == Delete(prev[k])
  {
    map k | k in prev.Keys + cur.Keys && (k !in cur || k !in prev || prev[k] != cur[k]) ::
      if k in cur then Update(if k in prev then Some(prev[k]) else None, cur[k]) else Delete(prev[k])
  }

  /** Replaying a diff on the old snapshot: the independent reading of
      what the entries mean. */
  function ApplyChanges<V>(prev: Snapshot<V>, d: Diff<V>): (s: Snapshot<V>)
    ensures s.Keys == (prev.Keys - set k | k in d && d[k].Delete?) + (set k | k in d && d[k].Update?)
  {
    map k | k in (prev.Keys - set k | k in d && d[k].Delete?) + (set k | k in d && d[k].Update?) ::
      if k in d && d[k].Update? then d[k].after else prev[k]
  }

  /** Replaying the diff of two snapshots turns the first into the second. */
  lemma ApplyFindChanges<V>(prev: Snapshot<V>, cur: Snapshot<V>)
    ensures ApplyChanges(prev, FindChanges(prev, cur)) == cur
  {
    var d := FindChanges(prev, cur);
    var s := ApplyChanges(prev, d);
    assert s.Keys == cur.Keys;
    forall k | k in cur ensures s[k] == cur[k] {
      if k in d {
        assert d[k].Update?;
      }
    }
  }

  /** No entry at all means the snapshots are equal, and conversely. */
  lemma EmptyDiffIffEqual<V>(prev: Snapshot<V>, cur: Snapshot<V>)
    ensures FindChanges(prev, cur) == map[] <==> prev == cur
  {
    if FindChanges(prev, cur) == map[] {
      ApplyFindChanges(prev, cur);
      assert ApplyChanges(prev, map[]) == prev;
    }
  }

  /** The monitor's baselines. */
  datatype Baseline<V> = Baseline(movies: Snapshot<V>, episodes: Snapshot<V>, resume: Snapshot<V>)

  /** What one check reports to the sync callback. */
  datatype Report<V> = Report(watched: Option<(Diff<V>, Diff<V>)>, resume: Option<Diff<V>>)

  /** `_check_for_changes`: returns the new baselines and the report, None
      when nothing changed. Movies and episodes move together; resume
      points move on their own. */
  function CheckForChanges<V(==)>(b: Baseline<V>, syncWatched: bool, syncResume: bool,
                                  movies: Snapshot<V>, episodes: Snapshot<V>, resume: Snapshot<V>)
    : (out: (Baseline<V>, Option<Report<V>>))
    ensures syncWatched ==> out.0.movies == movies && out.0.episodes == episodes
    ensures !syncWatched ==> out.0.movies == b.movies && out.0.episodes == b.episodes
    ensures syncResume ==> out.0.resume == resume
    ensures !syncResume ==> out.0.resume == b.resume
    ensures out.1.Some? <==> (syncWatched && (b.movies != movies || b.episodes != episodes))
                             || (syncResume && b.resume != resume)
  {
    EmptyDiffIffEqual(b.movies, movies);
    EmptyDiffIffEqual(b.episodes, episodes);
    EmptyDiffIffEqual(b.resume, resume);
    var md := FindChanges(b.movies, movies);
    var ed := FindChanges(b.episodes, episodes);
    var rd := FindChanges(b.resume, resume);
    var watchedChanged := syncWatched && (md != map[] || ed != map[]);
    var resumeChanged := syncResume && rd != map[];
    var b1 := if watchedChanged then b.(movies := movies, episodes := episodes) else b;
    var b2 := if resumeChanged then b1.(resume := resume) else b1;
    (b2, if watchedChanged || resumeChanged
         then Some(Report(if watchedChanged then Some((md, ed)) else None, if resumeChanged then Some(rd) else None))
         else None)
  }

  /** A second check against the same library state reports nothing. */
  lemma CheckSettles<V>(b: Baseline<V>, syncWatched: bool, syncResume: bool,
                        movies: Snapshot<V>, episodes: Snapshot<V>, resume: Snapshot<V>)
    ensures var b1 := CheckForChanges(b, syncWatched, syncResume, movies, episodes, resume).0;
      CheckForChanges(b1, syncWatched, syncResume, movies, episodes, resume) == (b1, None)
  {
  }
}

=== FILE: favorites_sync.dfy ===
/** The favourites watcher: it polls `favourites.xml`, and when the file's
    modification time or size moves it re-reads the list and announces the
    favourites whose titles are new. Titles that just arrived from another
    device are held back for a grace period so that they are not echoed
    back. Parsing the XML and the clock are inputs. */
module FavoritesSync {
  import opened Common

  /** Seconds a received title is protected from being re-announced. */
  const GracePeriod: int := 10

  datatype Favorite = Favorite(title: string, xmlContent: string, thumbnail: string)

  /** `get_favorite_key`: a favourite is identified by its title alone. */
  function FavoriteKey(f: Favorite): string { f.title }

  function Titles(fs: seq<Favorite>): (t: set<string>)
    ensures forall i :: 0 <= i < |fs| ==> FavoriteKey(fs[i]) in t
    ensures forall k :: k in t ==> exists i :: 0 <= i < |fs| && FavoriteKey(fs[i]) == k
  {
    set i | 0 <= i < |fs| :: FavoriteKey(fs[i])
  }

  // -----------------------------------------------------------------------
  // Anti-loop protection: title -> time it was received

  type Received = map<string, int>

  predicate Recent(rec: Received, title: string, now: int) {
    title in rec && now - rec[title] < GracePeriod
  }

  /** `mark_favorite_as_received`. */
  function MarkReceived(rec: Received, title: string, now: int): (r: Received)
    ensures title in r && r[title] == now
    ensures forall t :: t != title ==> (t in r <==> t in rec) && (t in rec ==> r[t] == rec[t])
  {
    rec[title := now]
  }

  /** `_cleanup_old_received_favorites`: drop the entries whose age has
      reached the grace period, keep the younger ones untouched. */
  function CleanupReceived(rec: Received, now: int): (r: Received)
    ensures forall t :: t in r <==> t in rec && now - rec[t] < GracePeriod
    ensures forall t :: t in r ==> r[t] == rec[t]
  {
    map t | t in rec && now - rec[t] < GracePeriod :: rec[t]
  }

  /** `_is_recently_received`: purge, then look the title up. */
  function IsRecentlyReceived(rec: Received, title: string, now: int): (out: (bool, Received))
    ensures out.0 <==> title in rec && now - rec[title] < GracePeriod
    ensures forall t :: t in out.1 <==> Recent(rec, t, now)
  {
    var purged := CleanupReceived(rec, now);
    (title in purged && now - purged[title] < GracePeriod, purged)
  }

  lemma CleanupIdempotent(rec: Received, now: int)
    ensures CleanupReceived(CleanupReceived(rec, now), now) == CleanupReceived(rec, now)
  {
  }

  /** Purging never changes which titles count as recent. */
  lemma CleanupKeepsRecent(rec: Received, title: string, now: int)
    ensures Recent(CleanupReceived(rec, now), title, now) <==> Recent(rec, title, now)
  {
  }

  /** A title marked at `t0` is held back by every check before `t0 + 10`,
      and by none from then on. */
  lemma MarkThenRecent(rec: Received, title: string, t0: int, later: int)
    ensures IsRecentlyReceived(MarkReceived(rec, title, t0), title, later).0 <==> later < t0 + GracePeriod
  {
  }

  // -----------------------------------------------------------------------
  // Change detection (add only)

  /** The scan over `current` in `_detect_favorites_changes`: keep the
      favourites whose title is in `added` and not recent, consulting (and
      purging) the anti-loop map for every such title. */
  function ScanAdded(current: seq<Favorite>, added: set<string>, rec: Received, now: int)
    : (out: (seq<Favorite>, Received))
    ensures forall f :: f in out.0 ==> f in current && FavoriteKey(f) in added && !Recent(rec, FavoriteKey(f), now)
    ensures forall i :: 0 <= i < |current| && FavoriteKey(current[i]) in added && !Recent(rec, FavoriteKey(current[i]), now)
              ==> current[i] in out.0
    ensures |out.0| <= |current|
    ensures (forall i :: 0 <= i < |current| ==> FavoriteKey(current[i]) !in added) ==> out.0 == []
    decreases |current|
  {
    if |current| == 0 then ([], rec)
    else
      var f := current[0];
      if FavoriteKey(f) in added then
        var (recent, rec1) := IsRecentlyReceived(rec, FavoriteKey(f), now);
        forall t ensures Recent(rec1, t, now) <==> Recent(rec, t, now) {
          CleanupKeepsRecent(rec, t, now);
        }
        var (rest, rec2) := ScanAdded(current[1..], added, rec1, now);
        assert current == [f] + current[1..];
        assert forall i :: 1 <= i < |current| ==> current[i] == current[1..][i - 1];
        (if recent then rest else [f] + rest, rec2)
      else
        var (rest, rec2) := ScanAdded(current[1..], added, rec, now);
        assert current == [f] + current[1..];
        assert forall i :: 1 <= i < |current| ==> current[i] == current[1..][i - 1];
        (rest, rec2)
  }

  /** The anti-loop map the scan leaves: purged once some title is new
      (purging twice changes nothing), untouched otherwise. */
  lemma {:induction false} ScanAddedPurges(current: seq<Favorite>, added: set<string>, rec: Received, now: int)
    ensures ScanAdded(current, added, rec, now).1
         == (if exists i :: 0 <= i < |current| && FavoriteKey(current[i]) in added
             then CleanupReceived(rec, now) else rec)
    decreases |current|
  {
    if |current| > 0 {
      var f := current[0];
      var tail := current[1..];
      assert forall i :: 1 <= i < |current| ==> current[i] == tail[i - 1];
      if FavoriteKey(f) in added {
        var rec1 := IsRecentlyReceived(rec, FavoriteKey(f), now).1;
        assert rec1 == CleanupReceived(rec, now);
        ScanAddedPurges(tail, added, rec1, now);
        CleanupIdempotent(rec, now);
      } else {
        ScanAddedPurges(tail, added, rec, now);
        assert (exists i :: 0 <= i < |current| && FavoriteKey(current[i]) in added)
           <==> (exists i :: 0 <= i < |tail| && FavoriteKey(tail[i]) in added) by {
          if exists i :: 0 <= i < |current| && FavoriteKey(current[i]) in added {
            var i :| 0 <= i < |current| && FavoriteKey(current[i]) in added;
            assert FavoriteKey(tail[i - 1]) in added;
          }
        }
      }
    }
  }

  /** `_detect_favorites_changes`: the favourites of `current` whose title
      did not occur in `previous`, minus those received within the grace
      period, in the order of `current`. Removals are never reported. */
  function DetectChanges(previous: seq<Favorite>, current: seq<Favorite>, rec: Received, now: int)
    : (out: (seq<Favorite>, Received))
  {
    ScanAdded(current, Titles(current) - Titles(previous), rec, now)
  }

  /** What gets announced is exactly the new, non-recent favourites. */
  lemma DetectChangesContents(previous: seq<Favorite>, current: seq<Favorite>, rec: Received, now: int, f: Favorite)
    ensures f in DetectChanges(previous, current, rec, now).0 <==>
      f in current && FavoriteKey(f) !in Titles(previous) && !Recent(rec, FavoriteKey(f), now)
  {
    var added := Titles(current) - Titles(previous);
    if f in current && FavoriteKey(f) !in Titles(previous) && !Recent(rec, FavoriteKey(f), now) {
      var i :| 0 <= i < |current| && current[i] == f;
      assert FavoriteKey(current[i]) in added;
    }
  }

  /** Nothing is announced when the list did not change, or only lost
      entries. */
  lemma DetectChangesAddOnly(previous: seq<Favorite>, current: seq<Favorite>, rec: Received, now: int)
    requires Titles(current) <= Titles(previous)
    ensures DetectChanges(previous, current, rec, now).0 == []
  {
  }

  // -----------------------------------------------------------------------
  // The polling state

  /** What `os.path.exists` / `os.stat` report for the watched file. */
  datatype FileObs = Missing | Present(mtime: int, size: int) | StatError

  datatype Watcher = Watcher(apiWrite: bool, lastMtime: int, lastSize: int,
                             previous: seq<Favorite>, received: Received)

  /** The constructor's state. */
  const InitialWatcher: Watcher := Watcher(false, 0, 0, [], map[])

  /** `_has_file_changed` of the favourites watcher: only mtime and size
      are compared; a missing file counts as changed iff something non-zero
      was recorded; a failing `stat` reports no change. */
  function FileChanged(w: Watcher, obs: FileObs): (changed: bool)
    ensures obs.Missing? ==> (changed <==> w.lastMtime > 0 || w.lastSize > 0)
    ensures obs.Present? ==> (changed <==> obs.mtime != w.lastMtime || obs.size != w.lastSize)
    ensures obs.StatError? ==> !changed
  {
    match obs
    case Missing => w.lastMtime > 0 || w.lastSize > 0
    case Present(m, s) => m != w.lastMtime || s != w.lastSize
    case StatError => false
  }

  /** `_update_file_state`. */
  function UpdateFileState(w: Watcher, obs: FileObs): (w': Watcher)
    ensures w'.apiWrite == w.apiWrite && w'.previous == w.previous && w'.received == w.received
    ensures obs.Present? ==> w'.lastMtime == obs.mtime && w'.lastSize == obs.size
    ensures obs.Missing? ==> w'.lastMtime == 0 && w'.lastSize == 0
    ensures obs.StatError? ==> w' == w
  {
    match obs
    case Missing => w.(lastMtime := 0, lastSize := 0)
    case Present(m, s) => w.(lastMtime := m, lastSize := s)
    case StatError => w
  }

  /** What a change-detection pass announces, for every favourite at once. */
  lemma DetectChangesAnnounces(previous: seq<Favorite>, current: seq<Favorite>, rec: Received, now: int)
    ensures forall f :: f in DetectChanges(previous, current, rec, now).0 <==>
      f in current && FavoriteKey(f) !in Titles(previous) && !Recent(rec, FavoriteKey(f), now)
  {
    forall f ensures f in DetectChanges(previous, current, rec, now).0 <==>
      f in current && FavoriteKey(f) !in Titles(previous) && !Recent(rec, FavoriteKey(f), now)
    {
      DetectChangesContents(previous, current, rec, now, f);
    }
  }

  /** The anti-loop map a change-detection pass leaves: purged iff some
      title of `current` is new. */
  lemma DetectChangesPurges(previous: seq<Favorite>, current: seq<Favorite>, rec: Received, now: int)
    ensures DetectChanges(previous, current, rec, now).1
         == (if exists i :: 0 <= i < |current| && FavoriteKey(current[i]) !in Titles(previous)
             then CleanupReceived(rec, now) else rec)
  {
    var added := Titles(current) - Titles(previous);
    ScanAddedPurges(current, added, rec, now);
    assert forall i :: 0 <= i < |current| ==>
      (FavoriteKey(current[i]) in added <==> FavoriteKey(current[i]) !in Titles(previous));
  }

  /** `_on_favorites_changed`: returns the new state and the favourites it
      announces. `parsed` is the parser's result, None when it failed. */
  function OnFavoritesChanged(w: Watcher, parsed: Option<seq<Favorite>>, now: int): (out: (Watcher, seq<Favorite>))
    ensures w.apiWrite || parsed.None? ==> out == (w, [])
    ensures !w.apiWrite && parsed.Some? ==> out.0.previous == parsed.value
    ensures w.previous == [] ==> out.1 == []
    ensures out.0.apiWrite == w.apiWrite && out.0.lastMtime == w.lastMtime && out.0.lastSize == w.lastSize
    ensures forall f :: f in out.1 ==> f in parsed.value && FavoriteKey(f) !in Titles(w.previous)
    ensures !w.apiWrite && parsed.Some? && w.previous != [] ==>
      forall f :: f in out.1 <==>
        f in parsed.value && FavoriteKey(f) !in Titles(w.previous) && !Recent(w.received, FavoriteKey(f), now)
    ensures !w.apiWrite && parsed.Some? ==>
      out.0.received == (if w.previous != [] && exists i :: 0 <= i < |parsed.value| && FavoriteKey(parsed.value[i]) !in Titles(w.previous)
                         then CleanupReceived(w.received, now) else w.received)
  {
    if w.apiWrite || parsed.None? then (w, [])
    else if w.previous != [] then
      DetectChangesAnnounces(w.previous, parsed.value, w.received, now);
      DetectChangesPurges(w.previous, parsed.value, w.received, now);
      var (changes, rec') := DetectChanges(w.previous, parsed.value, w.received, now);
      (w.(previous := parsed.value, received := rec'), changes)
    else
      (w.(previous := parsed.value), [])
  }

  /** One iteration of `_monitoring_loop`: when the file moved, its mtime
      and size are recorded before the list is re-read and compared. */
  function Poll(w: Watcher, obs: FileObs, parsed: Option<seq<Favorite>>, now: int): (out: (Watcher, seq<Favorite>))
    ensures !FileChanged(w, obs) ==> out == (w, [])
    ensures out.0.apiWrite == w.apiWrite
    ensures FileChanged(w, obs) && obs.Present? ==> out.0.lastMtime == obs.mtime && out.0.lastSize == obs.size
    ensures FileChanged(w, obs) && obs.Missing? ==> out.0.lastMtime == 0 && out.0.lastSize == 0
    ensures w.apiWrite || parsed.None? ==> out.0.previous == w.previous && out.0.received == w.received && out.1 == []
    ensures FileChanged(w, obs) && !w.apiWrite && parsed.Some? ==> out.0.previous == parsed.value
    ensures FileChanged(w, obs) && !w.apiWrite && parsed.Some? && w.previous != [] ==>
      forall f :: f in out.1 <==>
        f in parsed.value && FavoriteKey(f) !in Titles(w.previous) && !Recent(w.received, FavoriteKey(f), now)
  {
    if FileChanged(w, obs) then OnFavoritesChanged(UpdateFileState(w, obs), parsed, now)
    else (w, [])
  }

  /** A favourite is announced at most once: after a poll announced it,
      the next poll never does, whatever the file then shows. */
  lemma AnnouncedOnce(w: Watcher, obs: FileObs, parsed: Option<seq<Favorite>>, now: int,
                      obs2: FileObs, parsed2: Option<seq<Favorite>>, now2: int, f: Favorite)
    requires f in Poll(w, obs, parsed, now).1
    ensures f !in Poll(Poll(w, obs, parsed, now).0, obs2, parsed2, now2).1
  {
    var w1 := Poll(w, obs, parsed, now).0;
    assert f in parsed.value && w1.previous == parsed.value;
    assert FavoriteKey(f) in Titles(w1.previous);
  }

  /** A favourite whose title arrived from another device less than the
      grace period ago is not echoed back by the next poll. */
  lemma ReceivedNotEchoed(w: Watcher, obs: FileObs, parsed: Option<seq<Favorite>>, t0: int, now: int, f: Favorite)
    requires now < t0 + GracePeriod
    ensures f !in Poll(w.(received := MarkReceived(w.received, FavoriteKey(f), t0)), obs, parsed, now).1
  {
    var w0 := w.(received := MarkReceived(w.received, FavoriteKey(f), t0));
    assert Recent(w0.received, FavoriteKey(f), now);
  }

  /** After a poll has seen the file, polling the same file again reports
      nothing: the recorded mtime and size now match. */
  lemma PollSettles(w: Watcher, obs: FileObs, parsed: Option<seq<Favorite>>, parsed2: Option<seq<Favorite>>,
                    now: int, now2: int)
    requires !obs.StatError?
    ensures var w1 := Poll(w, obs, parsed, now).0;
      Poll(w1, obs, parsed2, now2) == (w1, [])
  {
  }
}

=== FILE: file_change_tracker.dfy ===
/** The file change tracker: a `path -> record` map remembering the
    modification time, size, content hash and last-sync time of every file
    that was synced, and the ordered checks that decide whether a file needs
    syncing again. The filesystem is an abstract map from existing paths to
    what `stat` and hashing report for them. */
module FileChangeTracker {
  import opened Common

  /** What `stat` reports. */
  datatype StatInfo = StatInfo(mtime: int, size: int)

  /** An existing file: `info` is None when `stat` fails, `hash` is None
      when hashing fails. */
  datatype FileStat = FileStat(info: Option<StatInfo>, hash: Option<string>)

  type FileSystem = map<string, FileStat>

  /** A stored record. Records read back from the tracking file may lack
      any field, hence the options. */
  datatype TrackRecord = TrackRecord(mtime: Option<int>, size: Option<int>, hash: Option<string>,
                                     lastSync: Option<int>, fileType: string)

  type TrackingData = map<string, TrackRecord>

  /** Seconds after which an unchanged file is synced anyway. */
  const ForceSyncAfter: int := 86400

  datatype Reason =
    | FileNotExists
    | FileInfoError
    | NoTrackingData
    | MtimeSizeChanged
    | HashCalculationError
    | ContentChanged
    | ForceSync24h
    | NoChanges

  datatype Verdict = Verdict(changed: bool, reason: Reason)

  predicate HashUsable(h: Option<string>) { h.Some? && h.value != "" }

  /** The file exists, `stat` works, a record exists and its mtime and size
      agree with what `stat` reports: the checks before hashing pass. */
  predicate StatMatches(data: TrackingData, fs: FileSystem, path: string) {
    && path in fs && fs[path].info.Some? && path in data
    && data[path].mtime == Some(fs[path].info.value.mtime)
    && data[path].size == Some(fs[path].info.value.size)
  }

  /** `has_file_changed`: the first failing check, in order, names the
      reason; only a file that passes all of them is unchanged. */
  function HasFileChanged(data: TrackingData, fs: FileSystem, path: string, now: int): (v: Verdict)
    ensures v.changed <==> v.reason != NoChanges
    ensures v.reason == FileNotExists <==> path !in fs
    ensures v.reason == FileInfoError <==> path in fs && fs[path].info.None?
    ensures v.reason == NoTrackingData <==> path in fs && fs[path].info.Some? && path !in data
    ensures v.reason == MtimeSizeChanged <==>
      path in fs && fs[path].info.Some? && path in data &&
      (data[path].mtime != Some(fs[path].info.value.mtime) || data[path].size != Some(fs[path].info.value.size))
    ensures v.reason == HashCalculationError <==> StatMatches(data, fs, path) && !HashUsable(fs[path].hash)
    ensures v.reason == ContentChanged <==>
      StatMatches(data, fs, path) && HashUsable(fs[path].hash) && data[path].hash != fs[path].hash
    ensures v.reason == ForceSync24h <==>
      && StatMatches(data, fs, path) && HashUsable(fs[path].hash) && data[path].hash == fs[path].hash
      && now - data[path].lastSync.GetOr(0) > ForceSyncAfter
    ensures v.reason == NoChanges <==>
      && StatMatches(data, fs, path) && HashUsable(fs[path].hash) && data[path].hash == fs[path].hash
      && now - data[path].lastSync.GetOr(0) <= ForceSyncAfter
  {
    if path !in fs then Verdict(true, FileNotExists)
    else
      var f := fs[path];
      if f.info.None? then Verdict(true, FileInfoError)
      else if path !in data then Verdict(true, NoTrackingData)
      else
        var rec := data[path];
        if rec.mtime != Some(f.info.value.mtime) || rec.size != Some(f.info.value.size) then
          Verdict(true, MtimeSizeChanged)
        else if !HashUsable(f.hash) then Verdict(true, HashCalculationError)
        else if rec.hash != f.hash then Verdict(true, ContentChanged)
        else if now - rec.lastSync.GetOr(0) > ForceSyncAfter then Verdict(true, ForceSync24h)
        else Verdict(false, NoChanges)
  }

  /** `mark_file_synced`: record the current state of an existing, readable
      file at time `now`; otherwise leave the data as it is. */
  function MarkFileSynced(data: TrackingData, fs: FileSystem, path: string, fileType: string, now: int)
    : (data': TrackingData)
    ensures path !in fs || fs[path].info.None? || !HashUsable(fs[path].hash) ==> data' == data
    ensures path in fs && fs[path].info.Some? && HashUsable(fs[path].hash) ==>
      data' == data[path := TrackRecord(Some(fs[path].info.value.mtime), Some(fs[path].info.value.size),
                                        fs[path].hash, Some(now), fileType)]
    ensures forall p :: p != path ==> (p in data' <==> p in data) && (p in data ==> data'[p] == data[p])
  {
    if path !in fs then data
    else
      var f := fs[path];
      if f.info.None? || !HashUsable(f.hash) then data
      else data[path := TrackRecord(Some(f.info.value.mtime), Some(f.info.value.size), f.hash, Some(now), fileType)]
  }

  /** `remove_file_tracking`: drop one record, keep every other. */
  function RemoveFileTracking(data: TrackingData, path: string): (data': TrackingData)
    ensures data'.Keys == data.Keys - {path}
    ensures forall p :: p in data' ==> data'[p] == data[p]
  {
    data - {path}
  }

  /** The records `cleanup_orphaned_tracking_data` must drop. */
  function Orphans(data: TrackingData, fs: FileSystem): set<string> {
    data.Keys - fs.Keys
  }

  /** The first pass of `cleanup_orphaned_tracking_data`: walk the tracked
      paths and collect, and count, those that no longer exist. */
  method CollectOrphans(data: TrackingData, fs: FileSystem) returns (orphaned: set<string>, count: nat)
    ensures orphaned == Orphans(data, fs)
    ensures count == |orphaned|
  {
    orphaned := {};
    count := 0;
    var todo := data.Keys;
    while todo != {}
      invariant todo <= data.Keys
      invariant forall q :: q in orphaned <==> q in data && q !in todo && q !in fs
      invariant count == |orphaned|
      decreases todo
    {
      var p :| p in todo;
      if p !in fs {
        CardAddOne(orphaned, p);
        orphaned := orphaned + {p};
        count := count + 1;
      }
      todo := todo - {p};
    }
  }

  /** `cleanup_orphaned_tracking_data`: drop exactly the records whose file
      no longer exists and report how many were dropped. */
  method CleanupOrphaned(data: TrackingData, fs: FileSystem) returns (kept: TrackingData, removed: nat)
    ensures kept.Keys == data.Keys - Orphans(data, fs)
    ensures forall p :: p in kept ==> p in fs && kept[p] == data[p]
    ensures removed == |Orphans(data, fs)|
  {
    var orphaned;
    orphaned, removed := CollectOrphans(data, fs);
    kept := WithoutKeys(data, orphaned);
  }

  lemma CardAddOne<T>(s: set<T>, x: T)
    requires x !in s
    ensures |s + {x}| == |s| + 1
  {
  }

  function WithoutKeys(data: TrackingData, drop: set<string>): (m: TrackingData)
    ensures m.Keys == data.Keys - drop
    ensures forall p :: p in m ==> m[p] == data[p]
  {
    map p | p in data && p !in drop :: data[p]
  }

  // -----------------------------------------------------------------------
  // Properties relating several calls

  /** Marking a file synced and checking it again before the 24-hour horizon
      reports no change. */
  lemma MarkThenCheckIsUnchanged(data: TrackingData, fs: FileSystem, path: string, fileType: string,
                                 now: int, later: int)
    requires path in fs && fs[path].info.Some? && HashUsable(fs[path].hash)
    requires now <= later <= now + ForceSyncAfter
    ensures HasFileChanged(MarkFileSynced(data, fs, path, fileType, now), fs, path, later) == Verdict(false, NoChanges)
  {
  }

  /** Once more than a day has passed since the mark, the same file is
      synced again. */
  lemma MarkThenCheckAfterADay(data: TrackingData, fs: FileSystem, path: string, fileType: string,
                               now: int, later: int)
    requires path in fs && fs[path].info.Some? && HashUsable(fs[path].hash)
    requires later > now + ForceSyncAfter
    ensures HasFileChanged(MarkFileSynced(data, fs, path, fileType, now), fs, path, later) == Verdict(true, ForceSync24h)
  {
  }

  /** Marking is idempotent at a fixed time. */
  lemma MarkIdempotent(data: TrackingData, fs: FileSystem, path: string, fileType: string, now: int)
    ensures var d := MarkFileSynced(data, fs, path, fileType, now);
      MarkFileSynced(d, fs, path, fileType, now) == d
  {
  }

  /** A removed path reports `no_tracking_data` while it still exists. */
  lemma RemoveThenCheck(data: TrackingData, fs: FileSystem, path: string, now: int)
    requires path in fs && fs[path].info.Some?
    ensures HasFileChanged(RemoveFileTracking(data, path), fs, path, now) == Verdict(true, NoTrackingData)
  {
  }
}

=== FILE: file_monitor.dfy ===
/** The file monitor: it watches `favourites.xml` and `sources.xml` in the
    profile directory through a stored state per file (existence, mtime,
    size, content hash), reports the files whose state changed, and writes
    files restored from another device. Observing a file's state is an
    input: `observe(name)` is what `_get_file_state` would return now. */
module FileMonitor {
  import opened Common

  /** `_get_file_state`; a missing or unreadable file is
      `FileState(false, 0, 0, "")`, an unreadable hash is "". */
  datatype FileState = FileState(present: bool, mtime: int, size: int, hash: string)

  const MissingState: FileState := FileState(false, 0, 0, "")

  /** File name -> file type, in the order they are checked. */
  const MonitoredFiles: AssocList<string, string> := [("favourites.xml", "favorites"), ("sources.xml", "sources")]

  datatype Settings = Settings(syncFavorites: bool, syncSources: bool)

  type States = map<string, FileState>

  /** `_has_file_changed`; `prev` is None when nothing was stored. Two
      non-empty different hashes decide; otherwise mtime and size do. */
  function HasFileChanged(prev: Option<FileState>, cur: FileState): (changed: bool)
    ensures prev.None? ==> (changed <==> cur.present)
    ensures prev.Some? && prev.value.present != cur.present ==> changed
    ensures prev.Some? && !prev.value.present && !cur.present ==> !changed
    ensures (&& prev.Some? && prev.value.present && cur.present && prev.value.hash != "" && cur.hash != ""
             && prev.value.hash != cur.hash) ==> changed
    ensures prev.Some? && prev.value.present && cur.present && (prev.value.hash == "" || cur.hash == "" || prev.value.hash == cur.hash)
            ==> (changed <==> prev.value.mtime != cur.mtime || prev.value.size != cur.size)
  {
    if prev.None? then cur.present
    else
      var p := prev.value;
      if p.present != cur.present then true
      else if !cur.present then false
      else if p.hash != "" && cur.hash != "" && p.hash != cur.hash then true
      else p.mtime != cur.mtime || p.size != cur.size
  }

  /** A state compared with itself never counts as a change. */
  lemma UnchangedStateIsQuiet(s: FileState)
    ensures !HasFileChanged(Some(s), s)
  {
  }

  /** `_should_monitor_file`: the two known types follow their settings,
      any other type is monitored. */
  function ShouldMonitor(st: Settings, fileType: string): (r: bool)
    ensures fileType == "favorites" ==> r == st.syncFavorites
    ensures fileType == "sources" ==> r == st.syncSources
    ensures fileType != "favorites" && fileType != "sources" ==> r
  {
    if fileType == "favorites" then st.syncFavorites
    else if fileType == "sources" then st.syncSources
    else true
  }

  function Stored(states: States, name: string): Option<FileState> {
    if name in states then Some(states[name]) else None
  }

  /** One detected change, as put in the callback's `file_changes`. */
  datatype FileChange = FileChange(name: string, fileType: string, prev: Option<FileState>, cur: FileState)

  /** Every enabled file of `files` is quiet against `states`. */
  predicate AllQuiet(files: AssocList<string, string>, st: Settings, states: States, observe: string -> FileState) {
    forall i :: 0 <= i < |files| && ShouldMonitor(st, files[i].1) ==>
      !HasFileChanged(Stored(states, files[i].0), observe(files[i].0))
  }

  /** The loop of `_check_for_changes` over `files`: skip disabled types,
      report each changed file and store its new state. */
  function CheckFiles(files: AssocList<string, string>, st: Settings, states: States,
                      observe: string -> FileState): (out: (States, seq<FileChange>))
    ensures AllQuiet(files, st, states, observe) ==> out == (states, [])
    ensures forall n :: Stored(out.0, n) != Stored(states, n) ==> Stored(out.0, n) == Some(observe(n))
    ensures forall n :: (forall i :: 0 <= i < |files| ==> files[i].0 != n || !ShouldMonitor(st, files[i].1)) ==>
              Stored(out.0, n) == Stored(states, n)
    ensures forall c :: c in out.1 ==> HasFileChanged(c.prev, c.cur) && c.cur == observe(c.name)
    decreases |files|
  {
    if |files| == 0 then (states, [])
    else
      var (name, fileType) := files[0];
      var (s1, c1) :=
        if !ShouldMonitor(st, fileType) then (states, [])
        else
          var prev := Stored(states, name);
          var cur := observe(name);
          if HasFileChanged(prev, cur) then (states[name := cur], [FileChange(name, fileType, prev, cur)])
          else (states, []);
      var (s2, c2) := CheckFiles(files[1..], st, s1, observe);
      assert forall i :: 1 <= i < |files| ==> files[i] == files[1..][i - 1];
      assert AllQuiet(files, st, states, observe) ==> s1 == states && c1 == [] && AllQuiet(files[1..], st, s1, observe);
      assert AllQuiet(files, st, states, observe) ==> s2 == states && c2 == [] && |c1 + c2| == 0;
      (s2, c1 + c2)
  }

  predicate DistinctNames(files: AssocList<string, string>) {
    forall i, j :: 0 <= i < j < |files| ==> files[i].0 != files[j].0
  }

  /** After one pass every enabled file is quiet against the stored states. */
  lemma {:induction false} CheckFilesSettles(files: AssocList<string, string>, st: Settings, states: States,
                                             observe: string -> FileState)
    requires DistinctNames(files)
    ensures AllQuiet(files, st, CheckFiles(files, st, states, observe).0, observe)
    decreases |files|
  {
    if |files| > 0 {
      var (name, fileType) := files[0];
      var s1 :=
        if !ShouldMonitor(st, fileType) then states
        else if HasFileChanged(Stored(states, name), observe(name)) then states[name := observe(name)]
        else states;
      var rest := files[1..];
      assert DistinctNames(rest) by {
        forall i, j | 0 <= i < j < |rest| ensures rest[i].0 != rest[j].0 {
          assert rest[i] == files[i + 1] && rest[j] == files[j + 1];
        }
      }
      CheckFilesSettles(rest, st, s1, observe);
      var s2 := CheckFiles(rest, st, s1, observe).0;
      assert s2 == CheckFiles(files, st, states, observe).0;
      forall i | 0 <= i < |rest| ensures rest[i].0 != name {
        assert rest[i] == files[i + 1];
      }
      assert Stored(s2, name) == Stored(s1, name);
      if ShouldMonitor(st, fileType) {
        UnchangedStateIsQuiet(observe(name));
      }
      forall i | 0 <= i < |files| && ShouldMonitor(st, files[i].1)
        ensures !HasFileChanged(Stored(s2, files[i].0), observe(files[i].0))
      {
        if i > 0 {
          assert files[i] == rest[i - 1];
        }
      }
    }
  }

  /** Some change in `cs` names the file `n`. */
  ghost predicate Reported(cs: seq<FileChange>, n: string) {
    exists j :: 0 <= j < |cs| && cs[j].name == n
  }

  /** `n` is one of `files` and its type is enabled. */
  ghost predicate MonitoredIn(files: AssocList<string, string>, st: Settings, n: string) {
    exists i :: 0 <= i < |files| && files[i].0 == n && ShouldMonitor(st, files[i].1)
  }

  lemma ReportedAppend(c1: seq<FileChange>, c2: seq<FileChange>, n: string)
    ensures Reported(c1 + c2, n) <==> Reported(c1, n) || Reported(c2, n)
  {
    if Reported(c1 + c2, n) {
      var j :| 0 <= j < |c1 + c2| && (c1 + c2)[j].name == n;
      if j >= |c1| {
        assert c2[j - |c1|].name == n;
      }
    }
    if Reported(c2, n) {
      var j :| 0 <= j < |c2| && c2[j].name == n;
      assert (c1 + c2)[j + |c1|].name == n;
    }
    if Reported(c1, n) {
      var j :| 0 <= j < |c1| && c1[j].name == n;
      assert (c1 + c2)[j].name == n;
    }
  }

  lemma MonitoredInCons(files: AssocList<string, string>, st: Settings, n: string)
    requires |files| > 0
    ensures MonitoredIn(files, st, n) <==>
            (files[0].0 == n && ShouldMonitor(st, files[0].1)) || MonitoredIn(files[1..], st, n)
  {
    var rest := files[1..];
    if MonitoredIn(files, st, n) {
      var i :| 0 <= i < |files| && files[i].0 == n && ShouldMonitor(st, files[i].1);
      if i > 0 {
        assert rest[i - 1] == files[i];
      }
    }
    if MonitoredIn(rest, st, n) {
      var i :| 0 <= i < |rest| && rest[i].0 == n && ShouldMonitor(st, rest[i].1);
      assert files[i + 1] == rest[i];
    }
  }

  /** The tail of a list of distinct names is distinct and lacks the head. */
  lemma DistinctTail(files: AssocList<string, string>)
    requires |files| > 0 && DistinctNames(files)
    ensures DistinctNames(files[1..])
    ensures forall i :: 0 <= i < |files[1..]| ==> files[1..][i].0 != files[0].0
  {
    var rest := files[1..];
    forall i, j | 0 <= i < j < |rest| ensures rest[i].0 != rest[j].0 {
      assert rest[i] == files[i + 1] && rest[j] == files[j + 1];
    }
    forall i | 0 <= i < |rest| ensures rest[i].0 != files[0].0 {
      assert rest[i] == files[i + 1];
    }
  }

  /** One step of the loop: the first file's outcome, then the rest checked
      against the states it leaves. */
  lemma CheckFilesStep(files: AssocList<string, string>, st: Settings, states: States, observe: string -> FileState)
    requires |files| > 0
    ensures var (name, fileType) := files[0];
      var changed := ShouldMonitor(st, fileType) && HasFileChanged(Stored(states, name), observe(name));
      var s1 := if changed then states[name := observe(name)] else states;
      var c1 := if changed then [FileChange(name, fileType, Stored(states, name), observe(name))] else [];
      var (s2, c2) := CheckFiles(files[1..], st, s1, observe);
      CheckFiles(files, st, states, observe) == (s2, c1 + c2)
  {
  }

  /** A pass reports exactly the enabled files whose observed state differs
      from the stored one. */
  lemma {:induction false} CheckFilesReports(files: AssocList<string, string>, st: Settings, states: States,
                                             observe: string -> FileState, n: string)
    requires DistinctNames(files)
    ensures Reported(CheckFiles(files, st, states, observe).1, n) <==>
            MonitoredIn(files, st, n) && HasFileChanged(Stored(states, n), observe(n))
    decreases |files|
  {
    if |files| == 0 {
      assert !Reported(CheckFiles(files, st, states, observe).1, n);
    } else {
      var (name, fileType) := files[0];
      var changed := ShouldMonitor(st, fileType) && HasFileChanged(Stored(states, name), observe(name));
      var s1 := if changed then states[name := observe(name)] else states;
      var c1 := if changed then [FileChange(name, fileType, Stored(states, name), observe(name))] else [];
      var rest := files[1..];
      var c2 := CheckFiles(rest, st, s1, observe).1;
      CheckFilesStep(files, st, states, observe);
      DistinctTail(files);
      CheckFilesReports(rest, st, s1, observe, n);
      ReportedAppend(c1, c2, n);
      MonitoredInCons(files, st, n);
      if n == name {
        assert !MonitoredIn(rest, st, n);
        assert Reported(c1, n) <==> changed by {
          if changed {
            assert c1[0].name == n;
          }
        }
      } else {
        assert Stored(s1, n) == Stored(states, n);
        assert !Reported(c1, n);
      }
    }
  }

  /** `_check_for_changes` over the two monitored files. */
  function CheckForChanges(st: Settings, states: States, observe: string -> FileState): (out: (States, seq<FileChange>))
  {
    CheckFiles(MonitoredFiles, st, states, observe)
  }

  /** `_check_for_changes` reports `favourites.xml` when favourites sync is
      on and `sources.xml` when sources sync is on, each exactly when its
      state moved, and no other file. */
  lemma CheckForChangesReports(st: Settings, states: States, observe: string -> FileState, n: string)
    ensures Reported(CheckForChanges(st, states, observe).1, n) <==>
      && ((n == "favourites.xml" && st.syncFavorites) || (n == "sources.xml" && st.syncSources))
      && HasFileChanged(Stored(states, n), observe(n))
  {
    assert MonitoredFiles[0].0 != MonitoredFiles[1].0;
    CheckFilesReports(MonitoredFiles, st, states, observe, n);
    if MonitoredIn(MonitoredFiles, st, n) {
      var i :| 0 <= i < |MonitoredFiles| && MonitoredFiles[i].0 == n && ShouldMonitor(st, MonitoredFiles[i].1);
    }
    if n == "favourites.xml" && st.syncFavorites {
      assert MonitoredFiles[0].0 == n;
    }
    if n == "sources.xml" && st.syncSources {
      assert MonitoredFiles[1].0 == n;
    }
  }

  /** Checking again while nothing on disk moved reports nothing. */
  lemma CheckSettles(st: Settings, states: States, observe: string -> FileState)
    ensures var s1 := CheckForChanges(st, states, observe).0;
      CheckForChanges(st, s1, observe) == (s1, [])
  {
    CheckFilesSettles(MonitoredFiles, st, states, observe);
  }

  /** `restore_file`: only a monitored file of an enabled type is written;
      its stored state becomes what is observed after the write. `writeOk`
      is false when the write raises. */
  function RestoreFile(st: Settings, states: States, name: string, writeOk: bool, after: FileState)
    : (out: (bool, States))
    ensures Get(MonitoredFiles, name).None? ==> out == (false, states)
    ensures Get(MonitoredFiles, name).Some? && !ShouldMonitor(st, Get(MonitoredFiles, name).value) ==> out == (false, states)
    ensures out.0 ==> writeOk && out.1 == states[name := after]
    ensures !out.0 ==> out.1 == states
    ensures Get(MonitoredFiles, name).Some? && ShouldMonitor(st, Get(MonitoredFiles, name).value) && writeOk ==>
              out == (true, states[name := after])
  {
    var fileType := Get(MonitoredFiles, name);
    if fileType.None? then (false, states)
    else if !ShouldMonitor(st, fileType.value) then (false, states)
    else if !writeOk then (false, states)
    else (true, states[name := after])
  }

  /** A restored file is not reported back as a change: when the disk still
      shows the state recorded by the restore, the next check is silent
      about that file. */
  lemma RestoreThenCheckIsQuiet(st: Settings, states: States, name: string, after: FileState,
                                observe: string -> FileState)
    requires observe(name) == after
    ensures var (ok, s1) := RestoreFile(st, states, name, true, after);
      ok ==> !Reported(CheckForChanges(st, s1, observe).1, name)
  {
    var (ok, s1) := RestoreFile(st, states, name, true, after);
    if ok {
      CheckFilesReports(MonitoredFiles, st, s1, observe, name);
      UnchangedStateIsQuiet(after);
    }
  }
}

=== FILE: hybrid_sync.dfy ===
/** The hybrid sync manager: it keeps a local SQLite copy of watched
    movies and resume points, merges the cloud copy into it row by row,
    decides per configuration file whether to upload or download, and runs
    the whole sequence under a single `sync_in_progress` flag. Tables are
    maps keyed by their primary key; Kodi's answers, the cloud transport's
    results and the clock are inputs. */
module HybridSync {
  import opened Common
  import opened ConflictResolver

  // -----------------------------------------------------------------------
  // Tables of the local database

  /** A `watched_movies` row, keyed by `imdb_id`. */
  datatype MovieRow = MovieRow(title: string, playcount: int, lastplayed: string, lastchange: int)

  /** A `resume_points` row, keyed by `file_path`. Positions are whole
      seconds; the episode columns are NULL for rows written from movies. */
  datatype ResumeRow = ResumeRow(position: int, total: int, lastchange: int, imdb: string,
                                 tvdb: Option<int>, season: Option<int>, episode: Option<int>)

  type MovieTable = map<string, MovieRow>
  type ResumeTable = map<string, ResumeRow>

  // -----------------------------------------------------------------------
  // Merging the remote database (`_merge_remote_database`)

  /** A remote movie row replaces the local one iff there is none or the
      local one is strictly older: ties keep local. */
  predicate MovieRemoteWins(local: MovieTable, id: string, r: MovieRow) {
    id !in local || local[id].lastchange < r.lastchange
  }

  /** A remote resume row replaces the local one iff there is none, it is
      strictly newer, or it is further along. */
  predicate ResumeRemoteWins(local: ResumeTable, path: string, r: ResumeRow) {
    path !in local || local[path].lastchange < r.lastchange || r.position > local[path].position
  }

  /** The rows of `remote` whose key is unique, so the order in which the
      source walks them does not matter: each decision reads only the local
      row of its own key. */
  function MergeMovies(local: MovieTable, remote: MovieTable): (out: (MovieTable, bool))
    ensures out.0.Keys == local.Keys + remote.Keys
    ensures forall id :: id in remote && MovieRemoteWins(local, id, remote[id]) ==> out.0[id] == remote[id]
    ensures forall id :: id in local && (id !in remote || !MovieRemoteWins(local, id, remote[id])) ==> out.0[id] == local[id]
    ensures out.1 <==> exists id :: id in remote && MovieRemoteWins(local, id, remote[id])
  {
    var merged := map id | id in local.Keys + remote.Keys ::
      if id in remote && MovieRemoteWins(local, id, remote[id]) then remote[id] else local[id];
    (merged, exists id :: id in remote && MovieRemoteWins(local, id, remote[id]))
  }

  function MergeResume(local: ResumeTable, remote: ResumeTable): (out: (ResumeTable, bool))
    ensures out.0.Keys == local.Keys + remote.Keys
    ensures forall p :: p in remote && ResumeRemoteWins(local, p, remote[p]) ==> out.0[p] == remote[p]
    ensures forall p :: p in local && (p !in remote || !ResumeRemoteWins(local, p, remote[p])) ==> out.0[p] == local[p]
    ensures out.1 <==> exists p :: p in remote && ResumeRemoteWins(local, p, remote[p])
  {
    var merged := map p | p in local.Keys + remote.Keys ::
      if p in remote && ResumeRemoteWins(local, p, remote[p]) then remote[p] else local[p];
    (merged, exists p :: p in remote && ResumeRemoteWins(local, p, remote[p]))
  }

  /** `_merge_remote_database`: a missing remote table contributes no rows. */
  function MergeRemoteDatabase(movies: MovieTable, resume: ResumeTable,
                               remoteMovies: MovieTable, remoteResume: ResumeTable)
    : (out: (MovieTable, ResumeTable, bool))
    ensures out.2 <==> MergeMovies(movies, remoteMovies).1 || MergeResume(resume, remoteResume).1
    ensures !out.2 ==> out.0 == movies && out.1 == resume
  {
    var (m, cm) := MergeMovies(movies, remoteMovies);
    var (r, cr) := MergeResume(resume, remoteResume);
    (m, r, cm || cr)
  }

  /** Merging the same remote snapshot a second time writes nothing and
      reports no change: written rows carry the remote timestamp and
      position, and kept rows still lose. */
  lemma {:induction false} MergeIdempotent(movies: MovieTable, resume: ResumeTable,
                                           remoteMovies: MovieTable, remoteResume: ResumeTable)
    ensures var (m, r, _) := MergeRemoteDatabase(movies, resume, remoteMovies, remoteResume);
      MergeRemoteDatabase(m, r, remoteMovies, remoteResume) == (m, r, false)
  {
    var (m, r, _) := MergeRemoteDatabase(movies, resume, remoteMovies, remoteResume);
    forall id | id in remoteMovies ensures !MovieRemoteWins(m, id, remoteMovies[id]) {
      if MovieRemoteWins(movies, id, remoteMovies[id]) {
        assert m[id] == remoteMovies[id];
      } else {
        assert m[id] == movies[id];
      }
    }
    forall p | p in remoteResume ensures !ResumeRemoteWins(r, p, remoteResume[p]) {
      if ResumeRemoteWins(resume, p, remoteResume[p]) {
        assert r[p] == remoteResume[p];
      } else {
        assert r[p] == resume[p];
      }
    }
    assert MergeMovies(m, remoteMovies).0 == m;
    assert MergeResume(r, remoteResume).0 == r;
  }

  /** A merge never moves a kept local resume point backwards while its
      timestamp is at least the remote one. */
  lemma MergeResumeKeepsProgress(local: ResumeTable, remote: ResumeTable, p: string)
    requires p in local && p in remote
    requires local[p].lastchange >= remote[p].lastchange
    ensures MergeResume(local, remote).0[p].position >= local[p].position
  {
  }

  // -----------------------------------------------------------------------
  // Pushing Kodi's state into the local database

  /** A watched movie as Kodi reports it. `uniqueid` is the ordered id dict;
      `year` is 0 when absent. */
  datatype KodiMovie = KodiMovie(imdbnumber: string, uniqueid: AssocList<string, string>,
                                 title: string, year: int, playcount: int, lastplayed: string)

  datatype Identity = Identity(idType: string, id: string)

  /** The identity priority of `sync_watched_status`: IMDb number, then the
      TMDB uniqueid, then the first non-empty uniqueid, and `title_year` only
      when there are no uniqueids at all and both title and year are set. */
  function MovieIdentity(m: KodiMovie): (r: Option<Identity>)
    ensures r.Some? ==> r.value.id != ""
    ensures m.imdbnumber != "" ==> r == Some(Identity("imdb", m.imdbnumber))
    ensures m.imdbnumber == "" && Get(m.uniqueid, "tmdb").Some? && Get(m.uniqueid, "tmdb").value != "" ==>
      r == Some(Identity("tmdb", Get(m.uniqueid, "tmdb").value))
    ensures m.imdbnumber == "" && |m.uniqueid| > 0 ==>
      (r.None? <==> forall j :: 0 <= j < |m.uniqueid| ==> m.uniqueid[j].1 == "")
    ensures m.imdbnumber == "" && |m.uniqueid| > 0 && r.Some? ==> (r.value.idType, r.value.id) in m.uniqueid
    ensures m.imdbnumber == "" && (Get(m.uniqueid, "tmdb").None? || Get(m.uniqueid, "tmdb").value == "") && |m.uniqueid| > 0 ==>
      var i := FirstNonEmptyIndex(m.uniqueid);
      r == (if i < |m.uniqueid| then Some(Identity(m.uniqueid[i].0, m.uniqueid[i].1)) else None)
    ensures m.imdbnumber == "" && m.uniqueid == [] && m.title != "" && m.year != 0 ==>
      r == Some(Identity("title_year", m.title + "_" + IntToString(m.year)))
    ensures m.imdbnumber == "" && m.uniqueid == [] && (m.title == "" || m.year == 0) ==> r.None?
  {
    if m.imdbnumber != "" then Some(Identity("imdb", m.imdbnumber))
    else if |m.uniqueid| > 0 && Get(m.uniqueid, "tmdb").Some? && Get(m.uniqueid, "tmdb").value != "" then
      Some(Identity("tmdb", Get(m.uniqueid, "tmdb").value))
    else if |m.uniqueid| > 0 then
      var first := FirstNonEmpty(m.uniqueid);
      if first.Some? then Some(Identity(first.value.0, first.value.1)) else None
    else if m.title != "" && m.year != 0 then Some(Identity("title_year", m.title + "_" + IntToString(m.year)))
    else None
  }

  /** The "only update if values actually changed" test of
      `sync_watched_status`, on the stored (playcount, lastplayed). */
  predicate WatchedNeedsWrite(existing: Option<MovieRow>, m: KodiMovie) {
    existing.None? || existing.value.playcount != m.playcount || existing.value.lastplayed != m.lastplayed
  }

  /** `sync_watched_status` as written: for any movie with an identity the
      lookup names a column the table does not have and the insert names an
      undefined variable, so the call ends in its exception handler. */
  function SyncWatchedStatusAsWritten(enabled: bool, movies: seq<KodiMovie>, table: MovieTable)
    : (out: (MovieTable, bool))
    ensures out.0 == table
  {
    // Three source paths, kept apart to mirror the method: sync disabled
    // (line 299), an identified movie reaching the failing lookup and
    // ending in the `except` clause (lines 355-388), and a list with no
    // identified movie, whose loop writes nothing.
    if !enabled then (table, false)
    else if exists i :: 0 <= i < |movies| && MovieIdentity(movies[i]).Some? then (table, false)
    else (table, false)
  }

  /** Whatever Kodi reports, the method as written never writes a row and
      never reports a change. */
  lemma SyncWatchedStatusAsWrittenNeverSyncs(enabled: bool, movies: seq<KodiMovie>, table: MovieTable)
    ensures SyncWatchedStatusAsWritten(enabled, movies, table) == (table, false)
  {
  }

  /** `sync_watched_status` as evidently intended: each movie with an
      identity is looked up by that identity and its row rewritten, stamped
      `now`, when playcount or lastplayed differ. */
  function SyncWatchedStatus(movies: seq<KodiMovie>, table: MovieTable, now: int): (out: (MovieTable, bool))
    ensures !out.1 ==> out.0 == table
    ensures forall k :: (forall i :: 0 <= i < |movies| ==> IdKey(movies[i]) != Some(k))
              ==> (k in out.0 <==> k in table) && (k in table ==> out.0[k] == table[k])
    ensures out.1 ==> exists i :: 0 <= i < |movies| && IdKey(movies[i]).Some?
    decreases |movies|
  {
    if |movies| == 0 then (table, false)
    else
      var m := movies[0];
      var write := WatchedWrite(table, m);
      var t1 := if write then table[IdKey(m).value := MovieRow(m.title, m.playcount, m.lastplayed, now)] else table;
      var (t2, c2) := SyncWatchedStatus(movies[1..], t1, now);
      assert forall i :: 1 <= i < |movies| ==> movies[i] == movies[1..][i - 1];
      (t2, write || c2)
  }

  /** The corrected method reports a change exactly when some movie's row is
      missing or differs from what Kodi reports. */
  lemma {:induction false} SyncWatchedChangeIffWrite(movies: seq<KodiMovie>, table: MovieTable, now: int)
    ensures SyncWatchedStatus(movies, table, now).1 <==> exists i :: 0 <= i < |movies| && WatchedWrite(table, movies[i])
    decreases |movies|
  {
    if |movies| > 0 {
      var m := movies[0];
      var rest := movies[1..];
      if !WatchedWrite(table, m) {
        SyncWatchedChangeIffWrite(rest, table, now);
        assert (exists i :: 0 <= i < |movies| && WatchedWrite(table, movies[i]))
           <==> (exists i :: 0 <= i < |rest| && WatchedWrite(table, rest[i])) by {
          forall i | 0 < i < |movies| ensures movies[i] == rest[i - 1] { }
          forall i | 0 <= i < |rest| ensures rest[i] == movies[i + 1] { }
        }
      }
    }
  }

  /** Where a movie's playcount or lastplayed differs from the stored row,
      the corrected method writes and reports a change; the method as written
      reports none. */
  lemma SyncWatchedAsWrittenMissesChange(movies: seq<KodiMovie>, table: MovieTable, now: int, i: nat)
    requires i < |movies| && WatchedWrite(table, movies[i])
    ensures SyncWatchedStatusAsWritten(true, movies, table) == (table, false)
    ensures SyncWatchedStatus(movies, table, now).1
  {
    SyncWatchedChangeIffWrite(movies, table, now);
  }

  /** The key a movie is stored under, if it has an identity. */
  function IdKey(m: KodiMovie): (k: Option<string>)
    ensures k.Some? <==> MovieIdentity(m).Some?
    ensures k.Some? ==> k.value == MovieIdentity(m).value.id
  {
    var id := MovieIdentity(m);
    if id.Some? then Some(id.value.id) else None
  }

  predicate WatchedWrite(table: MovieTable, m: KodiMovie) {
    IdKey(m).Some? && WatchedNeedsWrite(Lookup(table, IdKey(m).value), m)
  }

  predicate WatchedStored(movies: seq<KodiMovie>, table: MovieTable) {
    forall i :: 0 <= i < |movies| ==> !WatchedWrite(table, movies[i])
  }

  predicate DistinctIds(movies: seq<KodiMovie>) {
    forall i, j :: 0 <= i < j < |movies| && IdKey(movies[i]).Some? ==> IdKey(movies[i]) != IdKey(movies[j])
  }

  lemma {:induction false} WatchedStoredMeansQuiet(movies: seq<KodiMovie>, table: MovieTable, now: int)
    requires WatchedStored(movies, table)
    ensures SyncWatchedStatus(movies, table, now) == (table, false)
    decreases |movies|
  {
    if |movies| > 0 {
      assert WatchedStored(movies[1..], table) by {
        forall i | 0 <= i < |movies[1..]| ensures !WatchedWrite(table, movies[1..][i]) {
          assert movies[1..][i] == movies[i + 1];
        }
      }
      WatchedStoredMeansQuiet(movies[1..], table, now);
    }
  }

  lemma WatchedSyncStoresAll(movies: seq<KodiMovie>, table: MovieTable, now: int)
    requires DistinctIds(movies)
    ensures WatchedStored(movies, SyncWatchedStatus(movies, table, now).0)
  {
    forall i | 0 <= i < |movies| && IdKey(movies[i]).Some?
      ensures !WatchedWrite(SyncWatchedStatus(movies, table, now).0, movies[i])
    {
      WatchedWrittenRows(movies, table, now, i);
    }
  }

  lemma DistinctIdsTail(movies: seq<KodiMovie>)
    requires |movies| > 0 && DistinctIds(movies)
    ensures DistinctIds(movies[1..])
    ensures IdKey(movies[0]).Some? ==> forall i :: 0 <= i < |movies[1..]| ==> IdKey(movies[1..][i]) != IdKey(movies[0])
  {
    var rest := movies[1..];
    forall i, j | 0 <= i < j < |rest| && IdKey(rest[i]).Some? ensures IdKey(rest[i]) != IdKey(rest[j]) {
      assert rest[i] == movies[i + 1] && rest[j] == movies[j + 1];
    }
    forall i | 0 <= i < |rest| && IdKey(movies[0]).Some? ensures IdKey(rest[i]) != IdKey(movies[0]) {
      assert rest[i] == movies[i + 1];
    }
  }

  /** The first movie's row: no later movie shares its key. */
  lemma WatchedFirstRow(movies: seq<KodiMovie>, table: MovieTable, now: int)
    requires |movies| > 0 && DistinctIds(movies) && IdKey(movies[0]).Some?
    ensures var k := IdKey(movies[0]).value;
      var t := SyncWatchedStatus(movies, table, now).0;
      && k in t
      && t[k] == (if WatchedWrite(table, movies[0])
                  then MovieRow(movies[0].title, movies[0].playcount, movies[0].lastplayed, now)
                  else table[k])
  {
    DistinctIdsTail(movies);
  }

  /** With distinct identities, the corrected sync leaves under each
      movie's key the row Kodi reports, with its title and stamped `now`,
      when that movie needed a write, and the stored row otherwise. */
  lemma {:induction false} WatchedWrittenRows(movies: seq<KodiMovie>, table: MovieTable, now: int, i: nat)
    requires DistinctIds(movies) && i < |movies| && IdKey(movies[i]).Some?
    ensures var k := IdKey(movies[i]).value;
      var t := SyncWatchedStatus(movies, table, now).0;
      && k in t
      && t[k] == (if WatchedWrite(table, movies[i])
                  then MovieRow(movies[i].title, movies[i].playcount, movies[i].lastplayed, now)
                  else table[k])
    decreases |movies|
  {
    if i == 0 {
      WatchedFirstRow(movies, table, now);
    } else {
      var m := movies[0];
      var write := WatchedWrite(table, m);
      var t1 := if write then table[IdKey(m).value := MovieRow(m.title, m.playcount, m.lastplayed, now)] else table;
      var rest := movies[1..];
      assert SyncWatchedStatus(movies, table, now).0 == SyncWatchedStatus(rest, t1, now).0;
      DistinctIdsTail(movies);
      assert movies[i] == rest[i - 1];
      WatchedWrittenRows(rest, t1, now, i - 1);
      assert IdKey(m) != IdKey(movies[i]);
    }
  }

  /** Corrected `sync_watched_status`: pushing the same watched list twice,
      with distinct identities, the second push writes nothing. */
  lemma SyncWatchedIdempotent(movies: seq<KodiMovie>, table: MovieTable, now: int, later: int)
    requires DistinctIds(movies)
    ensures var t := SyncWatchedStatus(movies, table, now).0;
      SyncWatchedStatus(movies, t, later) == (t, false)
  {
    WatchedSyncStoresAll(movies, table, now);
    WatchedStoredMeansQuiet(movies, SyncWatchedStatus(movies, table, now).0, later);
  }


  /** A resume point as Kodi reports it (missing values are 0 / ""). */
  datatype KodiResume = KodiResume(file: string, position: int, total: int, imdbnumber: string)

  predicate ResumeNeedsWrite(table: ResumeTable, m: KodiResume) {
    m.file !in table || table[m.file].position != m.position || table[m.file].total != m.total
  }

  /** `sync_resume_points`: only positive positions are stored, a row is
      rewritten only when position or total differ, and written rows carry
      `now` and the IMDb number with the episode columns empty. */
  function SyncResumePoints(movies: seq<KodiResume>, table: ResumeTable, now: int): (out: (ResumeTable, bool))
    ensures !out.1 ==> out.0 == table
    ensures forall k :: (forall i :: 0 <= i < |movies| ==> movies[i].file != k || movies[i].position <= 0)
              ==> (k in out.0 <==> k in table) && (k in table ==> out.0[k] == table[k])
    ensures out.1 ==> exists i :: 0 <= i < |movies| && movies[i].position > 0
    decreases |movies|
  {
    if |movies| == 0 then (table, false)
    else
      var m := movies[0];
      var write := m.position > 0 && ResumeNeedsWrite(table, m);
      var t1 := if write then table[m.file := ResumeRow(m.position, m.total, now, m.imdbnumber, None, None, None)]
                else table;
      var (t2, c2) := SyncResumePoints(movies[1..], t1, now);
      assert forall i :: 1 <= i < |movies| ==> movies[i] == movies[1..][i - 1];
      (t2, write || c2)
  }

  /** Every positive resume point of the list is already stored. */
  predicate ResumeStored(movies: seq<KodiResume>, table: ResumeTable) {
    forall i :: 0 <= i < |movies| && movies[i].position > 0 ==> !ResumeNeedsWrite(table, movies[i])
  }

  predicate DistinctFiles(movies: seq<KodiResume>) {
    forall i, j :: 0 <= i < j < |movies| ==> movies[i].file != movies[j].file
  }

  /** A list that is already stored causes no write. */
  lemma {:induction false} StoredMeansQuiet(movies: seq<KodiResume>, table: ResumeTable, now: int)
    requires ResumeStored(movies, table)
    ensures SyncResumePoints(movies, table, now) == (table, false)
    decreases |movies|
  {
    if |movies| > 0 {
      assert ResumeStored(movies[1..], table) by {
        forall i | 0 <= i < |movies[1..]| && movies[1..][i].position > 0
          ensures !ResumeNeedsWrite(table, movies[1..][i])
        {
          assert movies[1..][i] == movies[i + 1];
        }
      }
      StoredMeansQuiet(movies[1..], table, now);
    }
  }

  /** After a sync, every positive resume point of the list is stored. */
  lemma SyncStoresAll(movies: seq<KodiResume>, table: ResumeTable, now: int)
    requires DistinctFiles(movies)
    ensures ResumeStored(movies, SyncResumePoints(movies, table, now).0)
  {
    forall i | 0 <= i < |movies| && movies[i].position > 0
      ensures !ResumeNeedsWrite(SyncResumePoints(movies, table, now).0, movies[i])
    {
      ResumeWrittenRows(movies, table, now, i);
    }
  }

  lemma DistinctFilesTail(movies: seq<KodiResume>)
    requires |movies| > 0 && DistinctFiles(movies)
    ensures DistinctFiles(movies[1..])
    ensures forall j :: 0 <= j < |movies[1..]| ==> movies[1..][j].file != movies[0].file
  {
    var rest := movies[1..];
    forall a, b | 0 <= a < b < |rest| ensures rest[a].file != rest[b].file {
      assert rest[a] == movies[a + 1] && rest[b] == movies[b + 1];
    }
    forall j | 0 <= j < |rest| ensures rest[j].file != movies[0].file {
      assert rest[j] == movies[j + 1];
    }
  }

  /** The first point's row: no later point touches its file. */
  lemma ResumeFirstRow(movies: seq<KodiResume>, table: ResumeTable, now: int)
    requires |movies| > 0 && DistinctFiles(movies) && movies[0].position > 0
    ensures var t := SyncResumePoints(movies, table, now).0;
      && movies[0].file in t
      && t[movies[0].file] == (if ResumeNeedsWrite(table, movies[0])
                               then ResumeRow(movies[0].position, movies[0].total, now, movies[0].imdbnumber, None, None, None)
                               else table[movies[0].file])
  {
    DistinctFilesTail(movies);
  }

  /** With distinct files, the row left under a positive point's file is
      its position and total with the IMDb number, stamped `now` and the
      episode columns empty, when it needed a write, and the stored row
      otherwise. */
  lemma {:induction false} ResumeWrittenRows(movies: seq<KodiResume>, table: ResumeTable, now: int, i: nat)
    requires DistinctFiles(movies) && i < |movies| && movies[i].position > 0
    ensures var t := SyncResumePoints(movies, table, now).0;
      && movies[i].file in t
      && t[movies[i].file] == (if ResumeNeedsWrite(table, movies[i])
                               then ResumeRow(movies[i].position, movies[i].total, now, movies[i].imdbnumber, None, None, None)
                               else table[movies[i].file])
    decreases |movies|
  {
    if i == 0 {
      ResumeFirstRow(movies, table, now);
    } else {
      var m := movies[0];
      var write := m.position > 0 && ResumeNeedsWrite(table, m);
      var t1 := if write then table[m.file := ResumeRow(m.position, m.total, now, m.imdbnumber, None, None, None)]
                else table;
      var rest := movies[1..];
      assert SyncResumePoints(movies, table, now).0 == SyncResumePoints(rest, t1, now).0;
      DistinctFilesTail(movies);
      assert movies[i] == rest[i - 1];
      ResumeWrittenRows(rest, t1, now, i - 1);
    }
  }

  /** Pushing the same resume points twice: the second push is quiet. */
  lemma SyncResumeIdempotent(movies: seq<KodiResume>, table: ResumeTable, now: int, later: int)
    requires DistinctFiles(movies)
    ensures var t := SyncResumePoints(movies, table, now).0;
      SyncResumePoints(movies, t, later) == (t, false)
  {
    SyncStoresAll(movies, table, now);
    StoredMeansQuiet(movies, SyncResumePoints(movies, table, now).0, later);
  }

  // -----------------------------------------------------------------------
  // Configuration files and favourites

  /** What one file sync did: the content sent to the cloud (whether or not
      the transfer succeeded), the content written locally, whether the
      tracker recorded the file, and the value returned. */
  datatype FileSyncOutcome = FileSyncOutcome(ok: bool, uploaded: Option<string>, written: Option<string>, marked: bool)

  const NoOutcome: FileSyncOutcome := FileSyncOutcome(false, None, None, false)

  /** The environment of one configuration file: whether it exists, the
      tracker's verdict, whether reading it works and what it holds, what
      the cloud returned for it (None when absent), whether an upload would
      succeed, and whether writing the local file would. */
  datatype FileEnv = FileEnv(localExists: bool, trackerChanged: bool, localReadOk: bool, localContent: string,
                             remote: Option<string>, uploadOk: bool, writeOk: bool)

  /** The configuration files `sync_userdata` walks, in order. */
  const UserdataFiles: seq<string> := ["sources.xml", "passwords.xml", "mediasources.xml",
    "advancedsettings.xml", "profiles.xml", "RssFeeds.xml", "upnpserver.xml"]

  datatype Direction = Upload | Download

  /** The decision when both sides have content. */
  function BothPresentDirection(s: Strategy, local: string, remote: string): (d: Direction)
    ensures s == KeepLocal ==> d == Upload
    ensures s == KeepRemote ==> d == Download
    ensures s == Newer ==> (d == Upload <==> |local| >= |remote|)
    ensures s.Ask? || s.Unrecognised? ==> d == Upload
  {
    match s
    case KeepLocal => Upload
    case KeepRemote => Download
    case Newer => if |local| >= |remote| then Upload else Download
    case _ => Upload
  }

  /** `_sync_userdata_file`. `cloud` is "the cloud backend is enabled and
      configured"; the remote copy is consulted only then. A read or write
      that raises ends the call with false. */
  function SyncUserdataFile(s: Strategy, cloud: bool, e: FileEnv): (o: FileSyncOutcome)
    ensures o.marked <==> o.ok
    ensures !(o.uploaded.Some? && o.written.Some?)
    ensures e.localExists && !e.trackerChanged ==> o == NoOutcome
    ensures e.localExists && !e.localReadOk ==> o == NoOutcome
    ensures o.uploaded.Some? ==> cloud && e.localExists && e.localReadOk && o.uploaded.value == e.localContent != ""
                                 && o.ok == e.uploadOk
    ensures o.written.Some? ==> cloud && o.ok && e.writeOk && e.remote.Some? && o.written.value == e.remote.value != ""
    ensures o.ok ==> o.written.Some? || o.uploaded.Some?
    ensures (!e.localExists || e.localContent == "") && (!cloud || e.remote.None? || e.remote.value == "") ==> o == NoOutcome
    ensures e.localExists && e.trackerChanged && e.localReadOk && e.localContent != "" && cloud
            && (e.remote.None? || e.remote.value == "")
      ==> o == FileSyncOutcome(e.uploadOk, Some(e.localContent), None, e.uploadOk)
    ensures (&& (!e.localExists || (e.trackerChanged && e.localReadOk && e.localContent == ""))
             && cloud && e.remote.Some? && e.remote.value != "")
      ==> o == (if e.writeOk then FileSyncOutcome(true, None, e.remote, true) else NoOutcome)
    ensures e.localExists && e.trackerChanged && e.localReadOk && e.localContent != "" && cloud
            && e.remote.Some? && e.remote.value != "" ==>
      if BothPresentDirection(s, e.localContent, e.remote.value) == Upload then
        o == FileSyncOutcome(e.uploadOk, Some(e.localContent), None, e.uploadOk)
      else o == (if e.writeOk then FileSyncOutcome(true, None, e.remote, true) else NoOutcome)
  {
    if e.localExists && (!e.trackerChanged || !e.localReadOk) then NoOutcome
    else
      var local := if e.localExists then e.localContent else "";
      var remote := if cloud && e.remote.Some? then e.remote.value else "";
      if local == "" && remote == "" then NoOutcome
      else
        var dir := if local != "" && remote != "" then BothPresentDirection(s, local, remote)
                   else if local != "" then Upload else Download;
        if dir == Upload && local != "" && cloud then
          FileSyncOutcome(e.uploadOk, Some(local), None, e.uploadOk)
        else if dir == Download && remote != "" then
          if e.writeOk then FileSyncOutcome(true, None, Some(remote), true) else NoOutcome
        else NoOutcome
  }

  /** The loop of `sync_userdata`: every file is synced in turn, whatever
      the earlier ones reported, and a change is reported when any one of
      them reported true. */
  function SyncFiles(s: Strategy, cloud: bool, env: string -> FileEnv, files: seq<string>)
    : (r: (bool, seq<FileSyncOutcome>))
    ensures |r.1| == |files|
    ensures forall i :: 0 <= i < |files| ==> r.1[i] == SyncUserdataFile(s, cloud, env(files[i]))
    ensures r.0 <==> exists i :: 0 <= i < |files| && r.1[i].ok
    decreases |files|
  {
    if |files| == 0 then (false, [])
    else
      var o := SyncUserdataFile(s, cloud, env(files[0]));
      var (changed, rest) := SyncFiles(s, cloud, env, files[1..]);
      assert forall i :: 1 <= i <= |rest| ==> ([o] + rest)[i] == rest[i - 1];
      (o.ok || changed, [o] + rest)
  }

  /** `sync_userdata`: nothing when disabled; otherwise the outcome of each
      listed file, in order, and whether any of them changed. */
  function SyncUserdata(enabled: bool, s: Strategy, cloud: bool, env: string -> FileEnv)
    : (r: (bool, seq<FileSyncOutcome>))
    ensures !enabled ==> r == (false, [])
    ensures enabled ==> |r.1| == |UserdataFiles|
                        && forall i :: 0 <= i < |UserdataFiles| ==> r.1[i] == SyncUserdataFile(s, cloud, env(UserdataFiles[i]))
    ensures r.0 <==> exists i :: 0 <= i < |r.1| && r.1[i].ok
  {
    if !enabled then (false, []) else SyncFiles(s, cloud, env, UserdataFiles)
  }

  /** When every configuration file exists and the tracker sees no change
      in any of them, the userdata sync touches nothing and reports no
      change. */
  lemma UserdataQuietWhenUnchanged(enabled: bool, s: Strategy, cloud: bool, env: string -> FileEnv)
    requires forall i :: 0 <= i < |UserdataFiles| ==> env(UserdataFiles[i]).localExists && !env(UserdataFiles[i]).trackerChanged
    ensures var r := SyncUserdata(enabled, s, cloud, env);
      !r.0 && forall i :: 0 <= i < |r.1| ==> r.1[i] == NoOutcome
  {
  }

  /** One changed, readable configuration file with no cloud copy is
      uploaded, and a successful upload makes the whole sync report a
      change. */
  lemma UserdataUploadReported(s: Strategy, env: string -> FileEnv, i: nat)
    requires i < |UserdataFiles|
    requires var e := env(UserdataFiles[i]);
      e.localExists && e.trackerChanged && e.localReadOk && e.localContent != "" && e.remote.None? && e.uploadOk
    ensures var r := SyncUserdata(true, s, true, env);
      r.0 && r.1[i].uploaded == Some(env(UserdataFiles[i]).localContent) && r.1[i].marked
  {
  }

  /** `sync_favorites`: upload the changed local favourites unless the
      strategy prefers the remote copy. Under `newer` the local file must be
      strictly longer. With the cloud off a changed file reports true
      without being recorded. */
  function SyncFavorites(enabled: bool, s: Strategy, cloud: bool, e: FileEnv): (o: FileSyncOutcome)
    ensures o.written.None?
    ensures !enabled || !e.localExists || !e.trackerChanged || !e.localReadOk ==> o == NoOutcome
    ensures o.marked ==> o.ok && o.uploaded.Some?
    ensures o.uploaded.Some? ==> cloud && o.uploaded.value == e.localContent && o.ok == e.uploadOk && o.marked == e.uploadOk
    ensures enabled && e.localExists && e.trackerChanged && e.localReadOk && !cloud ==> o == FileSyncOutcome(true, None, None, false)
    ensures enabled && e.localExists && e.trackerChanged && e.localReadOk && cloud && (e.remote.None? || e.remote.value == "")
      ==> o.uploaded == Some(e.localContent)
    ensures enabled && e.localExists && e.trackerChanged && e.localReadOk && cloud && e.remote.Some? && e.remote.value != "" ==>
      (o.uploaded.Some? <==> s != KeepRemote && (s == Newer ==> |e.localContent| > |e.remote.value|))
  {
    if !enabled || !e.localExists || !e.trackerChanged || !e.localReadOk then NoOutcome
    else
      var remote := if cloud then e.remote else None;
      var shouldUpload :=
        if remote.Some? && remote.value != "" then
          match s
          case KeepLocal => true
          case KeepRemote => false
          case Newer => |e.localContent| > |remote.value|
          case _ => true
        else true;
      if shouldUpload && cloud then FileSyncOutcome(e.uploadOk, Some(e.localContent), None, e.uploadOk)
      else if !shouldUpload then NoOutcome
      else FileSyncOutcome(true, None, None, false)
  }

  /** `_restore_favorites`: the content written over the local favourites,
      if any. `localRead` is the local file's content, None when it exists
      but cannot be read. */
  function RestoreFavorites(enabled: bool, s: Strategy, cloud: bool, remote: Option<string>,
                            localExists: bool, localRead: Option<string>): (w: Option<string>)
    ensures w.Some? ==> enabled && cloud && remote.Some? && w == remote && remote.value != ""
    ensures enabled && cloud && remote.Some? && remote.value != "" && (!localExists || localRead.None?) ==> w == remote
    ensures localExists && localRead.Some? && s == KeepLocal ==> w.None?
    ensures enabled && cloud && remote.Some? && remote.value != "" && localExists && localRead.Some? ==>
      (w.Some? <==> s != KeepLocal && (s == Newer ==> |Strip(localRead.value)| < |remote.value|))
  {
    if !enabled || !cloud || remote.None? || remote.value == "" then None
    else if localExists && localRead.Some? then
      match s
      case KeepLocal => None
      case KeepRemote => remote
      case Newer => if |Strip(localRead.value)| >= |remote.value| then None else remote
      case _ => remote
    else remote
  }

  /** Under `newer`, with equally long files, both directions stand still:
      the favourites are neither uploaded nor restored, whereas a
      configuration file of the same length is uploaded. */
  lemma NewerEqualLengthFavoritesStandStill(cloud: bool, e: FileEnv)
    requires cloud && e.localExists && e.trackerChanged && e.localReadOk && e.localContent != ""
    requires e.remote.Some? && |e.remote.value| == |e.localContent| && Strip(e.localContent) == e.localContent
    ensures SyncFavorites(true, Newer, cloud, e) == NoOutcome
    ensures RestoreFavorites(true, Newer, cloud, e.remote, true, Some(e.localContent)).None?
    ensures SyncUserdataFile(Newer, cloud, e).uploaded == Some(e.localContent)
  {
  }

  // -----------------------------------------------------------------------
  // The full sync and its single-flight flag

  /** What each step of a full sync reported. */
  datatype StepResults = StepResults(remoteMerged: bool, watched: bool, resume: bool, favorites: bool, userdata: bool)

  /** What a full sync did. */
  datatype FullSyncRun = FullSyncRun(result: bool, downloaded: bool, restored: bool, uploaded: bool)

  predicate AnyChange(cloud: bool, st: StepResults) {
    (cloud && st.remoteMerged) || st.watched || st.resume || st.favorites || st.userdata
  }

  /** `perform_full_sync`, from the point of view of one call: returns the
      run and the flag left behind. As written, the `finally` clause clears
      the flag on every exit, including the early return of a rejected
      call. */
  function PerformFullSyncAsWritten(inProgress: bool, cloud: bool, st: StepResults): (out: (FullSyncRun, bool))
    ensures !out.1
    ensures inProgress ==> out.0 == FullSyncRun(false, false, false, false)
    ensures !inProgress ==> out.0.result && out.0.downloaded == cloud
    ensures out.0.restored <==> !inProgress && AnyChange(cloud, st)
    ensures out.0.uploaded <==> !inProgress && cloud && AnyChange(cloud, st)
  {
    if inProgress then (FullSyncRun(false, false, false, false), false)
    else
      var changes := AnyChange(cloud, st);
      (FullSyncRun(true, cloud, changes, changes && cloud), false)
  }

  /** `perform_full_sync` as evidently intended: a rejected call leaves the
      flag of the running sync alone. */
  function PerformFullSync(inProgress: bool, cloud: bool, st: StepResults): (out: (FullSyncRun, bool))
    ensures out.1 == inProgress
    ensures out.0 == PerformFullSyncAsWritten(inProgress, cloud, st).0
  {
    (PerformFullSyncAsWritten(inProgress, cloud, st).0, inProgress)
  }

  /** Calls to `perform_full_sync` from several threads, reduced to two
      events: a call checks the flag (and is accepted or rejected), and an
      accepted run finishes. `running` counts accepted runs in flight. */
  datatype SyncEvent = Call | Finish
  datatype Gate = Gate(flag: bool, running: nat)

  function StepAsWritten(g: Gate, e: SyncEvent): Gate {
    match e
    case Call => if g.flag then g.(flag := false) else Gate(true, g.running + 1)
    case Finish => if g.running > 0 then Gate(false, g.running - 1) else g
  }

  function Step(g: Gate, e: SyncEvent): Gate {
    match e
    case Call => if g.flag then g else Gate(true, g.running + 1)
    case Finish => if g.running > 0 then Gate(false, g.running - 1) else g
  }

  function RunAsWritten(g: Gate, es: seq<SyncEvent>): Gate
    decreases |es|
  {
    if |es| == 0 then g else RunAsWritten(StepAsWritten(g, es[0]), es[1..])
  }

  function Run(g: Gate, es: seq<SyncEvent>): (g': Gate)
    ensures g.running <= 1 && (g.flag <==> g.running == 1) ==> g'.running <= 1 && (g'.flag <==> g'.running == 1)
    decreases |es|
  {
    if |es| == 0 then g else Run(Step(g, es[0]), es[1..])
  }

  /** As written: three calls while the first is still running leave two
      syncs running at once, because the second call cleared the flag. */
  lemma TwoSyncsRunAtOnce()
    ensures RunAsWritten(Gate(false, 0), [Call, Call, Call]).running == 2
  {
  }

  /** Corrected: from an idle start at most one sync is ever running. */
  lemma SingleFlight(es: seq<SyncEvent>)
    ensures Run(Gate(false, 0), es).running <= 1
  {
  }
}

=== FILE: kodi_monitor.dfy ===
/** The Kodi event monitor: it turns library updates into watched-status
    messages and player stops into resume-point messages, choosing each
    message's topic from the item's unique ids. The details RPCs are
    inputs: functions from an item id to the details, None when the reply
    was empty. */
module KodiMonitor {
  import opened Common

  /** `get_movie_details`; absent fields already take the source's
      defaults, an absent resume position is None. */
  datatype MovieDetails = MovieDetails(title: string, uniqueid: AssocList<string, string>, playcount: int,
                                       year: Option<int>, position: Option<int>, total: int)

  /** `get_episode_details`. */
  datatype EpisodeDetails = EpisodeDetails(title: string, showTitle: string, season: int, episode: int,
                                           uniqueid: AssocList<string, string>, tvshowId: Option<int>,
                                           playcount: int, position: Option<int>, total: int)

  /** The messages the monitor publishes: topic and the fields of
      `content`. An episode resume message carries no `uniqueid`. */
  datatype Outgoing =
    | MovieWatched(topic: string, title: string, uniqueid: AssocList<string, string>, playcount: int,
                   year: Option<int>)
    | EpisodeWatched(topic: string, title: string, showTitle: string, season: int, episode: int,
                     uniqueid: AssocList<string, string>, showUniqueid: AssocList<string, string>, playcount: int)
    | MovieResume(topic: string, title: string, uniqueid: AssocList<string, string>, position: int, total: int)
    | EpisodeResume(topic: string, title: string, showTitle: string, season: int, episode: int,
                    showUniqueid: AssocList<string, string>, position: int, total: int)

  const WatchedPrefix: string := "cloudsync/watched/"
  const ResumePrefix: string := "cloudsync/resume/"

  // -----------------------------------------------------------------------
  // Topics

  /** `uniqueid.get('imdb', uniqueid.get('tmdb', 'unknown'))`: a present key
      wins even when its value is empty. */
  function MovieTopicId(uid: AssocList<string, string>): (id: string)
    ensures Get(uid, "imdb").Some? ==> id == Get(uid, "imdb").value
    ensures Get(uid, "imdb").None? && Get(uid, "tmdb").Some? ==> id == Get(uid, "tmdb").value
    ensures Get(uid, "imdb").None? && Get(uid, "tmdb").None? ==> id == "unknown"
  {
    Get(uid, "imdb").GetOr(Get(uid, "tmdb").GetOr("unknown"))
  }

  /** The show's id for episode topics: imdb, then tvdb, then tmdb. */
  function ShowTopicId(uid: AssocList<string, string>): (id: string)
    ensures Get(uid, "imdb").Some? ==> id == Get(uid, "imdb").value
    ensures Get(uid, "imdb").None? && Get(uid, "tvdb").Some? ==> id == Get(uid, "tvdb").value
    ensures Get(uid, "imdb").None? && Get(uid, "tvdb").None? && Get(uid, "tmdb").Some? ==> id == Get(uid, "tmdb").value
    ensures Get(uid, "imdb").None? && Get(uid, "tvdb").None? && Get(uid, "tmdb").None? ==> id == "unknown"
  {
    Get(uid, "imdb").GetOr(Get(uid, "tvdb").GetOr(Get(uid, "tmdb").GetOr("unknown")))
  }

  /** `f"{prefix}{show_id}_S{season:02d}E{episode:02d}"`. */
  function EpisodeTopic(prefix: string, showId: string, season: int, episode: int): (t: string)
    ensures 0 <= season < 100 && 0 <= episode < 100 ==> |t| == |prefix| + |showId| + 7
    ensures StartsWith(t, prefix)
  {
    PrefixOfAppend(prefix, showId + "_S" + Pad2(season) + "E" + Pad2(episode));
    assert prefix + showId + "_S" + Pad2(season) + "E" + Pad2(episode)
        == prefix + (showId + "_S" + Pad2(season) + "E" + Pad2(episode));
    prefix + showId + "_S" + Pad2(season) + "E" + Pad2(episode)
  }

  /** The part of an episode topic after the show id's `_S`. */
  lemma {:induction false} EpisodeTopicTail(prefix: string, showId: string, season: int, episode: int)
    ensures var t := EpisodeTopic(prefix, showId, season, episode);
      |t| >= |prefix| + |showId| + 2 && t[|prefix| + |showId| + 2..] == Pad2(season) + "E" + Pad2(episode)
  {
    var head := prefix + showId + "_S";
    var tail := Pad2(season) + "E" + Pad2(episode);
    assert EpisodeTopic(prefix, showId, season, episode) == head + tail;
    assert (head + tail)[|head|..] == tail;
  }

  /** `SxxExx` with non-negative numbers is read back unambiguously: the
      first `E` ends the season. */
  lemma {:induction false} SeasonEpisodeInjective(s1: int, e1: int, s2: int, e2: int)
    requires s1 >= 0 && e1 >= 0 && s2 >= 0 && e2 >= 0
    requires Pad2(s1) + "E" + Pad2(e1) == Pad2(s2) + "E" + Pad2(e2)
    ensures s1 == s2 && e1 == e2
  {
    var t := Pad2(s1) + "E" + Pad2(e1);
    IndexOfAfter(Pad2(s1), 'E', Pad2(e1));
    IndexOfAfter(Pad2(s2), 'E', Pad2(e2));
    assert t[..|Pad2(s1)|] == Pad2(s1);
    assert (Pad2(s2) + "E" + Pad2(e2))[..|Pad2(s2)|] == Pad2(s2);
    Pad2Injective(s1, s2);
    assert t[|Pad2(s1)| + 1..] == Pad2(e1);
    assert (Pad2(s2) + "E" + Pad2(e2))[|Pad2(s2)| + 1..] == Pad2(e2);
    Pad2Injective(e1, e2);
  }

  /** For one show, the topic determines the season and the episode: no two
      episodes with non-negative numbers share a topic. */
  lemma {:induction false} EpisodeTopicInjective(prefix: string, showId: string, s1: int, e1: int, s2: int, e2: int)
    requires s1 >= 0 && e1 >= 0 && s2 >= 0 && e2 >= 0
    requires EpisodeTopic(prefix, showId, s1, e1) == EpisodeTopic(prefix, showId, s2, e2)
    ensures s1 == s2 && e1 == e2
  {
    EpisodeTopicTail(prefix, showId, s1, e1);
    EpisodeTopicTail(prefix, showId, s2, e2);
    SeasonEpisodeInjective(s1, e1, s2, e2);
  }

  // -----------------------------------------------------------------------
  // Watched status

  /** `_publish_movie_watched`: nothing without unique ids. */
  function PublishMovieWatched(d: MovieDetails): (m: Option<Outgoing>)
    ensures m.None? <==> d.uniqueid == []
    ensures m.Some? ==> m.value.MovieWatched? && StartsWith(m.value.topic, WatchedPrefix)
    ensures m.Some? ==> m.value == MovieWatched(WatchedPrefix + MovieTopicId(d.uniqueid), d.title, d.uniqueid, d.playcount,
                                                 d.year)
  {
    PrefixOfAppend(WatchedPrefix, MovieTopicId(d.uniqueid));
    if d.uniqueid == [] then None
    else Some(MovieWatched(WatchedPrefix + MovieTopicId(d.uniqueid), d.title, d.uniqueid, d.playcount, d.year))
  }

  /** The show's unique ids as `_check_episode_watched_change` attaches
      them: only for a truthy show id whose details were returned. */
  function ShowUniqueid(d: EpisodeDetails, showIds: int -> Option<AssocList<string, string>>)
    : (uid: AssocList<string, string>)
    ensures d.tvshowId.None? || d.tvshowId == Some(0) ==> uid == []
    ensures uid != [] ==> showIds(d.tvshowId.value) == Some(uid)
  {
    if d.tvshowId.None? || d.tvshowId.value == 0 then []
    else showIds(d.tvshowId.value).GetOr([])
  }

  /** `_publish_episode_watched`: nothing without the show's unique ids. */
  function PublishEpisodeWatched(d: EpisodeDetails, showUid: AssocList<string, string>): (m: Option<Outgoing>)
    ensures m.None? <==> showUid == []
    ensures m.Some? ==> m.value.EpisodeWatched? && StartsWith(m.value.topic, WatchedPrefix)
    ensures m.Some? ==> m.value == EpisodeWatched(EpisodeTopic(WatchedPrefix, ShowTopicId(showUid), d.season, d.episode),
                                                   d.title, d.showTitle, d.season, d.episode, d.uniqueid, showUid,
                                                   d.playcount)
  {
    if showUid == [] then None
    else Some(EpisodeWatched(EpisodeTopic(WatchedPrefix, ShowTopicId(showUid), d.season, d.episode),
                             d.title, d.showTitle, d.season, d.episode, d.uniqueid, showUid, d.playcount))
  }

  /** The `item` of a notification; None when the item dict is empty. */
  datatype NotifiedItem = NotifiedItem(itemType: Option<string>, id: Option<int>)

  /** What the details RPCs return. */
  datatype Library = Library(movies: int -> Option<MovieDetails>, episodes: int -> Option<EpisodeDetails>,
                             showIds: int -> Option<AssocList<string, string>>)

  predicate TruthyType(t: Option<string>) { t.Some? && t.value != "" }
  predicate TruthyId(id: Option<int>) { id.Some? && id.value != 0 }

  /** `_handle_library_update`: the watched message a library update
      publishes, if any. */
  function LibraryUpdate(item: Option<NotifiedItem>, lib: Library): (m: Option<Outgoing>)
    ensures item.None? || !TruthyType(item.value.itemType) || !TruthyId(item.value.id) ==> m.None?
    ensures m.Some? && m.value.MovieWatched? ==>
      item.value.itemType == Some("movie") && lib.movies(item.value.id.value).Some?
      && m == PublishMovieWatched(lib.movies(item.value.id.value).value)
    ensures m.Some? && m.value.EpisodeWatched? ==>
      item.value.itemType == Some("episode") && lib.episodes(item.value.id.value).Some?
    ensures m.Some? ==> m.value.MovieWatched? || m.value.EpisodeWatched?
    ensures item.Some? && TruthyId(item.value.id) && item.value.itemType == Some("movie")
            && lib.movies(item.value.id.value).Some? ==>
      m == PublishMovieWatched(lib.movies(item.value.id.value).value)
    ensures item.Some? && TruthyId(item.value.id) && item.value.itemType == Some("episode")
            && lib.episodes(item.value.id.value).Some? ==>
      var d := lib.episodes(item.value.id.value).value;
      m == PublishEpisodeWatched(d, ShowUniqueid(d, lib.showIds))
    ensures item.Some? && item.value.itemType != Some("movie") && item.value.itemType != Some("episode") ==> m.None?
    ensures m.Some? ==> StartsWith(m.value.topic, WatchedPrefix)
  {
    if item.None? || !TruthyType(item.value.itemType) || !TruthyId(item.value.id) then None
    else
      var id := item.value.id.value;
      if item.value.itemType == Some("movie") then
        var d := lib.movies(id);
        if d.None? then None else PublishMovieWatched(d.value)
      else if item.value.itemType == Some("episode") then
        var d := lib.episodes(id);
        if d.None? then None else PublishEpisodeWatched(d.value, ShowUniqueid(d.value, lib.showIds))
      else None
  }

  // -----------------------------------------------------------------------
  // Resume points and the player state

  /** Python truthiness of the resume position. */
  predicate TruthyPosition(p: Option<int>) { p.Some? && p.value != 0 }

  /** `_publish_movie_resume`. */
  function PublishMovieResume(d: MovieDetails): (m: Option<Outgoing>)
    ensures m.None? <==> d.uniqueid == [] || !TruthyPosition(d.position)
    ensures m.Some? ==> m.value.MovieResume? && StartsWith(m.value.topic, ResumePrefix)
    ensures m.Some? ==> m.value == MovieResume(ResumePrefix + MovieTopicId(d.uniqueid), d.title, d.uniqueid,
                                               d.position.value, d.total)
  {
    PrefixOfAppend(ResumePrefix, MovieTopicId(d.uniqueid));
    if d.uniqueid == [] || !TruthyPosition(d.position) then None
    else Some(MovieResume(ResumePrefix + MovieTopicId(d.uniqueid), d.title, d.uniqueid, d.position.value, d.total))
  }

  /** `_publish_episode_resume`. */
  function PublishEpisodeResume(d: EpisodeDetails, showUid: AssocList<string, string>): (m: Option<Outgoing>)
    ensures m.None? <==> showUid == [] || !TruthyPosition(d.position)
    ensures m.Some? ==> m.value.EpisodeResume? && StartsWith(m.value.topic, ResumePrefix)
    ensures m.Some? ==> m.value == EpisodeResume(EpisodeTopic(ResumePrefix, ShowTopicId(showUid), d.season, d.episode),
                                                 d.title, d.showTitle, d.season, d.episode, showUid, d.position.value,
                                                 d.total)
  {
    if showUid == [] || !TruthyPosition(d.position) then None
    else Some(EpisodeResume(EpisodeTopic(ResumePrefix, ShowTopicId(showUid), d.season, d.episode),
                            d.title, d.showTitle, d.season, d.episode, showUid, d.position.value, d.total))
  }

  /** `_check_movie_resume_change` and `_check_episode_resume_change` for
      the item that stopped: only a positive position is published. */
  function ResumeCheck(item: NotifiedItem, lib: Library): (m: Option<Outgoing>)
    ensures m.Some? ==> (m.value.MovieResume? && item.itemType == Some("movie"))
                        || (m.value.EpisodeResume? && item.itemType == Some("episode"))
    ensures m.Some? ==> (m.value.MovieResume? || m.value.EpisodeResume?) && m.value.position > 0
    ensures m.Some? ==> StartsWith(m.value.topic, ResumePrefix)
    ensures !TruthyId(item.id) ==> m.None?
    ensures TruthyId(item.id) && item.itemType == Some("movie") && lib.movies(item.id.value).Some?
            && lib.movies(item.id.value).value.position.GetOr(0) > 0 ==>
      m == PublishMovieResume(lib.movies(item.id.value).value)
    ensures TruthyId(item.id) && item.itemType == Some("episode") && lib.episodes(item.id.value).Some?
            && lib.episodes(item.id.value).value.position.GetOr(0) > 0 ==>
      var d := lib.episodes(item.id.value).value;
      m == PublishEpisodeResume(d, ShowUniqueid(d, lib.showIds))
    ensures TruthyId(item.id) && item.itemType == Some("movie") ==>
      var d := lib.movies(item.id.value);
      d.None? || d.value.position.GetOr(0) <= 0 ==> m.None?
    ensures TruthyId(item.id) && item.itemType == Some("episode") ==>
      var d := lib.episodes(item.id.value);
      d.None? || d.value.position.GetOr(0) <= 0 ==> m.None?
    ensures item.itemType != Some("movie") && item.itemType != Some("episode") ==> m.None?
  {
    if !TruthyId(item.id) then None
    else if item.itemType == Some("movie") then
      var d := lib.movies(item.id.value);
      if d.None? || d.value.position.GetOr(0) <= 0 then None else PublishMovieResume(d.value)
    else if item.itemType == Some("episode") then
      var d := lib.episodes(item.id.value);
      if d.None? || d.value.position.GetOr(0) <= 0 then None
      else PublishEpisodeResume(d.value, ShowUniqueid(d.value, lib.showIds))
    else None
  }

  /** `last_played_item`, None when unset or empty. */
  datatype Monitor = Monitor(lastPlayed: Option<NotifiedItem>)

  /** The notifications the monitor reacts to. */
  datatype Notification = LibraryUpdated(item: Option<NotifiedItem>) | PlayStarted(item: Option<NotifiedItem>)
                        | PlayStopped | OtherNotification

  /** `onNotification`: the new state and the message published, if any.
      Without a publish callback nothing happens at all. */
  function OnNotification(m: Monitor, canPublish: bool, n: Notification, lib: Library): (out: (Monitor, Option<Outgoing>))
    ensures !canPublish ==> out == (m, None)
    ensures canPublish && n.PlayStarted? ==> out == (Monitor(n.item), None)
    ensures canPublish && n.PlayStopped? ==> out.0 == Monitor(None)
    ensures canPublish && n.PlayStopped? && out.1.Some? ==>
      m.lastPlayed.Some? && out.1 == ResumeCheck(m.lastPlayed.value, lib)
    ensures canPublish && n.LibraryUpdated? ==> out == (m, LibraryUpdate(n.item, lib))
    ensures n.OtherNotification? ==> out == (m, None)
  {
    if !canPublish then (m, None)
    else
      match n
      case LibraryUpdated(item) => (m, LibraryUpdate(item, lib))
      case PlayStarted(item) => (Monitor(item), None)
      case PlayStopped =>
        (Monitor(None), if m.lastPlayed.None? then None else ResumeCheck(m.lastPlayed.value, lib))
      case OtherNotification => (m, None)
  }

  /** A stop right after a stop publishes nothing: the first one cleared the
      remembered item. */
  lemma SecondStopIsQuiet(m: Monitor, lib: Library)
    ensures var m1 := OnNotification(m, true, PlayStopped, lib).0;
      OnNotification(m1, true, PlayStopped, lib) == (Monitor(None), None)
  {
  }

  /** Play then stop publishes exactly the resume check of the played item. */
  lemma PlayThenStop(m: Monitor, item: NotifiedItem, lib: Library)
    ensures var m1 := OnNotification(m, true, PlayStarted(Some(item)), lib).0;
      OnNotification(m1, true, PlayStopped, lib) == (Monitor(None), ResumeCheck(item, lib))
  {
  }
}

=== FILE: kodi_rpc.dfy ===
/** The JSON-RPC client's library lookups and favourite editing: reading a
    favourite's action string (`PlayMedia(...)` / `ActivateWindow(...)`)
    into the parameters of `Favourites.AddFavourite`, finding movies, TV
    shows and episodes by their unique ids, and removing a favourite from
    `favourites.xml`. Every RPC reply and every file read is an input. */
module KodiRpc {
  import opened Common

  // -----------------------------------------------------------------------
  // Favourite actions

  /** What `add_favorite` extracts from a favourite's action string. */
  datatype FavAction = Media(path: string) | Window(window: string, param: string)

  /** The window branch of `add_favorite`, applied to the text between
      `ActivateWindow(` and the last character: the first comma-separated
      piece is the window, the second, stripped of surrounding quotes, its
      parameter. */
  function ParseWindow(content: string): (a: FavAction)
    ensures a.Window?
    ensures ',' !in a.window && ',' !in a.param
    ensures |a.window| > 0 ==> !IsSpace(a.window[0]) && !IsSpace(a.window[|a.window| - 1])
    ensures |a.param| > 0 ==> a.param[0] != '"' && a.param[|a.param| - 1] != '"'
  {
    var pieces := Split(content, ',');
    StripKeepsOut(pieces[0], ',');
    StripKeepsOut(if |pieces| >= 2 then pieces[1] else "", ',');
    var window := Strip(Strip(pieces[0]));
    var param := if |pieces| >= 2 then StripChar(Strip(Strip(pieces[1])), '"') else "";
    Window(window, param)
  }

  /** The parsing branch of `add_favorite`. A `PlayMedia(` action with a
      quoted argument loses the quotes; an `ActivateWindow(` action is read
      by `ParseWindow`; anything else is taken whole as a media path. */
  function ParseAction(xml: string): (a: FavAction)
    ensures !StartsWith(xml, "PlayMedia(") && !StartsWith(xml, "ActivateWindow(") ==> a == Media(xml)
    ensures StartsWith(xml, "ActivateWindow(") ==> a == ParseWindow(SliceDrop(xml, 15, 1))
    ensures a.Window? <==> StartsWith(xml, "ActivateWindow(")
    ensures a.Media? ==> |a.path| <= |xml|
    ensures StartsWith(xml, "PlayMedia(") && EndsWith(xml, ")") ==> |a.path| < |xml|
  {
    if StartsWith(xml, "PlayMedia(") then
      assert xml[0] == 'P';
      if StartsWith(xml, "PlayMedia(\"") && EndsWith(xml, "\")") then Media(SliceDrop(xml, 11, 2))
      else if EndsWith(xml, ")") then
        var p := SliceDrop(xml, 10, 1);
        if StartsWith(p, "\"") && EndsWith(p, "\"") then Media(SliceDrop(p, 1, 1)) else Media(p)
      else Media(xml)
    else if StartsWith(xml, "ActivateWindow(") then ParseWindow(SliceDrop(xml, 15, 1))
    else Media(xml)
  }

  /** Stripping removes characters from the ends only, so a character absent
      from the input is absent from the result. */
  lemma StripKeepsOut(s: string, c: char)
    requires c !in s
    ensures c !in Strip(s) && c !in Strip(Strip(s))
    ensures forall q :: c !in StripChar(Strip(Strip(s)), q)
  {
    forall t: string, k: CharClass | c !in t ensures c !in TrimLeft(t, k) && c !in TrimRight(t, k) {
      var l := TrimLeft(t, k);
      assert forall i :: 0 <= i < |l| ==> l[i] == t[|t| - |l| + i];
      var r := TrimRight(t, k);
      assert forall i :: 0 <= i < |r| ==> r[i] == t[i];
    }
  }

  /** How a favourites file writes an action: a quoted media path, or a
      window with an optional quoted parameter. */
  function FormatAction(a: FavAction): string {
    match a
    case Media(p) => "PlayMedia(\"" + p + "\")"
    case Window(w, p) =>
      if p == "" then "ActivateWindow(" + w + ")" else "ActivateWindow(" + w + ",\"" + p + "\")"
  }

  /** Every quoted media path is read back exactly. */
  lemma {:induction false} ParseFormattedMedia(p: string)
    ensures ParseAction(FormatAction(Media(p))) == Media(p)
  {
    var xml := "PlayMedia(\"" + p + "\")";
    Framed("PlayMedia(\"", p, "\")");
    assert StartsWith(xml, "PlayMedia(") by {
      assert xml[..10] == xml[..11][..10] == "PlayMedia(";
    }
  }

  /** A string framed by a prefix and a suffix starts and ends with them,
      and dropping both gives back the middle. */
  lemma Framed(pre: string, mid: string, suf: string)
    ensures var s := pre + mid + suf;
      StartsWith(s, pre) && EndsWith(s, suf) && SliceDrop(s, |pre|, |suf|) == mid
  {
    var s := pre + mid + suf;
    assert s[..|pre|] == pre;
    assert s[|s| - |suf|..] == suf;
    assert s[|pre|..|s| - |suf|] == mid;
  }

  /** An unquoted media argument that does not itself start with a quote is
      taken as it stands. */
  lemma {:induction false} ParseUnquotedMedia(p: string)
    requires |p| > 0 ==> p[0] != '"'
    ensures ParseAction("PlayMedia(" + p + ")") == Media(p)
  {
    var xml := "PlayMedia(" + p + ")";
    assert xml[..10] == "PlayMedia(";
    assert xml[|xml| - 1..] == ")";
    assert |xml| >= 11 ==> xml[10] == (if |p| > 0 then p[0] else ')');
    assert SliceDrop(xml, 10, 1) == p;
  }

  /** The window parts a favourites file can carry without loss: no commas,
      no padding, and a parameter not itself wrapped in quotes. */
  predicate PlainWindow(w: string, p: string) {
    && ',' !in w && ',' !in p
    && (|w| > 0 ==> !IsSpace(w[0]) && !IsSpace(w[|w| - 1]))
    && (|p| > 0 ==> p[0] != '"' && p[|p| - 1] != '"')
  }

  /** `ActivateWindow(` + content + `)` hands exactly `content` to the window
      branch. */
  lemma {:induction false} ActivateWindowContent(content: string)
    ensures ParseAction("ActivateWindow(" + content + ")") == ParseWindow(content)
  {
    var xml := "ActivateWindow(" + content + ")";
    assert xml[..15] == "ActivateWindow(";
    assert SliceDrop(xml, 15, 1) == content;
  }

  /** Stripping quotes off a quoted parameter gives the parameter. */
  lemma {:induction false} UnquoteQuoted(p: string)
    requires p != "" && p[0] != '"' && p[|p| - 1] != '"'
    ensures StripChar("\"" + p + "\"", '"') == p
  {
    var q := "\"" + p + "\"";
    assert q[1..] == p + "\"";
    assert TrimLeft(q[1..], Only('"')) == p + "\"";
    assert TrimLeft(q, Only('"')) == p + "\"";
    assert (p + "\"")[..|p|] == p;
    assert TrimRight(p, Only('"')) == p;
  }

  /** A plain window and its parameter are read back exactly, whatever
      further comma-separated arguments (such as `return`) follow. */
  lemma {:induction false} ParseWindowArgs(w: string, p: string, extra: seq<string>)
    requires PlainWindow(w, p) && p != ""
    requires forall k :: 0 <= k < |extra| ==> ',' !in extra[k]
    ensures ParseWindow(Join([w, "\"" + p + "\""] + extra, ',')) == Window(w, p)
  {
    var q := "\"" + p + "\"";
    var parts := [w, q] + extra;
    assert ',' !in q;
    assert forall k :: 2 <= k < |parts| ==> parts[k] == extra[k - 2];
    JoinSplit(parts, ',');
    StripNoop(w);
    StripNoop(q);
    UnquoteQuoted(p);
  }

  /** A window without a parameter is read back exactly. */
  lemma {:induction false} ParseBareWindow(w: string)
    requires PlainWindow(w, "")
    ensures ParseAction("ActivateWindow(" + w + ")") == Window(w, "")
  {
    ActivateWindowContent(w);
    JoinSplit([w], ',');
    StripNoop(w);
  }

  /** A window with a quoted parameter and nothing after it is read back
      exactly. */
  lemma {:induction false} ParseQuotedWindow(w: string, p: string)
    requires PlainWindow(w, p) && p != ""
    ensures ParseAction("ActivateWindow(" + w + ",\"" + p + "\")") == Window(w, p)
  {
    var content := w + "," + ("\"" + p + "\"");
    ParseWindowArgs(w, p, []);
    JoinPair(w, "\"" + p + "\"");
    ActivateWindowContent(content);
    QuotedWindowText(w, p);
  }

  lemma JoinPair(a: string, b: string)
    ensures Join([a, b] + [], ',') == a + "," + b
  {
    assert [a, b] + [] == [a, b];
  }

  lemma QuotedWindowText(w: string, p: string)
    ensures "ActivateWindow(" + (w + "," + ("\"" + p + "\"")) + ")" == "ActivateWindow(" + w + ",\"" + p + "\")"
  {
  }

  /** The window form written without extra arguments is read back. */
  lemma ParseFormattedWindow(w: string, p: string)
    requires PlainWindow(w, p)
    ensures ParseAction(FormatAction(Window(w, p))) == Window(w, p)
  {
    if p == "" {
      ParseBareWindow(w);
    } else {
      ParseQuotedWindow(w, p);
    }
  }

  // -----------------------------------------------------------------------
  // The AddFavourite request

  /** The parameters of `Favourites.AddFavourite`; an optional field is
      absent from the request when it is None. */
  datatype FavouriteParams = FavouriteParams(title: string, typeName: string, path: Option<string>,
                                             thumbnail: Option<string>, window: Option<string>,
                                             windowParameter: Option<string>)

  /** Python's `if v: params[k] = v`: an empty value is left out. */
  function IfNonEmpty(v: string): (r: Option<string>)
    ensures r.None? <==> v == ""
    ensures r.Some? ==> r.value == v
  {
    if v != "" then Some(v) else None
  }

  /** `add_favourite`'s parameters: title and type always, each optional
      field only when non-empty. */
  function AddFavouriteParams(title: string, typeName: string, path: string, thumbnail: string,
                              window: string, windowParam: string): (p: FavouriteParams)
  {
    FavouriteParams(title, typeName, IfNonEmpty(path), IfNonEmpty(thumbnail), IfNonEmpty(window), IfNonEmpty(windowParam))
  }

  /** The request `add_favorite` sends for a favourite. */
  function AddFavoriteRequest(title: string, xml: string, thumbnail: string): (p: FavouriteParams)
    ensures p.title == title && p.thumbnail == IfNonEmpty(thumbnail)
    ensures p.typeName == "window" <==> StartsWith(xml, "ActivateWindow(")
    ensures p.typeName == "media" ==> p.window.None? && p.windowParameter.None?
    ensures p.typeName == "window" ==> p.path.None?
  {
    match ParseAction(xml)
    case Media(path) => AddFavouriteParams(title, "media", path, thumbnail, "", "")
    case Window(w, wp) => AddFavouriteParams(title, "window", "", thumbnail, w, wp)
  }

  /** How the receiving side reads a request back into an action. */
  function ActionOfRequest(p: FavouriteParams): FavAction {
    if p.typeName == "window" then Window(p.window.GetOr(""), p.windowParameter.GetOr(""))
    else Media(p.path.GetOr(""))
  }

  /** The request carries exactly the parsed action and the title. */
  lemma RequestCarriesAction(title: string, xml: string, thumbnail: string)
    ensures ActionOfRequest(AddFavoriteRequest(title, xml, thumbnail)) == ParseAction(xml)
  {
  }

  // -----------------------------------------------------------------------
  // Library lookups

  /** A movie or TV show as `GetMovies` / `GetTVShows` list it. */
  datatype LibItem = LibItem(id: int, uniqueid: AssocList<string, string>)

  /** Some pair of the query names an id the item has. */
  predicate MatchesAny(query: AssocList<string, string>, item: LibItem) {
    exists j :: 0 <= j < |query| && Get(item.uniqueid, query[j].0) == Some(query[j].1)
  }

  function FirstMatchIndex(items: seq<LibItem>, query: AssocList<string, string>): (i: nat)
    ensures i <= |items|
    ensures forall j :: 0 <= j < i ==> !MatchesAny(query, items[j])
    ensures i < |items| ==> MatchesAny(query, items[i])
  {
    if |items| == 0 then 0
    else if MatchesAny(query, items[0]) then 0
    else 1 + FirstMatchIndex(items[1..], query)
  }

  /** `find_movie_by_uniqueid` and `find_tvshow_by_uniqueid`: the id of the
      first listed item sharing any id with the query; None when the call
      failed or nothing matches. */
  function FindByUniqueId(items: Option<seq<LibItem>>, query: AssocList<string, string>): (r: Option<int>)
    ensures items.None? ==> r.None?
    ensures items.Some? ==> (r.None? <==> forall i :: 0 <= i < |items.value| ==> !MatchesAny(query, items.value[i]))
    ensures r.Some? ==> exists i :: && 0 <= i < |items.value| && items.value[i].id == r.value
                                    && MatchesAny(query, items.value[i])
                                    && forall j :: 0 <= j < i ==> !MatchesAny(query, items.value[j])
  {
    if items.None? then None
    else
      var i := FirstMatchIndex(items.value, query);
      if i < |items.value| then Some(items.value[i].id) else None
  }

  /** When exactly one item shares an id with the query, that item is found,
      wherever it is listed. */
  lemma FindTheOnlyMatch(items: seq<LibItem>, query: AssocList<string, string>, k: nat)
    requires k < |items| && MatchesAny(query, items[k])
    requires forall j :: 0 <= j < |items| && j != k ==> !MatchesAny(query, items[j])
    ensures FindByUniqueId(Some(items), query) == Some(items[k].id)
  {
  }

  /** An episode as `GetEpisodes` lists it; a missing field is None. */
  datatype LibEpisode = LibEpisode(id: int, season: Option<int>, episode: Option<int>)

  predicate IsEpisode(e: LibEpisode, season: int, episode: int) {
    e.season == Some(season) && e.episode == Some(episode)
  }

  function FirstEpisodeIndex(eps: seq<LibEpisode>, season: int, episode: int): (i: nat)
    ensures i <= |eps|
    ensures forall j :: 0 <= j < i ==> !IsEpisode(eps[j], season, episode)
    ensures i < |eps| ==> IsEpisode(eps[i], season, episode)
  {
    if |eps| == 0 then 0
    else if IsEpisode(eps[0], season, episode) then 0
    else 1 + FirstEpisodeIndex(eps[1..], season, episode)
  }

  /** `find_episode_by_show_and_episode`: find the show, then the first of
      its episodes with the given numbers. A show id of 0 is falsy and
      stops the search. `episodesOf(id)` is the `GetEpisodes` reply. */
  function FindEpisode(shows: Option<seq<LibItem>>, showQuery: AssocList<string, string>,
                       season: int, episode: int, episodesOf: int -> Option<seq<LibEpisode>>): (r: Option<int>)
    ensures var show := FindByUniqueId(shows, showQuery);
      show.None? || show.value == 0 || episodesOf(show.value).None? ==> r.None?
    ensures r.Some? ==>
      var eps := episodesOf(FindByUniqueId(shows, showQuery).value).value;
      exists i :: && 0 <= i < |eps| && eps[i].id == r.value && IsEpisode(eps[i], season, episode)
                  && (forall j :: 0 <= j < i ==> !IsEpisode(eps[j], season, episode))
    ensures var show := FindByUniqueId(shows, showQuery);
      show.Some? && show.value != 0 && episodesOf(show.value).Some? ==>
        (r.None? <==> forall i :: 0 <= i < |episodesOf(show.value).value| ==>
                        !IsEpisode(episodesOf(show.value).value[i], season, episode))
  {
    var show := FindByUniqueId(shows, showQuery);
    if show.None? || show.value == 0 then None
    else
      var eps := episodesOf(show.value);
      if eps.None? then None
      else
        var i := FirstEpisodeIndex(eps.value, season, episode);
        if i < |eps.value| then Some(eps.value[i].id) else None
  }

  // -----------------------------------------------------------------------
  // Removing a favourite

  /** A `<favourite>` element; `name` is None when the attribute is absent. */
  datatype XmlFavourite = XmlFavourite(name: Option<string>, action: string)

  function FirstNamedIndex(elems: seq<XmlFavourite>, title: string): (i: nat)
    ensures i <= |elems|
    ensures forall j :: 0 <= j < i ==> elems[j].name != Some(title)
    ensures i < |elems| ==> elems[i].name == Some(title)
  {
    if |elems| == 0 then 0
    else if elems[0].name == Some(title) then 0
    else 1 + FirstNamedIndex(elems[1..], title)
  }

  /** The element loop of `_remove_favorite_from_xml`: drop the first
      element named `title`, or report that there is none. */
  function RemoveFirstNamed(elems: seq<XmlFavourite>, title: string): (r: Option<seq<XmlFavourite>>)
    ensures r.None? <==> forall i :: 0 <= i < |elems| ==> elems[i].name != Some(title)
    ensures r.Some? ==> exists i :: && 0 <= i < |elems| && elems[i].name == Some(title)
                                    && (forall j :: 0 <= j < i ==> elems[j].name != Some(title))
                                    && r.value == elems[..i] + elems[i + 1..]
  {
    var i := FirstNamedIndex(elems, title);
    if i < |elems| then Some(elems[..i] + elems[i + 1..]) else None
  }

  /** How many elements carry the name `title`. */
  function NamedCount(elems: seq<XmlFavourite>, title: string): nat {
    if |elems| == 0 then 0
    else (if elems[0].name == Some(title) then 1 else 0) + NamedCount(elems[1..], title)
  }

  lemma {:induction false} NamedCountAppend(a: seq<XmlFavourite>, b: seq<XmlFavourite>, title: string)
    ensures NamedCount(a + b, title) == NamedCount(a, title) + NamedCount(b, title)
    decreases |a|
  {
    if |a| > 0 {
      assert (a + b)[0] == a[0];
      assert (a + b)[1..] == a[1..] + b;
      NamedCountAppend(a[1..], b, title);
    } else {
      assert a + b == b;
    }
  }

  /** A successful removal drops exactly one element named `title`, and
      keeps the count of every other name. */
  lemma {:induction false} RemoveDropsOne(elems: seq<XmlFavourite>, title: string, other: string)
    requires RemoveFirstNamed(elems, title).Some?
    ensures var r := RemoveFirstNamed(elems, title).value;
      && |r| == |elems| - 1
      && NamedCount(r, title) == NamedCount(elems, title) - 1
      && (other != title ==> NamedCount(r, other) == NamedCount(elems, other))
  {
    var i := FirstNamedIndex(elems, title);
    var before, after := elems[..i], elems[i + 1..];
    assert elems == before + elems[i..];
    assert elems[i..][1..] == after;
    assert NamedCount(elems[i..], title) == 1 + NamedCount(after, title);
    assert other != title ==> NamedCount(elems[i..], other) == NamedCount(after, other);
    NamedCountAppend(before, elems[i..], title);
    NamedCountAppend(before, after, title);
    NamedCountAppend(before, elems[i..], other);
    NamedCountAppend(before, after, other);
  }

  /** `_remove_favorite_from_xml`: `file` is the parsed favourites file, None
      when it does not exist; `writeOk` is false when writing it back raises.
      Returns the result and the file's contents afterwards. */
  function RemoveFromXml(file: Option<seq<XmlFavourite>>, title: string, writeOk: bool)
    : (out: (bool, Option<seq<XmlFavourite>>))
    ensures file.None? ==> out == (false, None)
    ensures out.0 <==> file.Some? && RemoveFirstNamed(file.value, title).Some? && writeOk
    ensures out.0 ==> out.1 == RemoveFirstNamed(file.value, title)
    ensures !out.0 ==> out.1 == file
  {
    if file.None? then (false, None)
    else
      var r := RemoveFirstNamed(file.value, title);
      if r.None? || !writeOk then (false, file) else (true, r)
  }

  /** `remove_favorite`: the title must be among the titles the API lists
      (`listed`); only then is the file edited. */
  function RemoveFavorite(listed: seq<Option<string>>, file: Option<seq<XmlFavourite>>, title: string,
                          writeOk: bool): (out: (bool, Option<seq<XmlFavourite>>))
    ensures Some(title) !in listed ==> out == (false, file)
    ensures Some(title) in listed ==> out == RemoveFromXml(file, title, writeOk)
    ensures out.0 ==> NamedCount(out.1.value, title) == NamedCount(file.value, title) - 1
  {
    if Some(title) !in listed then (false, file)
    else
      var out := RemoveFromXml(file, title, writeOk);
      if !out.0 then out
      else
        RemoveDropsOne(file.value, title, title);
        out
  }
}

=== FILE: message_flow.dfy ===
/** How the messages the Kodi monitor publishes on one device are applied
    by the service on another. The MQTT envelope and the JSON encoding
    carry `content` unchanged, so the receiving handlers read exactly the
    fields the publisher put there, and the handlers' defaults for the rest. */
module MessageFlow {
  import opened Common
  import KodiRpc
  import KodiMonitor
  import Service

  /** The `content` of a published message as the receiving handlers read
      it. An episode resume message has no `uniqueid`, read as `{}`. */
  function Received(o: KodiMonitor.Outgoing): Service.MediaContent {
    match o
    case MovieWatched(_, _, uid, playcount, _) =>
      Service.MediaContent(Some("movie"), uid, playcount, 0, 0, [], None, 0)
    case EpisodeWatched(_, _, _, season, episode, uid, showUid, playcount) =>
      Service.MediaContent(Some("episode"), uid, playcount, season, episode, showUid, None, 0)
    case MovieResume(_, _, uid, position, total) =>
      Service.MediaContent(Some("movie"), uid, 0, 0, 0, [], Some(position), total)
    case EpisodeResume(_, _, _, season, episode, showUid, position, total) =>
      Service.MediaContent(Some("episode"), [], 0, season, episode, showUid, Some(position), total)
  }

  /** A movie's watched message sets the play count of the movie the
      receiver finds under the same unique ids. */
  lemma MovieWatchedApplied(d: KodiMonitor.MovieDetails, lib: Service.Library, id: int)
    requires d.uniqueid != []
    requires KodiRpc.FindByUniqueId(lib.movies, d.uniqueid) == Some(id) && id != 0
    ensures var m := KodiMonitor.PublishMovieWatched(d);
      m.Some? && Service.HandleWatched(true, Received(m.value), lib) == Some(Service.SetMoviePlaycount(id, d.playcount))
  {
  }

  /** An episode's watched message sets the play count of the episode the
      receiver finds under the show's unique ids and the same numbers,
      provided the episode has unique ids of its own. */
  lemma EpisodeWatchedApplied(d: KodiMonitor.EpisodeDetails, showUid: AssocList<string, string>,
                              lib: Service.Library, id: int)
    requires d.uniqueid != [] && showUid != []
    requires KodiRpc.FindEpisode(lib.shows, showUid, d.season, d.episode, lib.episodesOf) == Some(id) && id != 0
    ensures var m := KodiMonitor.PublishEpisodeWatched(d, showUid);
      m.Some? && Service.HandleWatched(true, Received(m.value), lib) == Some(Service.SetEpisodePlaycount(id, d.playcount))
  {
  }

  /** A movie's resume message sets the same position and total on the
      movie the receiver finds. */
  lemma MovieResumeApplied(d: KodiMonitor.MovieDetails, lib: Service.Library, id: int)
    requires d.uniqueid != [] && d.position.Some? && d.position.value != 0
    requires KodiRpc.FindByUniqueId(lib.movies, d.uniqueid) == Some(id) && id != 0
    ensures var m := KodiMonitor.PublishMovieResume(d);
      m.Some? && Service.HandleResume(true, Received(m.value), lib)
                 == Some(Service.SetMovieResume(id, d.position.value, d.total))
  {
  }

  /** A library update for a movie whose play count changed reaches the
      other device as a write of that play count. */
  lemma LibraryUpdateApplied(item: KodiMonitor.NotifiedItem, lib: KodiMonitor.Library, remote: Service.Library, id: int)
    requires item.itemType == Some("movie") && KodiMonitor.TruthyId(item.id)
    requires lib.movies(item.id.value).Some? && lib.movies(item.id.value).value.uniqueid != []
    requires KodiRpc.FindByUniqueId(remote.movies, lib.movies(item.id.value).value.uniqueid) == Some(id) && id != 0
    ensures var m := KodiMonitor.LibraryUpdate(Some(item), lib);
      m.Some? && Service.HandleWatched(true, Received(m.value), remote)
                 == Some(Service.SetMoviePlaycount(id, lib.movies(item.id.value).value.playcount))
  {
    MovieWatchedApplied(lib.movies(item.id.value).value, remote, id);
  }

  /** Stopping a movie with a positive resume position reaches the other
      device as a write of that position and total. */
  lemma PlayStopApplied(item: KodiMonitor.NotifiedItem, lib: KodiMonitor.Library, remote: Service.Library, id: int)
    requires item.itemType == Some("movie") && KodiMonitor.TruthyId(item.id)
    requires lib.movies(item.id.value).Some?
    requires var d := lib.movies(item.id.value).value; d.uniqueid != [] && d.position.Some? && d.position.value > 0
    requires KodiRpc.FindByUniqueId(remote.movies, lib.movies(item.id.value).value.uniqueid) == Some(id) && id != 0
    ensures var d := lib.movies(item.id.value).value;
      var m := KodiMonitor.OnNotification(KodiMonitor.Monitor(Some(item)), true, KodiMonitor.PlayStopped, lib).1;
      m.Some? && Service.HandleResume(true, Received(m.value), remote)
                 == Some(Service.SetMovieResume(id, d.position.value, d.total))
  {
    var d := lib.movies(item.id.value).value;
    var out := KodiMonitor.OnNotification(KodiMonitor.Monitor(Some(item)), true, KodiMonitor.PlayStopped, lib);
    assert out.1 == KodiMonitor.ResumeCheck(item, lib);
    assert out.1 == KodiMonitor.PublishMovieResume(d);
    MovieResumeApplied(d, remote, id);
  }

  /** As written, an episode's resume message is never applied: it carries
      no `uniqueid`, and the handler stops at the missing id before it
      reaches its episode branch. */
  lemma EpisodeResumeNeverApplied(d: KodiMonitor.EpisodeDetails, showUid: AssocList<string, string>,
                                  enabled: bool, lib: Service.Library)
    ensures var m := KodiMonitor.PublishEpisodeResume(d, showUid);
      m.Some? ==> Service.HandleResume(enabled, Received(m.value), lib).None?
  {
  }

  /** With the corrected handler the same message sets the position and
      total on the episode the receiver finds. */
  lemma EpisodeResumeAppliedCorrected(d: KodiMonitor.EpisodeDetails, showUid: AssocList<string, string>,
                                      lib: Service.Library, id: int)
    requires showUid != [] && d.position.Some? && d.position.value != 0
    requires KodiRpc.FindEpisode(lib.shows, showUid, d.season, d.episode, lib.episodesOf) == Some(id) && id != 0
    ensures var m := KodiMonitor.PublishEpisodeResume(d, showUid);
      m.Some? && Service.HandleResumeCorrected(true, Received(m.value), lib)
                 == Some(Service.SetEpisodeResume(id, d.position.value, d.total))
  {
    var m := KodiMonitor.PublishEpisodeResume(d, showUid);
    assert m.Some? && m.value.EpisodeResume?;
    var c := Received(m.value);
    assert c == Service.MediaContent(Some("episode"), [], 0, d.season, d.episode, showUid, d.position, d.total);
    assert Service.EpisodeId(lib, c) == Some(id);
    AppliedToEpisode(c, lib, id);
  }

  lemma AppliedToEpisode(c: Service.MediaContent, lib: Service.Library, id: int)
    requires c.contentType == Some("episode") && c.showUniqueid != [] && c.position.Some? && c.position.value != 0
    requires Service.EpisodeId(lib, c) == Some(id) && id != 0
    ensures Service.HandleResumeCorrected(true, c, lib) == Some(Service.SetEpisodeResume(id, c.position.value, c.total))
  {
  }
}

=== FILE: mqtt_client.dfy ===
/** The MQTT client wrapper: how the device id is chosen, which settings
    make a usable configuration, the connection flags, the envelope put
    around every published payload, and how a received message reaches at
    most one registered handler. The broker, the clock, random hex, JSON
    decoding and the outcome of network calls are inputs. Which topics a
    subscription receives follows the topic filter rules of section 4.7 of
    the MQTT 3.1.1 standard. */
module MqttClient {
  import opened Common

  // -----------------------------------------------------------------------
  // Payloads

  /** A decoded JSON value. */
  datatype Value = Text(s: string) | Number(n: int) | Flag(b: bool) | Null | Object(fields: AssocList<string, Value>)

  /** A decoded JSON object: the body of every CloudSync message. */
  type Payload = AssocList<string, Value>

  /** One message handed to the broker. */
  datatype Message = Message(topic: string, payload: Payload, retain: bool)

  // -----------------------------------------------------------------------
  // Topic filters

  /** Levels of a filter against levels of a topic: `+` stands for exactly
      one level, a final `#` for all remaining levels (none included). */
  predicate LevelsMatch(f: seq<string>, t: seq<string>)
    decreases |f|
  {
    if |f| == 0 then |t| == 0
    else if f[0] == "#" then |f| == 1
    else |t| > 0 && (f[0] == "+" || f[0] == t[0]) && LevelsMatch(f[1..], t[1..])
  }

  /** Whether a subscription with `filter` receives messages on `topic`. */
  predicate TopicMatches(filter: string, topic: string) {
    LevelsMatch(Split(filter, '/'), Split(topic, '/'))
  }

  /** A filter without `#` matches exactly the topics with as many levels
      that agree with it on every level that is not `+`. */
  lemma {:induction false} LevelsMatchPointwise(f: seq<string>, t: seq<string>)
    requires "#" !in f
    ensures LevelsMatch(f, t) <==> |f| == |t| && forall i :: 0 <= i < |f| ==> f[i] == "+" || f[i] == t[i]
    decreases |f|
  {
    if |f| > 0 && |t| > 0 {
      assert f[0] != "#";
      assert "#" !in f[1..] by {
        forall i | 0 <= i < |f[1..]| ensures f[1..][i] != "#" {
          assert f[1..][i] == f[i + 1];
        }
      }
      LevelsMatchPointwise(f[1..], t[1..]);
      assert forall i :: 1 <= i < |f| ==> f[i] == f[1..][i - 1];
      assert forall i :: 1 <= i < |t| ==> t[i] == t[1..][i - 1];
    } else if |f| > 0 {
      assert f[0] != "#";
    }
  }

  /** A topic built from `/`-free levels splits back into them. */
  lemma TopicLevels(levels: seq<string>)
    requires |levels| >= 1
    requires forall k :: 0 <= k < |levels| ==> '/' !in levels[k]
    ensures Split(Join(levels, '/'), '/') == levels
  {
    JoinSplit(levels, '/');
  }

  /** A filter with a `+` exactly where the topic has a free level. */
  lemma FilterMatches(filter: seq<string>, levels: seq<string>)
    requires |filter| == |levels| >= 1
    requires "#" !in filter
    requires forall k :: 0 <= k < |filter| ==> '/' !in filter[k] && '/' !in levels[k]
    requires forall k :: 0 <= k < |filter| ==> filter[k] == "+" || filter[k] == levels[k]
    ensures TopicMatches(Join(filter, '/'), Join(levels, '/'))
  {
    TopicLevels(filter);
    TopicLevels(levels);
    LevelsMatchPointwise(filter, levels);
  }

  /** A filter without `#` never matches a topic with a different number
      of levels. */
  lemma FilterMisses(filter: seq<string>, levels: seq<string>)
    requires |filter| >= 1 && |levels| >= 1 && |filter| != |levels|
    requires "#" !in filter
    requires forall k :: 0 <= k < |filter| ==> '/' !in filter[k]
    requires forall k :: 0 <= k < |levels| ==> '/' !in levels[k]
    ensures !TopicMatches(Join(filter, '/'), Join(levels, '/'))
  {
    TopicLevels(filter);
    TopicLevels(levels);
    LevelsMatchPointwise(filter, levels);
  }

  /** `/w/` never occurs in a topic whose inner levels all differ from `w`. */
  lemma NotDelimitedIn(levels: seq<string>, w: string)
    requires |levels| >= 1
    requires '/' !in w
    requires forall k :: 0 <= k < |levels| ==> '/' !in levels[k]
    requires forall k :: 0 < k < |levels| - 1 ==> levels[k] != w
    ensures !Contains(Join(levels, '/'), "/" + w + "/")
  {
    var s := Join(levels, '/');
    if Contains(s, "/" + w + "/") {
      ContainsAt(s, "/" + w + "/");
      var i :| OccursAt(s, "/" + w + "/", i);
      TopicLevels(levels);
      DelimitedOccurrence(s, '/', w, i);
    }
  }

  /** Same, for a pattern `head/w/` such as a handler's topic prefix. */
  lemma PatternNotIn(levels: seq<string>, head: string, w: string)
    requires |levels| >= 1
    requires '/' !in w
    requires forall k :: 0 <= k < |levels| ==> '/' !in levels[k]
    requires forall k :: 0 < k < |levels| - 1 ==> levels[k] != w
    ensures !Contains(Join(levels, '/'), head + "/" + w + "/")
  {
    if Contains(Join(levels, '/'), head + "/" + w + "/") {
      assert head + "/" + w + "/" == head + ("/" + w + "/");
      ContainsSuffix(Join(levels, '/'), head, "/" + w + "/");
      NotDelimitedIn(levels, w);
    }
  }

  // -----------------------------------------------------------------------
  // Device id

  const DevicePrefix: string := "cloudsync_"

  /** The id in use and whether it has to be written back to the settings. */
  datatype DeviceIdChoice = DeviceIdChoice(id: string, persist: bool)

  /** The device name as it appears in a generated id: lower case, with
      every space turned into `_`. */
  function NameSuffix(name: string): (r: string)
    ensures |r| == |name|
    ensures forall i :: 0 <= i < |r| ==> r[i] != ' ' && !('A' <= r[i] <= 'Z')
    ensures forall i :: 0 <= i < |r| ==>
      r[i] == (if name[i] == ' ' then '_' else if 'A' <= name[i] <= 'Z' then (name[i] as int + 32) as char else name[i])
  {
    ReplaceChar(LowerAscii(name), ' ', '_')
  }

  /** A generated name suffix is its own suffix: generating an id from the
      tail of a generated id gives that id again. */
  lemma NameSuffixIdempotent(name: string)
    ensures NameSuffix(NameSuffix(name)) == NameSuffix(name)
  {
    var r := NameSuffix(name);
    assert forall i :: 0 <= i < |r| ==> NameSuffix(r)[i] == r[i];
  }

  /** Different device names can generate the same id: a space and an
      underscore, or an upper- and a lower-case letter, end up equal. */
  lemma DeviceNamesCollide()
    ensures DeviceId("", "A b", "01") == DeviceId("", "a_b", "23")
  {
    StripNoop("A b");
    StripNoop("a_b");
    assert NameSuffix("A b") == "a_b" by {
      assert |NameSuffix("A b")| == 3;
    }
    NameSuffixIdempotent("A b");
  }

  /** `uuid4().hex[:8]`: the first eight digits, or all of them when there
      are fewer. */
  function RandomSuffix(hex: string): (r: string)
    ensures |r| == (if |hex| < 8 then |hex| else 8) && r <= hex
  {
    hex[..if |hex| < 8 then |hex| else 8]
  }

  /** `_get_device_id`: the stored id when there is one; otherwise
      `cloudsync_` followed by the stripped device name in lower case with
      spaces turned into `_`, or by the first 8 random hex digits when the
      name is blank. A new id is persisted. */
  function DeviceId(stored: string, deviceName: string, randomHex: string): (r: DeviceIdChoice)
    ensures stored != "" ==> r == DeviceIdChoice(stored, false)
    ensures stored == "" ==> r.persist && StartsWith(r.id, DevicePrefix) && r.id != ""
    ensures stored == "" && Strip(deviceName) != "" ==>
      var tail := r.id[|DevicePrefix|..];
      |tail| == |Strip(deviceName)| && forall i :: 0 <= i < |tail| ==> tail[i] != ' ' && !('A' <= tail[i] <= 'Z')
    ensures stored == "" && Strip(deviceName) != "" ==> r.id[|DevicePrefix|..] == NameSuffix(Strip(deviceName))
    ensures stored == "" && Strip(deviceName) == "" ==>
      var tail := r.id[|DevicePrefix|..];
      |tail| == (if |randomHex| < 8 then |randomHex| else 8) && tail <= randomHex
  {
    if stored != "" then DeviceIdChoice(stored, false)
    else
      var name := Strip(deviceName);
      var suffix := if name != "" then NameSuffix(name) else RandomSuffix(randomHex);
      PrefixOfAppend(DevicePrefix, suffix);
      assert (DevicePrefix + suffix)[|DevicePrefix|..] == suffix;
      DeviceIdChoice(DevicePrefix + suffix, true)
  }

  /** The id is chosen once: reading it back from the settings gives the
      same id and writes nothing, whatever the name and the random hex. */
  lemma DeviceIdStable(stored: string, deviceName: string, randomHex: string, name2: string, hex2: string)
    ensures var id := DeviceId(stored, deviceName, randomHex).id;
      DeviceId(id, name2, hex2) == DeviceIdChoice(id, false)
  {
  }

  // -----------------------------------------------------------------------
  // Configuration

  const DefaultPort: nat := 8883

  datatype Config = Config(host: string, port: nat, username: string, password: string, useSsl: bool)

  /** `configure`: host, username and password are stripped and must all be
      non-empty; an empty port setting means 8883, any other must be a
      decimal number. None is the False of the source. */
  function Configure(host: string, port: string, username: string, password: string, useSsl: bool)
    : (r: Option<Config>)
    ensures r.Some? <==> (port == "" || ParseNat(port).Some?)
                         && Strip(host) != "" && Strip(username) != "" && Strip(password) != ""
    ensures r.Some? ==> r.value.host == Strip(host) && r.value.username == Strip(username)
                        && r.value.password == Strip(password) && r.value.useSsl == useSsl
    ensures r.Some? && port == "" ==> r.value.port == DefaultPort
    ensures r.Some? && port != "" ==> AllDigits(port) && r.value.port == DigitsValue(port)
  {
    var p := if port == "" then Some(DefaultPort) else ParseNat(port);
    if p.None? then None
    else if Strip(host) == "" || Strip(username) == "" || Strip(password) == "" then None
    else Some(Config(Strip(host), p.value, Strip(username), Strip(password), useSsl))
  }

  /** Writing a loaded configuration back to the settings and loading it
      again gives the same configuration. */
  lemma ConfigureStable(host: string, port: string, username: string, password: string, useSsl: bool)
    ensures var r := Configure(host, port, username, password, useSsl);
      r.Some? ==> Configure(r.value.host, NatToString(r.value.port), r.value.username, r.value.password, useSsl) == r
  {
    var r := Configure(host, port, username, password, useSsl);
    if r.Some? {
      StripIdempotent(host);
      StripIdempotent(username);
      StripIdempotent(password);
      ParseNatRoundTrip(r.value.port);
    }
  }

  // -----------------------------------------------------------------------
  // Connection flags

  /** Whether a paho client object exists, whether the broker acknowledged
      the connection, and whether `start` succeeded. */
  datatype Link = Link(hasClient: bool, connected: bool, enabled: bool)

  const Fresh: Link := Link(false, false, false)

  /** `is_connected`. */
  predicate IsConnected(l: Link) {
    l.connected && l.enabled
  }

  /** `cloudsync/devices/<id>/status`. */
  function DeviceStatusTopic(deviceId: string): string {
    "cloudsync/devices/" + deviceId + "/status"
  }

  /** `publish`: nothing is sent unless connected; the envelope carries the
      device id and the time, and the payload's own fields win. The flag is
      the broker's verdict `sendOk`. */
  function Publish(l: Link, deviceId: string, now: int, topic: string, payload: Payload, sendOk: bool)
    : (r: (bool, Option<Message>))
    requires UniqueKeys(payload)
    ensures !l.connected ==> r == (false, None)
    ensures l.connected ==> r.0 == sendOk && r.1.Some? && r.1.value.topic == topic && !r.1.value.retain
    ensures r.1.Some? ==> IsEnvelope(r.1.value.payload, deviceId, now, payload)
  {
    if !l.connected then (false, None)
    else (sendOk, Some(Message(topic, Envelope(deviceId, now, payload), false)))
  }

  /** `e` reads as `{"device_id": deviceId, "timestamp": now, **payload}`:
      the payload's fields, then the two envelope fields it lacks. */
  ghost predicate IsEnvelope(e: Payload, deviceId: string, now: int, payload: Payload) {
    forall k :: Get(e, k) == (if Get(payload, k).Some? then Get(payload, k)
                              else if k == "device_id" then Some(Text(deviceId))
                              else if k == "timestamp" then Some(Number(now))
                              else None)
  }

  /** The envelope of `publish`. */
  function Envelope(deviceId: string, now: int, payload: Payload): (e: Payload)
    requires UniqueKeys(payload)
    ensures IsEnvelope(e, deviceId, now, payload)
  {
    var head: Payload := [("device_id", Text(deviceId)), ("timestamp", Number(now))];
    assert "device_id" != "timestamp";
    assert forall k :: Get(head, k) == (if k == "device_id" then Some(Text(deviceId))
                                        else if k == "timestamp" then Some(Number(now)) else None);
    Merge(head, payload)
  }

  /** `publish_device_status`: sent, retained, whenever a client object
      exists, connected or not. */
  function PublishDeviceStatus(l: Link, deviceId: string, now: int, status: string): (m: Option<Message>)
    ensures m.Some? <==> l.hasClient
    ensures m.Some? ==> m.value.topic == DeviceStatusTopic(deviceId) && m.value.retain
    ensures m.Some? ==> Get(m.value.payload, "device_id") == Some(Text(deviceId))
                        && Get(m.value.payload, "status") == Some(Text(status))
  {
    if !l.hasClient then None
    else Some(Message(DeviceStatusTopic(deviceId), Envelope(deviceId, now, [("status", Text(status))]), true))
  }

  /** `start` (through `connect`): the paho library must be present and the
      settings complete; then a client object exists, and a successful
      connect call enables the client. `connected` is only set later, by
      the broker's acknowledgement. */
  function Start(l: Link, libraryOk: bool, configOk: bool, connectOk: bool): (out: (Link, bool))
    ensures out.1 <==> libraryOk && configOk && connectOk
    ensures out.0.connected == l.connected
    ensures out.1 ==> out.0.enabled && out.0.hasClient
    ensures !out.1 ==> out.0.enabled == l.enabled
  {
    if !libraryOk || !configOk then (l, false)
    else if !connectOk then (l.(hasClient := true), false)
    else (l.(hasClient := true, enabled := true), true)
  }

  /** `_on_connect`: a zero return code marks the link connected and
      announces the device online. */
  function OnConnect(l: Link, rc: int, deviceId: string, now: int): (out: (Link, Option<Message>))
    ensures out.0.connected <==> rc == 0
    ensures out.0.enabled == l.enabled && out.0.hasClient == l.hasClient
    ensures out.1.Some? <==> rc == 0 && l.hasClient
    ensures out.1.Some? ==> Get(out.1.value.payload, "status") == Some(Text("online"))
  {
    if rc == 0 then (l.(connected := true), PublishDeviceStatus(l, deviceId, now, "online"))
    else (l.(connected := false), None)
  }

  /** `_on_disconnect`. */
  function OnDisconnect(l: Link): (r: Link)
    ensures !r.connected && r.enabled == l.enabled && r.hasClient == l.hasClient
  {
    l.(connected := false)
  }

  /** `disconnect`: the offline status goes out only from a connected
      client; afterwards the link is neither connected nor enabled. */
  function Disconnect(l: Link, deviceId: string, now: int): (out: (Link, Option<Message>))
    ensures !out.0.connected && !out.0.enabled && out.0.hasClient == l.hasClient
    ensures out.1.Some? <==> l.hasClient && l.connected
    ensures out.1.Some? ==> out.1.value.topic == DeviceStatusTopic(deviceId) && out.1.value.retain
                            && Get(out.1.value.payload, "status") == Some(Text("offline"))
  {
    var m := if l.hasClient && l.connected then PublishDeviceStatus(l, deviceId, now, "offline") else None;
    (l.(connected := false, enabled := false), m)
  }

  /** `stop`. */
  function Stop(l: Link, deviceId: string, now: int): (out: (Link, Option<Message>))
    ensures !IsConnected(out.0)
    ensures !out.0.connected && !out.0.enabled && out.0.hasClient == l.hasClient
    ensures out.1.Some? <==> l.hasClient && l.connected
    ensures out.1.Some? ==> out.1.value.topic == DeviceStatusTopic(deviceId) && out.1.value.retain
                            && Get(out.1.value.payload, "status") == Some(Text("offline"))
  {
    Disconnect(l.(enabled := false), deviceId, now)
  }

  /** A successful start followed by the broker's acknowledgement leaves the
      client connected; stopping it then sends the offline status and
      refuses every later publish. */
  lemma StartConnectStop(l: Link, deviceId: string, now: int, later: int, topic: string, payload: Payload, sendOk: bool)
    requires UniqueKeys(payload)
    ensures var (l1, ok) := Start(l, true, true, true);
      var l2 := OnConnect(l1, 0, deviceId, now).0;
      var (l3, bye) := Stop(l2, deviceId, later);
      ok && IsConnected(l2) && bye.Some? && !IsConnected(l3)
      && Publish(l3, deviceId, later, topic, payload, sendOk) == (false, None)
  {
  }

  // -----------------------------------------------------------------------
  // Receiving

  /** Position of the first handler whose pattern occurs in `topic`, or
      `|handlers|` when none does. */
  function FirstPatternIndex<H>(handlers: AssocList<string, H>, topic: string): (i: nat)
    ensures i <= |handlers|
    ensures forall j :: 0 <= j < i ==> !Contains(topic, handlers[j].0)
    ensures i < |handlers| ==> Contains(topic, handlers[i].0)
    decreases |handlers|
  {
    if |handlers| == 0 then 0
    else if Contains(topic, handlers[0].0) then 0
    else 1 + FirstPatternIndex(handlers[1..], topic)
  }

  /** What became of one received message: undecodable, an echo of this
      device's own message, no matching handler, or given to one handler
      (which may have raised; the error is logged and goes no further). */
  datatype Delivery<H> = Undecodable | OwnEcho | Unrouted | Delivered(pattern: string, handler: H, raised: bool)

  /** `_on_message`: `payload` is None when the bytes are not a JSON
      object; `raises` says which handlers throw. */
  function OnMessage<H>(deviceId: string, handlers: AssocList<string, H>, topic: string,
                        payload: Option<Payload>, raises: H -> bool): (d: Delivery<H>)
    ensures d.Undecodable? <==> payload.None?
    ensures d.OwnEcho? <==> payload.Some? && Get(payload.value, "device_id") == Some(Text(deviceId))
    ensures d.Unrouted? <==> payload.Some? && Get(payload.value, "device_id") != Some(Text(deviceId))
                             && forall j :: 0 <= j < |handlers| ==> !Contains(topic, handlers[j].0)
    ensures d.Delivered? ==> Contains(topic, d.pattern) && (d.pattern, d.handler) in handlers
                             && d.raised == raises(d.handler)
  {
    if payload.None? then Undecodable
    else if Get(payload.value, "device_id") == Some(Text(deviceId)) then OwnEcho
    else
      var i := FirstPatternIndex(handlers, topic);
      if i == |handlers| then Unrouted
      else Delivered(handlers[i].0, handlers[i].1, raises(handlers[i].1))
  }

  /** The handler that gets a message is the first registered one whose
      pattern occurs in the topic, whatever comes after it. */
  lemma FirstMatchWins<H>(deviceId: string, handlers: AssocList<string, H>, topic: string,
                          payload: Payload, raises: H -> bool, i: nat)
    requires i < |handlers| && Contains(topic, handlers[i].0)
    requires forall j :: 0 <= j < i ==> !Contains(topic, handlers[j].0)
    requires Get(payload, "device_id") != Some(Text(deviceId))
    ensures OnMessage(deviceId, handlers, topic, Some(payload), raises)
         == Delivered(handlers[i].0, handlers[i].1, raises(handlers[i].1))
  {
  }

  /** A device never handles what it published itself, unless the payload
      brought its own `device_id` field. */
  lemma OwnPublishIgnored<H>(l: Link, deviceId: string, now: int, topic: string, payload: Payload, sendOk: bool,
                             handlers: AssocList<string, H>, raises: H -> bool)
    requires UniqueKeys(payload) && l.connected
    requires Get(payload, "device_id").None?
    ensures var m := Publish(l, deviceId, now, topic, payload, sendOk).1.value;
      OnMessage(deviceId, handlers, m.topic, Some(m.payload), raises) == OwnEcho
  {
  }

  // -----------------------------------------------------------------------
  // Subscriptions and the service's handlers

  /** `_subscribe_to_topics`. */
  const Subscriptions: seq<string> :=
    ["cloudsync/watched/+", "cloudsync/resume/+", "cloudsync/favorites/+", "cloudsync/devices/+/status"]

  /** The handlers the service registers, in registration order. */
  datatype ServiceHandler = WatchedHandler | ResumeHandler | FavoritesHandler | DeviceHandler

  /** `register_handler`: a dict assignment. */
  function RegisterHandler<H(==)>(handlers: AssocList<string, H>, pattern: string, h: H): (r: AssocList<string, H>)
    ensures Get(r, pattern) == Some(h)
    ensures forall p :: p != pattern ==> Get(r, p) == Get(handlers, p)
    ensures Get(handlers, pattern).None? ==> r == handlers + [(pattern, h)]
  {
    Put(handlers, pattern, h)
  }

  /** The service registers four distinct patterns, so they sit in
      registration order. */
  const ServiceHandlers: AssocList<string, ServiceHandler> :=
    [("cloudsync/watched/", WatchedHandler), ("cloudsync/resume/", ResumeHandler),
     ("cloudsync/favorites/", FavoritesHandler), ("cloudsync/devices/", DeviceHandler)]

  /** The status topic is made of the levels `cloudsync`, `devices`, the id
      and `status`. */
  lemma DeviceStatusLevels(deviceId: string)
    ensures DeviceStatusTopic(deviceId) == Join(["cloudsync", "devices", deviceId, "status"], '/')
  {
    var parts := ["cloudsync", "devices", deviceId, "status"];
    assert parts[1..] == ["devices", deviceId, "status"];
    assert parts[1..][1..] == [deviceId, "status"];
    assert Join([deviceId, "status"], '/') == deviceId + "/" + "status";
    assert Join(["devices", deviceId, "status"], '/') == "devices" + "/" + (deviceId + "/" + "status");
    assert Join(parts, '/') == "cloudsync" + "/" + ("devices" + "/" + (deviceId + "/" + "status"));
    assert "cloudsync/devices/" == "cloudsync" + "/" + "devices" + "/";
  }

  /** A device's status reaches every device subscribed to the status
      filter, as long as the id is a single topic level. */
  lemma DeviceStatusSubscribed(deviceId: string)
    requires '/' !in deviceId
    ensures TopicMatches(Subscriptions[3], DeviceStatusTopic(deviceId))
  {
    DeviceStatusLevels(deviceId);
    DeviceStatusLevels("+");
    assert Subscriptions[3] == DeviceStatusTopic("+");
    var filter := ["cloudsync", "devices", "+", "status"];
    var levels := ["cloudsync", "devices", deviceId, "status"];
    assert '/' !in "cloudsync" && '/' !in "devices" && '/' !in "+" && '/' !in "status";
    assert "#" != "cloudsync" && "#" != "devices" && "#" != "status";
    FilterMatches(filter, levels);
  }

  /** A status topic contains no `cloudsync/w/` for a level `w` other than
      `devices` and the id. */
  lemma StatusTopicAvoids(deviceId: string, w: string)
    requires '/' !in deviceId && '/' !in w
    requires deviceId != w && w != "devices"
    ensures !Contains(DeviceStatusTopic(deviceId), "cloudsync/" + w + "/")
  {
    DeviceStatusLevels(deviceId);
    StatusLevelsAvoid(deviceId, w);
    assert "cloudsync/" + w + "/" == "cloudsync" + "/" + w + "/";
  }

  lemma StatusLevelsAvoid(deviceId: string, w: string)
    requires '/' !in deviceId && '/' !in w
    requires deviceId != w && w != "devices"
    ensures !Contains(Join(["cloudsync", "devices", deviceId, "status"], '/'), "cloudsync" + "/" + w + "/")
  {
    StatusLevelsApart(deviceId, w);
    PatternNotIn(["cloudsync", "devices", deviceId, "status"], "cloudsync", w);
  }

  /** The status topic's levels hold no `/`, and its middle levels differ
      from `w`. */
  lemma StatusLevelsApart(deviceId: string, w: string)
    requires '/' !in deviceId && deviceId != w && w != "devices"
    ensures var levels := ["cloudsync", "devices", deviceId, "status"];
      && (forall k :: 0 <= k < |levels| ==> '/' !in levels[k])
      && (forall k :: 0 < k < |levels| - 1 ==> levels[k] != w)
  {
    assert '/' !in "cloudsync" && '/' !in "devices" && '/' !in "status";
  }

  /** Among the service's handlers, the device handler is the first whose
      pattern occurs in a status topic. */
  lemma StatusTopicFirstMatch(deviceId: string)
    requires '/' !in deviceId
    requires deviceId != "watched" && deviceId != "resume" && deviceId != "favorites"
    ensures FirstPatternIndex(ServiceHandlers, DeviceStatusTopic(deviceId)) == 3
  {
    var t := DeviceStatusTopic(deviceId);
    StatusTopicAvoids(deviceId, "watched");
    StatusTopicAvoids(deviceId, "resume");
    StatusTopicAvoids(deviceId, "favorites");
    ServicePatterns();
    StatusTopicHasDevices(deviceId);
    FourthPatternFirst(ServiceHandlers, t);
  }

  lemma ServicePatterns()
    ensures |ServiceHandlers| == 4
    ensures ServiceHandlers[0].0 == "cloudsync/" + "watched" + "/"
    ensures ServiceHandlers[1].0 == "cloudsync/" + "resume" + "/"
    ensures ServiceHandlers[2].0 == "cloudsync/" + "favorites" + "/"
    ensures ServiceHandlers[3].0 == "cloudsync/devices/"
  {
  }

  lemma StatusTopicHasDevices(deviceId: string)
    ensures Contains(DeviceStatusTopic(deviceId), "cloudsync/devices/")
  {
    assert DeviceStatusTopic(deviceId) == "cloudsync/devices/" + (deviceId + "/status");
    PrefixOfAppend("cloudsync/devices/", deviceId + "/status");
  }

  /** The fourth handler is the first match when the first three patterns
      do not occur and the fourth does. */
  lemma FourthPatternFirst<H>(handlers: AssocList<string, H>, topic: string)
    requires |handlers| >= 4
    requires forall j :: 0 <= j < 3 ==> !Contains(topic, handlers[j].0)
    requires Contains(topic, handlers[3].0)
    ensures FirstPatternIndex(handlers, topic) == 3
  {
    var i := FirstPatternIndex(handlers, topic);
    assert !(i < 3);
  }

  /** A status message from another device reaches the service's device
      handler; the sender's own copy is dropped as an echo. */
  lemma DeviceStatusReachesPeers(l: Link, sender: string, receiver: string, now: int, status: string,
                                 raises: ServiceHandler -> bool)
    requires l.hasClient && '/' !in sender && receiver != sender
    requires sender != "watched" && sender != "resume" && sender != "favorites"
    ensures var m := PublishDeviceStatus(l, sender, now, status).value;
      && OnMessage(receiver, ServiceHandlers, m.topic, Some(m.payload), raises) == Delivered("cloudsync/devices/", DeviceHandler, raises(DeviceHandler))
      && OnMessage(sender, ServiceHandlers, m.topic, Some(m.payload), raises) == OwnEcho
  {
    StatusTopicFirstMatch(sender);
  }

  /** `cloudsync/<kind>/<id>` is made of three levels. */
  lemma ThreeLevels(kind: string, id: string)
    ensures "cloudsync/" + kind + "/" + id == Join(["cloudsync", kind, id], '/')
  {
    var parts := ["cloudsync", kind, id];
    assert parts[1..] == [kind, id];
    assert Join([kind, id], '/') == kind + "/" + id;
    assert "cloudsync/" + kind + "/" + id == "cloudsync" + "/" + (kind + "/" + id);
  }

  /** The subscription `cloudsync/<kind>/+` receives `cloudsync/<kind>/<id>`
      for every id that is a single level. */
  lemma KindSubscribed(kind: string, id: string)
    requires '/' !in kind && '/' !in id && kind != "#" && kind != "+"
    ensures TopicMatches("cloudsync/" + kind + "/+", "cloudsync/" + kind + "/" + id)
  {
    ThreeLevels(kind, id);
    ThreeLevels(kind, "+");
    assert "cloudsync/" + kind + "/+" == "cloudsync/" + kind + "/" + "+";
    assert '/' !in "cloudsync" && '/' !in "+" && "#" != "cloudsync";
    FilterMatches(["cloudsync", kind, "+"], ["cloudsync", kind, id]);
  }

  /** The handler patterns and subscriptions of the service, level by level. */
  lemma ServiceShapes()
    ensures ServiceHandlers[0].0 == "cloudsync" + "/" + "watched" + "/"
    ensures ServiceHandlers[1].0 == "cloudsync" + "/" + "resume" + "/"
    ensures Subscriptions[0] == "cloudsync/" + "watched" + "/+"
    ensures Subscriptions[1] == "cloudsync/" + "resume" + "/+"
  {
  }

  /** `cloudsync/watched/<id>` level by level. */
  lemma WatchedTopicLevels(id: string)
    ensures "cloudsync/watched/" + id == "cloudsync/" + "watched" + "/" + id == Join(["cloudsync", "watched", id], '/')
  {
    ThreeLevels("watched", id);
  }

  /** `cloudsync/resume/<id>` level by level. */
  lemma ResumeTopicLevels(id: string)
    ensures "cloudsync/resume/" + id == "cloudsync/" + "resume" + "/" + id == Join(["cloudsync", "resume", id], '/')
  {
    ThreeLevels("resume", id);
  }

  /** The watched pattern is the first to catch a watched topic. */
  lemma WatchedTopicFirstMatch(id: string)
    ensures FirstPatternIndex(ServiceHandlers, "cloudsync/watched/" + id) == 0
  {
    PrefixOfAppend("cloudsync/watched/", id);
  }

  /** The resume pattern is the first to catch a resume topic. */
  lemma ResumeTopicFirstMatch(id: string)
    requires '/' !in id
    ensures FirstPatternIndex(ServiceHandlers, "cloudsync/resume/" + id) == 1
  {
    ResumeTopicLevels(id);
    ServiceShapes();
    assert '/' !in "cloudsync" && '/' !in "resume";
    PatternNotIn(["cloudsync", "resume", id], "cloudsync", "watched");
    PrefixOfAppend("cloudsync/resume/", id);
  }

  /** A watched message published by one device on `cloudsync/watched/<id>`
      is received through the watched subscription and handed to another
      device's watched handler. */
  lemma WatchedReachesPeers(l: Link, sender: string, receiver: string, now: int, id: string, payload: Payload,
                            sendOk: bool, raises: ServiceHandler -> bool)
    requires UniqueKeys(payload) && l.connected && Get(payload, "device_id").None?
    requires receiver != sender && '/' !in id
    ensures var m := Publish(l, sender, now, "cloudsync/watched/" + id, payload, sendOk).1.value;
      && TopicMatches(Subscriptions[0], m.topic)
      && OnMessage(receiver, ServiceHandlers, m.topic, Some(m.payload), raises)
         == Delivered("cloudsync/watched/", WatchedHandler, raises(WatchedHandler))
  {
    KindSubscribed("watched", id);
    WatchedTopicLevels(id);
    ServiceShapes();
    WatchedTopicFirstMatch(id);
  }

  /** Likewise for resume points: the earlier watched pattern does not catch
      them. */
  lemma ResumeReachesPeers(l: Link, sender: string, receiver: string, now: int, id: string, payload: Payload,
                           sendOk: bool, raises: ServiceHandler -> bool)
    requires UniqueKeys(payload) && l.connected && Get(payload, "device_id").None?
    requires receiver != sender && '/' !in id
    ensures var m := Publish(l, sender, now, "cloudsync/resume/" + id, payload, sendOk).1.value;
      && TopicMatches(Subscriptions[1], m.topic)
      && OnMessage(receiver, ServiceHandlers, m.topic, Some(m.payload), raises)
         == Delivered("cloudsync/resume/", ResumeHandler, raises(ResumeHandler))
  {
    KindSubscribed("resume", id);
    ResumeTopicLevels(id);
    ServiceShapes();
    ResumeTopicFirstMatch(id);
  }
}

=== FILE: mqtt_sync_manager.dfy ===
/** The MQTT sync manager and its simulated client: the device id, the
    connection it sets up, the watched and favourites messages it
    publishes, and how it routes what it receives. Two subscription and
    routing lists appear here: the ones the manager uses, and corrected
    ones under which its own device status and watched messages are
    actually delivered. */
module MqttSyncManager {
  import opened Common
  import MqttClient

  type Message = MqttClient.Message
  type Payload = MqttClient.Payload

  // -----------------------------------------------------------------------
  // The simulated client

  /** `SimpleMQTTClient`: no socket, only a connected flag and the set of
      subscribed filters. */
  datatype Stub = Stub(connected: bool, subscriptions: set<string>)

  /** `subscribe`: recorded only while connected. */
  function StubSubscribe(c: Stub, filter: string): (r: Stub)
    ensures r.connected == c.connected
    ensures c.connected ==> filter in r.subscriptions
    ensures r.subscriptions - {filter} == c.subscriptions - {filter}
    ensures !c.connected ==> r == c
  {
    if c.connected then c.(subscriptions := c.subscriptions + {filter}) else c
  }

  /** `_subscribe_to_topics`: every filter of the list, in order. */
  function SubscribeAll(c: Stub, filters: seq<string>): (r: Stub)
    ensures r.connected == c.connected
    ensures c.connected ==> r.subscriptions == c.subscriptions + set f | f in filters
    ensures !c.connected ==> r == c
    decreases |filters|
  {
    if |filters| == 0 then c
    else
      var r := SubscribeAll(StubSubscribe(c, filters[0]), filters[1..]);
      assert (set f | f in filters) == {filters[0]} + set f | f in filters[1..];
      r
  }

  /** `publish` of the stub: succeeds exactly while connected. */
  function StubPublish(c: Stub): bool {
    c.connected
  }

  // -----------------------------------------------------------------------
  // Device id

  const DevicePrefix: string := "kodi_"

  /** `_get_device_id`: the stored id, or `kodi_` followed by the first 12
      random hex digits, which is then persisted. */
  function DeviceId(stored: string, randomHex: string): (r: MqttClient.DeviceIdChoice)
    ensures stored != "" ==> r == MqttClient.DeviceIdChoice(stored, false)
    ensures stored == "" ==> r.persist && StartsWith(r.id, DevicePrefix)
    ensures stored == "" ==> var tail := r.id[|DevicePrefix|..];
      |tail| == (if |randomHex| < 12 then |randomHex| else 12) && tail <= randomHex
  {
    if stored != "" then MqttClient.DeviceIdChoice(stored, false)
    else
      var tail := randomHex[..if |randomHex| < 12 then |randomHex| else 12];
      PrefixOfAppend(DevicePrefix, tail);
      assert (DevicePrefix + tail)[|DevicePrefix|..] == tail;
      MqttClient.DeviceIdChoice(DevicePrefix + tail, true)
  }

  /** The id is generated once: the persisted id is read back unchanged. */
  lemma DeviceIdStable(stored: string, randomHex: string, hex2: string)
    ensures var id := DeviceId(stored, randomHex).id;
      DeviceId(id, hex2) == MqttClient.DeviceIdChoice(id, false)
  {
    var r := DeviceId(stored, randomHex);
    assert r.id != "" by {
      if stored == "" {
        assert |r.id| >= |DevicePrefix|;
      }
    }
  }

  // -----------------------------------------------------------------------
  // Manager state

  /** The manager's own flags and its client, None before `initialize`. */
  datatype Manager = Manager(deviceId: string, client: Option<Stub>, connected: bool, enabled: bool)

  /** The manager is marked connected only by its client's callback, so a
      connected manager has a connected client. */
  predicate Consistent(m: Manager) {
    m.connected ==> m.client.Some? && m.client.value.connected
  }

  /** `is_enabled`. */
  predicate IsEnabled(m: Manager) {
    m.enabled && m.connected
  }

  /** `cloudsync/devices/<id>/status`, shared with the client wrapper. */
  function StatusTopic(deviceId: string): string {
    MqttClient.DeviceStatusTopic(deviceId)
  }

  /** `_publish_device_status`: only while connected; retained. */
  function PublishDeviceStatus(m: Manager, now: int, status: string): (msg: Option<Message>)
    requires Consistent(m)
    ensures msg.Some? <==> m.connected
    ensures msg.Some? ==> msg.value.topic == StatusTopic(m.deviceId) && msg.value.retain
    ensures msg.Some? ==> Get(msg.value.payload, "device_id") == Some(MqttClient.Text(m.deviceId))
                          && Get(msg.value.payload, "status") == Some(MqttClient.Text(status))
  {
    if !m.connected then None
    else
      var payload: Payload := [("device_id", MqttClient.Text(m.deviceId)), ("timestamp", MqttClient.Number(now)),
                               ("status", MqttClient.Text(status))];
      assert "status" != "device_id" && "status" != "timestamp";
      GetFirst(payload, "device_id", 0);
      GetFirst(payload, "status", 2);
      Some(MqttClient.Message(StatusTopic(m.deviceId), payload, true))
  }

  /** `initialize` followed by the client's connect callback: host and
      username must be set and the port setting numeric (empty means 8883);
      then a fresh client connects, subscribes to `filters` and announces
      the device online. */
  function Initialize(m: Manager, filters: seq<string>, host: string, port: string, username: string, now: int)
    : (out: (Manager, bool, Option<Message>))
    requires Consistent(m)
    ensures Consistent(out.0)
    ensures out.1 <==> (port == "" || ParseNat(port).Some?) && host != "" && username != ""
    ensures out.1 ==> out.0.connected && out.0.client == Some(Stub(true, set f | f in filters))
    ensures out.1 ==> out.2 == PublishDeviceStatus(out.0, now, "online") && out.2.Some?
    ensures !out.1 ==> out.0 == m && out.2.None?
    ensures out.0.deviceId == m.deviceId && out.0.enabled == m.enabled
  {
    var p := if port == "" then Some(8883) else ParseNat(port);
    if p.None? || host == "" || username == "" then (m, false, None)
    else
      var client := SubscribeAll(Stub(true, {}), filters);
      assert client.subscriptions == set f | f in filters;
      var m1 := m.(client := Some(client), connected := true);
      (m1, true, PublishDeviceStatus(m1, now, "online"))
  }

  /** `start`: a successful initialization enables the manager. */
  function Start(m: Manager, filters: seq<string>, host: string, port: string, username: string, now: int)
    : (out: (Manager, bool, Option<Message>))
    requires Consistent(m)
    ensures Consistent(out.0)
    ensures out.1 ==> IsEnabled(out.0)
    ensures !out.1 ==> out.0 == m
  {
    var (m1, ok, msg) := Initialize(m, filters, host, port, username, now);
    if ok then (m1.(enabled := true), true, msg) else (m1, false, msg)
  }

  /** `stop`: a connected manager sends its offline status and disconnects;
      in every case it ends disabled and not connected. */
  function Stop(m: Manager, now: int): (out: (Manager, Option<Message>))
    requires Consistent(m)
    ensures Consistent(out.0) && !out.0.enabled && !out.0.connected
    ensures out.1.Some? <==> m.connected
    ensures out.1.Some? ==> Get(out.1.value.payload, "status") == Some(MqttClient.Text("offline"))
  {
    if m.client.Some? && m.connected then
      var msg := PublishDeviceStatus(m, now, "offline");
      (m.(client := Some(m.client.value.(connected := false)), connected := false, enabled := false), msg)
    else (m.(enabled := false), None)
  }

  // -----------------------------------------------------------------------
  // Publishing

  /** `cloudsync/sync/watched/<type>/<key>_<value>`. */
  function WatchedTopic(contentType: string, key: string, value: string): string {
    "cloudsync/sync/watched/" + contentType + "/" + key + "_" + value
  }

  /** `cloudsync/sync/favorites/<action>`. */
  function FavoritesTopic(action: string): string {
    "cloudsync/sync/favorites/" + action
  }

  function TextFields(d: AssocList<string, string>): (r: AssocList<string, MqttClient.Value>)
    ensures |r| == |d|
    ensures forall i :: 0 <= i < |d| ==> r[i] == (d[i].0, MqttClient.Text(d[i].1))
  {
    if |d| == 0 then [] else [(d[0].0, MqttClient.Text(d[0].1))] + TextFields(d[1..])
  }

  /** The `content` object of a watched message. */
  function WatchedContent(contentType: string, uniqueid: AssocList<string, string>, title: string,
                          playcount: int, lastplayed: string, resume: MqttClient.Value): MqttClient.Value {
    MqttClient.Object([("type", MqttClient.Text(contentType)), ("uniqueid", MqttClient.Object(TextFields(uniqueid))),
                       ("title", MqttClient.Text(title)), ("playcount", MqttClient.Number(playcount)),
                       ("lastplayed", MqttClient.Text(lastplayed)), ("resume", resume)])
  }

  /** `publish_watched_change`: nothing without a connection or without a
      unique id that has a value; the topic ends in `<key>_<value>` of the
      first such id, and the result is the client's verdict. */
  function PublishWatchedChange(m: Manager, now: int, contentType: string, uniqueid: AssocList<string, string>,
                                title: string, playcount: int, lastplayed: string, resume: MqttClient.Value)
    : (r: (bool, Option<Message>))
    requires Consistent(m)
    ensures r.0 <==> r.1.Some?
    ensures r.0 <==> m.connected && FirstNonEmpty(uniqueid).Some?
    ensures r.0 ==> var (k, v) := FirstNonEmpty(uniqueid).value;
      && r.1.value.topic == WatchedTopic(contentType, k, v)
      && Get(r.1.value.payload, "device_id") == Some(MqttClient.Text(m.deviceId))
      && Get(r.1.value.payload, "content") == Some(WatchedContent(contentType, uniqueid, title, playcount, lastplayed, resume))
  {
    if !m.connected then (false, None)
    else
      var id := FirstNonEmpty(uniqueid);
      if id.None? then (false, None)
      else
        var content := WatchedContent(contentType, uniqueid, title, playcount, lastplayed, resume);
        var payload: Payload := [("device_id", MqttClient.Text(m.deviceId)), ("timestamp", MqttClient.Number(now)),
                                 ("event_type", MqttClient.Text("watched_status_changed")), ("content", content)];
        assert "content" != "device_id" && "content" != "timestamp" && "content" != "event_type";
        GetFirst(payload, "content", 3);
        if StubPublish(m.client.value) then
          (true, Some(MqttClient.Message(WatchedTopic(contentType, id.value.0, id.value.1), payload, false)))
        else (false, None)
  }

  /** `publish_favorites_change`. */
  function PublishFavoritesChange(m: Manager, now: int, action: string, itemType: string, itemData: MqttClient.Value)
    : (r: (bool, Option<Message>))
    requires Consistent(m)
    ensures r.0 <==> r.1.Some?
    ensures r.0 <==> m.connected
    ensures r.0 ==> r.1.value.topic == FavoritesTopic(action)
                    && Get(r.1.value.payload, "device_id") == Some(MqttClient.Text(m.deviceId))
                    && Get(r.1.value.payload, "content") == Some(MqttClient.Object(
                         [("action", MqttClient.Text(action)), ("type", MqttClient.Text(itemType)), ("data", itemData)]))
  {
    if !m.connected then (false, None)
    else
      var content := MqttClient.Object([("action", MqttClient.Text(action)), ("type", MqttClient.Text(itemType)),
                                        ("data", itemData)]);
      var payload: Payload := [("device_id", MqttClient.Text(m.deviceId)), ("timestamp", MqttClient.Number(now)),
                               ("event_type", MqttClient.Text("favorites_" + action)), ("content", content)];
      assert "content" != "device_id" && "content" != "timestamp" && "content" != "event_type";
      GetFirst(payload, "content", 3);
      if StubPublish(m.client.value) then (true, Some(MqttClient.Message(FavoritesTopic(action), payload, false)))
      else (false, None)
  }

  /** Once stopped, the manager publishes nothing. */
  lemma StoppedPublishesNothing(m: Manager, now: int, later: int, contentType: string, uniqueid: AssocList<string, string>,
                                title: string, playcount: int, lastplayed: string, resume: MqttClient.Value,
                                action: string, itemType: string, itemData: MqttClient.Value)
    requires Consistent(m)
    ensures var s := Stop(m, now).0;
      && !IsEnabled(s)
      && PublishWatchedChange(s, later, contentType, uniqueid, title, playcount, lastplayed, resume) == (false, None)
      && PublishFavoritesChange(s, later, action, itemType, itemData) == (false, None)
      && PublishDeviceStatus(s, later, "online").None?
  {
  }

  // -----------------------------------------------------------------------
  // Receiving

  datatype Route = ToWatched | ToFavorites | ToDevice

  /** The routing of `_on_message` as written: the first marker found in
      the topic decides. */
  const RoutesAsWritten: AssocList<string, Route> :=
    [("/watched/", ToWatched), ("/favorites/", ToFavorites), ("/device/", ToDevice)]

  /** The routing with the device marker matching the status topic. */
  const Routes: AssocList<string, Route> :=
    [("/watched/", ToWatched), ("/favorites/", ToFavorites), ("/devices/", ToDevice)]

  /** The subscriptions of `_subscribe_to_topics` as written. */
  const SubscriptionsAsWritten: seq<string> :=
    ["cloudsync/sync/watched/+", "cloudsync/sync/favorites/+", "cloudsync/devices/+/status"]

  /** The subscriptions with the watched filter covering both levels the
      watched topic has after `watched`. */
  const Subscriptions: seq<string> :=
    ["cloudsync/sync/watched/+/+", "cloudsync/sync/favorites/+", "cloudsync/devices/+/status"]

  /** What a received message leads to: nothing, a log line only, or a
      registered callback invoked with the message's content. */
  datatype Outcome = Dropped | Logged(route: Route) | Callback(route: Route, content: MqttClient.Value)

  /** `_handle_watched_message` / `_handle_favorites_message` /
      `_handle_device_message`: a missing content is `{}`; a content that is
      not an object makes the handler fail and log; without a registered
      callback only a warning is logged. */
  function Handle(route: Route, payload: Payload, watchedSet: bool, favoritesSet: bool): (o: Outcome)
    ensures o.Callback? ==> o.route == route && o.content.Object?
                            && o.content == Get(payload, "content").GetOr(MqttClient.Object([]))
    ensures o.Callback? <==> route != ToDevice && Get(payload, "content").GetOr(MqttClient.Object([])).Object?
                             && (if route == ToWatched then watchedSet else favoritesSet)
    ensures o.Logged? ==> o.route == route
  {
    if route == ToDevice then Logged(route)
    else
      var content := Get(payload, "content").GetOr(MqttClient.Object([]));
      if !content.Object? then Logged(route)
      else if (if route == ToWatched then watchedSet else favoritesSet) then Callback(route, content)
      else Logged(route)
  }

  /** `_on_message` under a routing list: undecodable bytes, the device's
      own messages and unrouted topics lead nowhere. */
  function OnMessage(m: Manager, routes: AssocList<string, Route>, topic: string, payload: Option<Payload>,
                     watchedSet: bool, favoritesSet: bool): (o: Outcome)
    ensures payload.None? ==> o == Dropped
    ensures payload.Some? && Get(payload.value, "device_id") == Some(MqttClient.Text(m.deviceId)) ==> o == Dropped
    ensures (forall j :: 0 <= j < |routes| ==> !Contains(topic, routes[j].0)) ==> o == Dropped
    ensures !o.Dropped? ==> payload.Some? && exists j :: 0 <= j < |routes| && routes[j].1 == o.route && Contains(topic, routes[j].0)
    ensures payload.Some? && Get(payload.value, "device_id") != Some(MqttClient.Text(m.deviceId))
            && (exists j :: 0 <= j < |routes| && Contains(topic, routes[j].0)) ==>
            !o.Dropped? && o.route == routes[MqttClient.FirstPatternIndex(routes, topic)].1
    ensures o.Callback? ==> o.content == Get(payload.value, "content").GetOr(MqttClient.Object([]))
                            && (if o.route == ToWatched then watchedSet else favoritesSet)
  {
    var d := MqttClient.OnMessage(m.deviceId, routes, topic, payload, (r: Route) => false);
    if d.Delivered? then Handle(d.handler, payload.value, watchedSet, favoritesSet) else Dropped
  }

  // -----------------------------------------------------------------------
  // Topics level by level

  /** A status topic never contains `/w/` for a level `w` that is neither
      `devices` nor the id. */
  lemma StatusTopicAvoids(deviceId: string, w: string)
    requires '/' !in deviceId && '/' !in w
    requires deviceId != w && w != "devices"
    ensures !Contains(StatusTopic(deviceId), "/" + w + "/")
  {
    MqttClient.DeviceStatusLevels(deviceId);
    StatusLevelsAvoid(deviceId, w);
  }

  lemma StatusLevelsAvoid(deviceId: string, w: string)
    requires '/' !in deviceId && '/' !in w
    requires deviceId != w && w != "devices"
    ensures !Contains(Join(["cloudsync", "devices", deviceId, "status"], '/'), "/" + w + "/")
  {
    MqttClient.StatusLevelsApart(deviceId, w);
    MqttClient.NotDelimitedIn(["cloudsync", "devices", deviceId, "status"], w);
  }

  /** Every status topic contains `/devices/`. */
  lemma StatusTopicHasDevices(deviceId: string)
    ensures Contains(StatusTopic(deviceId), "/devices/")
  {
    var t := StatusTopic(deviceId);
    assert t == "cloudsync/devices/" + (deviceId + "/status");
    PrefixOfAppend("cloudsync/devices/", deviceId + "/status");
    assert "cloudsync/devices/" == "cloudsync" + "/devices/";
    ContainsSuffix(t, "cloudsync", "/devices/");
  }

  /** The routing markers, level by level. */
  lemma MarkerShapes()
    ensures RoutesAsWritten[0].0 == Routes[0].0 == "/" + "watched" + "/"
    ensures RoutesAsWritten[1].0 == Routes[1].0 == "/" + "favorites" + "/"
    ensures RoutesAsWritten[2].0 == "/" + "device" + "/"
  {
  }

  /** As written, the device handler never sees a status message: the
      topic says `devices`, the marker `device`. */
  lemma StatusUnroutedAsWritten(deviceId: string)
    requires '/' !in deviceId
    requires deviceId != "watched" && deviceId != "favorites" && deviceId != "device"
    ensures MqttClient.FirstPatternIndex(RoutesAsWritten, StatusTopic(deviceId)) == |RoutesAsWritten|
  {
    MarkerShapes();
    StatusTopicAvoids(deviceId, "watched");
    StatusTopicAvoids(deviceId, "favorites");
    StatusTopicAvoids(deviceId, "device");
  }

  /** A status message of any generated id, received from another device,
      leads nowhere. */
  lemma PeerStatusDroppedAsWritten(m: Manager, peer: Manager, now: int, randomHex: string,
                                   watchedSet: bool, favoritesSet: bool)
    requires Consistent(peer) && peer.connected && peer.deviceId == DeviceId("", randomHex).id
    requires '/' !in randomHex && m.deviceId != peer.deviceId
    ensures var msg := PublishDeviceStatus(peer, now, "online").value;
      OnMessage(m, RoutesAsWritten, msg.topic, Some(msg.payload), watchedSet, favoritesSet) == Dropped
  {
    var id := peer.deviceId;
    assert id[0] == 'k' && |id| >= 5;
    assert '/' !in id by {
      assert forall i :: 5 <= i < |id| ==> id[i] == id[5..][i - 5];
    }
    assert id != "watched" && id != "favorites" && id != "device" by {
      assert "watched"[0] == 'w' && "favorites"[0] == 'f' && "device"[0] == 'd';
    }
    StatusUnroutedAsWritten(id);
  }

  /** With the corrected marker, another device's status reaches the device
      handler. */
  lemma PeerStatusRouted(m: Manager, peer: Manager, now: int, watchedSet: bool, favoritesSet: bool)
    requires Consistent(peer) && peer.connected && m.deviceId != peer.deviceId
    requires '/' !in peer.deviceId && peer.deviceId != "watched" && peer.deviceId != "favorites"
    ensures var msg := PublishDeviceStatus(peer, now, "online").value;
      OnMessage(m, Routes, msg.topic, Some(msg.payload), watchedSet, favoritesSet) == Logged(ToDevice)
  {
    var id := peer.deviceId;
    MarkerShapes();
    StatusTopicAvoids(id, "watched");
    StatusTopicAvoids(id, "favorites");
    StatusTopicHasDevices(id);
    var msg := PublishDeviceStatus(peer, now, "online").value;
    MqttClient.FirstMatchWins(m.deviceId, Routes, msg.topic, msg.payload, (r: Route) => false, 2);
  }

  /** A watched topic has five levels: `cloudsync`, `sync`, `watched`, the
      content type and the id. */
  lemma WatchedTopicLevels(contentType: string, key: string, value: string)
    ensures WatchedTopic(contentType, key, value)
         == Join(["cloudsync", "sync", "watched", contentType, key + "_" + value], '/')
  {
    var id := key + "_" + value;
    var parts := ["cloudsync", "sync", "watched", contentType, id];
    assert parts[1..] == ["sync", "watched", contentType, id];
    assert parts[1..][1..] == ["watched", contentType, id];
    assert parts[1..][1..][1..] == [contentType, id];
    assert Join([contentType, id], '/') == contentType + "/" + id;
    assert Join(["watched", contentType, id], '/') == "watched" + "/" + (contentType + "/" + id);
    assert Join(["sync", "watched", contentType, id], '/') == "sync" + "/" + ("watched" + "/" + (contentType + "/" + id));
    assert "cloudsync/sync/watched/" == "cloudsync" + "/" + "sync" + "/" + "watched" + "/";
  }

  /** The filters of both subscription lists, level by level. */
  lemma FilterLevels()
    ensures SubscriptionsAsWritten[0] == Join(["cloudsync", "sync", "watched", "+"], '/')
    ensures SubscriptionsAsWritten[1] == Join(["cloudsync", "sync", "favorites", "+"], '/')
    ensures SubscriptionsAsWritten[2] == Join(["cloudsync", "devices", "+", "status"], '/')
    ensures Subscriptions[0] == Join(["cloudsync", "sync", "watched", "+", "+"], '/')
  {
    WatchedFilterLevels();
    FavoritesFilterLevels();
    StatusFilterLevels();
    WatchedFilterLevelsCorrected();
  }

  lemma WatchedFilterLevels()
    ensures SubscriptionsAsWritten[0] == Join(["cloudsync", "sync", "watched", "+"], '/')
  {
    FourLevels("cloudsync", "sync", "watched", "+");
  }

  lemma FavoritesFilterLevels()
    ensures SubscriptionsAsWritten[1] == Join(["cloudsync", "sync", "favorites", "+"], '/')
  {
    FourLevels("cloudsync", "sync", "favorites", "+");
  }

  lemma StatusFilterLevels()
    ensures SubscriptionsAsWritten[2] == Join(["cloudsync", "devices", "+", "status"], '/')
  {
    MqttClient.DeviceStatusLevels("+");
  }

  lemma WatchedFilterLevelsCorrected()
    ensures Subscriptions[0] == Join(["cloudsync", "sync", "watched", "+", "+"], '/')
  {
    FiveLevels("cloudsync", "sync", "watched", "+", "+");
  }

  lemma FourLevels(a: string, b: string, c: string, d: string)
    ensures Join([a, b, c, d], '/') == a + "/" + b + "/" + c + "/" + d
  {
    var parts := [a, b, c, d];
    assert parts[1..] == [b, c, d];
    assert parts[1..][1..] == [c, d];
    assert Join([c, d], '/') == c + "/" + d;
  }

  lemma FiveLevels(a: string, b: string, c: string, d: string, e: string)
    ensures Join([a, b, c, d, e], '/') == a + "/" + b + "/" + c + "/" + d + "/" + e
  {
    var parts := [a, b, c, d, e];
    assert parts[1..] == [b, c, d, e];
    FourLevels(b, c, d, e);
  }

  /** The levels of the topic a successful watched publication uses. */
  lemma PublishedWatchedLevels(uniqueid: AssocList<string, string>, contentType: string)
    requires FirstNonEmpty(uniqueid).Some?
    requires '/' !in contentType
    requires forall i :: 0 <= i < |uniqueid| ==> '/' !in uniqueid[i].0 && '/' !in uniqueid[i].1
    ensures var (k, v) := FirstNonEmpty(uniqueid).value;
      var levels := ["cloudsync", "sync", "watched", contentType, k + "_" + v];
      && WatchedTopic(contentType, k, v) == Join(levels, '/')
      && forall j :: 0 <= j < |levels| ==> '/' !in levels[j]
  {
    var (k, v) := FirstNonEmpty(uniqueid).value;
    WatchedTopicLevels(contentType, k, v);
    assert '/' !in k + "_" + v by {
      assert forall j :: 0 <= j < |k + "_" + v| ==> (k + "_" + v)[j] in k || (k + "_" + v)[j] == '_' || (k + "_" + v)[j] in v;
    }
    assert '/' !in "cloudsync" && '/' !in "sync" && '/' !in "watched";
  }

  /** A four-level filter of `/`-free, non-`#` levels misses every
      five-level topic. */
  lemma FourMissesFive(filter: seq<string>, levels: seq<string>)
    requires |filter| == 4 && |levels| == 5
    requires forall j :: 0 <= j < 4 ==> '/' !in filter[j] && filter[j] != "#"
    requires forall j :: 0 <= j < 5 ==> '/' !in levels[j]
    ensures !MqttClient.TopicMatches(Join(filter, '/'), Join(levels, '/'))
  {
    MqttClient.FilterMisses(filter, levels);
  }

  /** Every filter of the manager has four levels, so none matches a topic
      of five. */
  lemma FiveLevelsMissedAsWritten(levels: seq<string>)
    requires |levels| == 5
    requires forall j :: 0 <= j < |levels| ==> '/' !in levels[j]
    ensures forall i :: 0 <= i < |SubscriptionsAsWritten| ==>
      !MqttClient.TopicMatches(SubscriptionsAsWritten[i], Join(levels, '/'))
  {
    FilterLevels();
    forall i | 0 <= i < |SubscriptionsAsWritten|
      ensures !MqttClient.TopicMatches(SubscriptionsAsWritten[i], Join(levels, '/'))
    {
      if i == 0 {
        assert '/' !in "cloudsync" && '/' !in "sync" && '/' !in "watched" && '/' !in "+";
        assert "#" != "cloudsync" && "#" != "sync" && "#" != "watched" && "#" != "+";
        FourMissesFive(["cloudsync", "sync", "watched", "+"], levels);
      } else if i == 1 {
        assert '/' !in "cloudsync" && '/' !in "sync" && '/' !in "favorites" && '/' !in "+";
        assert "#" != "cloudsync" && "#" != "sync" && "#" != "favorites" && "#" != "+";
        FourMissesFive(["cloudsync", "sync", "favorites", "+"], levels);
      } else {
        assert '/' !in "cloudsync" && '/' !in "devices" && '/' !in "+" && '/' !in "status";
        assert "#" != "cloudsync" && "#" != "devices" && "#" != "+" && "#" != "status";
        FourMissesFive(["cloudsync", "devices", "+", "status"], levels);
      }
    }
  }

  /** As written, no subscription of the manager receives its own watched
      messages: the watched filter has one level after `watched`, the topic
      two. */
  lemma WatchedMissedAsWritten(m: Manager, now: int, contentType: string, uniqueid: AssocList<string, string>,
                               title: string, playcount: int, lastplayed: string, resume: MqttClient.Value)
    requires Consistent(m)
    requires '/' !in contentType
    requires forall i :: 0 <= i < |uniqueid| ==> '/' !in uniqueid[i].0 && '/' !in uniqueid[i].1
    ensures var r := PublishWatchedChange(m, now, contentType, uniqueid, title, playcount, lastplayed, resume);
      r.0 ==> forall i :: 0 <= i < |SubscriptionsAsWritten| ==>
        !MqttClient.TopicMatches(SubscriptionsAsWritten[i], r.1.value.topic)
  {
    var r := PublishWatchedChange(m, now, contentType, uniqueid, title, playcount, lastplayed, resume);
    if r.0 {
      var (k, v) := FirstNonEmpty(uniqueid).value;
      PublishedWatchedLevels(uniqueid, contentType);
      FiveLevelsMissedAsWritten(["cloudsync", "sync", "watched", contentType, k + "_" + v]);
    }
  }

  /** With the corrected watched filter the same messages are received. */
  lemma WatchedReceived(m: Manager, now: int, contentType: string, uniqueid: AssocList<string, string>,
                        title: string, playcount: int, lastplayed: string, resume: MqttClient.Value)
    requires Consistent(m)
    requires '/' !in contentType
    requires forall i :: 0 <= i < |uniqueid| ==> '/' !in uniqueid[i].0 && '/' !in uniqueid[i].1
    ensures var r := PublishWatchedChange(m, now, contentType, uniqueid, title, playcount, lastplayed, resume);
      r.0 ==> MqttClient.TopicMatches(Subscriptions[0], r.1.value.topic)
  {
    var r := PublishWatchedChange(m, now, contentType, uniqueid, title, playcount, lastplayed, resume);
    if r.0 {
      var (k, v) := FirstNonEmpty(uniqueid).value;
      PublishedWatchedLevels(uniqueid, contentType);
      FilterLevels();
      assert '/' !in "cloudsync" && '/' !in "sync" && '/' !in "watched" && '/' !in "+";
      assert "#" != "cloudsync" && "#" != "sync" && "#" != "watched" && "#" != "+";
      MqttClient.FilterMatches(["cloudsync", "sync", "watched", "+", "+"],
                               ["cloudsync", "sync", "watched", contentType, k + "_" + v]);
    }
  }

  /** Every watched topic contains the watched marker. */
  lemma WatchedTopicHasMarker(contentType: string, key: string, value: string)
    ensures Contains(WatchedTopic(contentType, key, value), "/watched/")
  {
    var t := WatchedTopic(contentType, key, value);
    var rest := contentType + "/" + key + "_" + value;
    assert t == "cloudsync/sync/watched/" + rest;
    PrefixOfAppend("cloudsync/sync/watched/", rest);
    assert "cloudsync/sync/watched/" == "cloudsync/sync" + "/watched/";
    ContainsSuffix(t, "cloudsync/sync", "/watched/");
  }

  /** A watched message of one device, once received by another, reaches
      the other's watched callback with the content that was sent, under
      both routing lists: their watched markers are the same. */
  lemma WatchedDelivered(sender: Manager, receiver: Manager, now: int, contentType: string,
                         uniqueid: AssocList<string, string>, title: string, playcount: int, lastplayed: string,
                         resume: MqttClient.Value, favoritesSet: bool)
    requires Consistent(sender) && sender.deviceId != receiver.deviceId
    ensures var r := PublishWatchedChange(sender, now, contentType, uniqueid, title, playcount, lastplayed, resume);
      r.0 ==>
        && OnMessage(receiver, Routes, r.1.value.topic, Some(r.1.value.payload), true, favoritesSet)
           == Callback(ToWatched, WatchedContent(contentType, uniqueid, title, playcount, lastplayed, resume))
        && OnMessage(receiver, RoutesAsWritten, r.1.value.topic, Some(r.1.value.payload), true, favoritesSet)
           == Callback(ToWatched, WatchedContent(contentType, uniqueid, title, playcount, lastplayed, resume))
  {
    var r := PublishWatchedChange(sender, now, contentType, uniqueid, title, playcount, lastplayed, resume);
    if r.0 {
      var (k, v) := FirstNonEmpty(uniqueid).value;
      WatchedTopicHasMarker(contentType, k, v);
      MarkerShapes();
      MqttClient.FirstMatchWins(receiver.deviceId, Routes, r.1.value.topic, r.1.value.payload, (x: Route) => false, 0);
      MqttClient.FirstMatchWins(receiver.deviceId, RoutesAsWritten, r.1.value.topic, r.1.value.payload, (x: Route) => false, 0);
    }
  }

  /** `cloudsync/sync/favorites/<action>` level by level. */
  lemma FavoritesTopicLevels(action: string)
    ensures FavoritesTopic(action) == Join(["cloudsync", "sync", "favorites", action], '/')
  {
    FourLevels("cloudsync", "sync", "favorites", action);
    assert "cloudsync/sync/favorites/" == "cloudsync" + "/" + "sync" + "/" + "favorites" + "/";
  }

  /** Favourites messages are received through the favourites filter, the
      same in both subscription lists. */
  lemma FavoritesReceived(m: Manager, now: int, action: string, itemType: string, itemData: MqttClient.Value)
    requires Consistent(m) && '/' !in action
    ensures var r := PublishFavoritesChange(m, now, action, itemType, itemData);
      r.0 ==> MqttClient.TopicMatches(SubscriptionsAsWritten[1], r.1.value.topic)
              && MqttClient.TopicMatches(Subscriptions[1], r.1.value.topic)
  {
    FavoritesTopicLevels(action);
    FilterLevels();
    assert '/' !in "cloudsync" && '/' !in "sync" && '/' !in "favorites" && '/' !in "+";
    assert "#" != "cloudsync" && "#" != "sync" && "#" != "favorites" && "#" != "+";
    MqttClient.FilterMatches(["cloudsync", "sync", "favorites", "+"], ["cloudsync", "sync", "favorites", action]);
  }

  /** The favourites marker is the first to catch a favourites topic. */
  lemma FavoritesTopicFirstMatch(action: string)
    requires '/' !in action
    ensures MqttClient.FirstPatternIndex(Routes, FavoritesTopic(action)) == 1
  {
    var t := FavoritesTopic(action);
    FavoritesTopicLevels(action);
    assert '/' !in "cloudsync" && '/' !in "sync" && '/' !in "favorites";
    MqttClient.NotDelimitedIn(["cloudsync", "sync", "favorites", action], "watched");
    assert t == "cloudsync/sync/favorites/" + action;
    PrefixOfAppend("cloudsync/sync/favorites/", action);
    assert "cloudsync/sync/favorites/" == "cloudsync/sync" + "/favorites/";
    ContainsSuffix(t, "cloudsync/sync", "/favorites/");
    MarkerShapes();
  }

  /** A favourites message of one device reaches another device's
      favourites callback under both routing lists: the watched marker does
      not occur in its topic. */
  lemma FavoritesDelivered(sender: Manager, receiver: Manager, now: int, action: string, itemType: string,
                           itemData: MqttClient.Value, watchedSet: bool)
    requires Consistent(sender) && sender.deviceId != receiver.deviceId && '/' !in action
    ensures var r := PublishFavoritesChange(sender, now, action, itemType, itemData);
      var sent := MqttClient.Object([("action", MqttClient.Text(action)),
                                     ("type", MqttClient.Text(itemType)), ("data", itemData)]);
      r.0 ==>
        && OnMessage(receiver, Routes, r.1.value.topic, Some(r.1.value.payload), watchedSet, true)
           == Callback(ToFavorites, sent)
        && OnMessage(receiver, RoutesAsWritten, r.1.value.topic, Some(r.1.value.payload), watchedSet, true)
           == Callback(ToFavorites, sent)
  {
    var r := PublishFavoritesChange(sender, now, action, itemType, itemData);
    if r.0 {
      FavoritesTopicFirstMatch(action);
      MqttClient.FirstMatchWins(receiver.deviceId, Routes, r.1.value.topic, r.1.value.payload, (x: Route) => false, 1);
      MqttClient.FirstMatchWins(receiver.deviceId, RoutesAsWritten, r.1.value.topic, r.1.value.payload, (x: Route) => false, 1);
    }
  }
}

=== FILE: service.dfy ===
/** The service's own logic: validating favourite paths, keying favourites
    by title and path, the favourites poll that announces additions and
    removals, the guards of the MQTT message handlers that write to the
    library, and the loop counter that paces the poll. The library lookups
    are those of `KodiRpc`; RPC replies are inputs. */
module Service {
  import opened Common
  import opened KodiRpc

  // -----------------------------------------------------------------------
  // Favourite paths

  /** The protocols a synced favourite's path may start with. */
  const ValidProtocols: seq<string> := [
    "plugin://", "upnp://", "nfs://", "smb://", "ftp://", "http://", "https://",
    "addons://", "videodb://", "musicdb://", "special://", "sources://",
    "library://", "file://", "zip://", "rar://"
  ]

  function StartsWithAny(path: string, protocols: seq<string>): (r: bool)
    ensures r <==> exists i :: 0 <= i < |protocols| && StartsWith(path, protocols[i])
  {
    if |protocols| == 0 then false
    else
      var rest := StartsWithAny(path, protocols[1..]);
      assert forall i :: 1 <= i < |protocols| ==> protocols[i] == protocols[1..][i - 1];
      StartsWith(path, protocols[0]) || rest
  }

  /** `_is_valid_favorite_path`. */
  function IsValidFavoritePath(path: string): (r: bool)
    ensures r <==> path != "" && exists i :: 0 <= i < |ValidProtocols| && StartsWith(path, ValidProtocols[i])
  {
    path != "" && StartsWithAny(path, ValidProtocols)
  }

  /** Every accepted path names a scheme: it contains `://`. */
  lemma {:induction false} ValidPathHasScheme(path: string)
    requires IsValidFavoritePath(path)
    ensures exists k :: OccursAt(path, "://", k)
  {
    var i :| 0 <= i < |ValidProtocols| && StartsWith(path, ValidProtocols[i]);
    var pr := ValidProtocols[i];
    assert |pr| >= 3 && pr[|pr| - 3..] == "://" by { ProtocolsEndInScheme(); }
    var k := |pr| - 3;
    assert path[k..k + 3] == pr[k..k + 3];
    assert OccursAt(path, "://", k);
  }

  lemma ProtocolsEndInScheme()
    ensures forall i :: 0 <= i < |ValidProtocols| ==>
      |ValidProtocols[i]| >= 3 && ValidProtocols[i][|ValidProtocols[i]| - 3..] == "://"
  {
  }

  // -----------------------------------------------------------------------
  // Favourite keys and the favourites poll

  /** A favourite as `get_favourites` lists it; absent fields are None. */
  datatype ApiFavourite = ApiFavourite(title: Option<string>, path: Option<string>,
                                       favType: Option<string>, thumbnail: Option<string>)

  /** `_favorite_key`: title and path joined by `|`, missing fields as "". */
  function FavoriteKey(f: ApiFavourite): (k: string)
    ensures |k| == |f.title.GetOr("")| + 1 + |f.path.GetOr("")|
    ensures k[|f.title.GetOr("")|] == '|'
  {
    f.title.GetOr("") + "|" + f.path.GetOr("")
  }

  /** Keys tell favourites apart by title and path, provided titles carry
      no `|`. */
  lemma {:induction false} FavoriteKeyInjective(f: ApiFavourite, g: ApiFavourite)
    requires '|' !in f.title.GetOr("") && '|' !in g.title.GetOr("")
    ensures FavoriteKey(f) == FavoriteKey(g) <==>
      f.title.GetOr("") == g.title.GetOr("") && f.path.GetOr("") == g.path.GetOr("")
  {
    var (ft, fp, gt, gp) := (f.title.GetOr(""), f.path.GetOr(""), g.title.GetOr(""), g.path.GetOr(""));
    if FavoriteKey(f) == FavoriteKey(g) {
      IndexOfAfter(ft, '|', fp);
      IndexOfAfter(gt, '|', gp);
      var k := FavoriteKey(f);
      assert k[..|ft|] == ft && FavoriteKey(g)[..|gt|] == gt;
      assert k[|ft| + 1..] == fp && FavoriteKey(g)[|gt| + 1..] == gp;
    }
  }

  /** With a `|` in a title two different favourites can share a key. */
  lemma KeysCanCollide()
    ensures var f := ApiFavourite(Some("a|b"), Some("c"), None, None);
            var g := ApiFavourite(Some("a"), Some("b|c"), None, None);
      FavoriteKey(f) == FavoriteKey(g) && f.title != g.title
  {
    assert "a|b" + "|" + "c" == "a" + "|" + "b|c";
  }

  function KeySet(fs: seq<ApiFavourite>): (ks: set<string>)
    ensures forall k :: k in ks <==> exists i :: 0 <= i < |fs| && FavoriteKey(fs[i]) == k
  {
    set i | 0 <= i < |fs| :: FavoriteKey(fs[i])
  }

  /** The favourites of `fs`, in order, whose key is in `keys`. */
  function WithKeys(fs: seq<ApiFavourite>, keys: set<string>): (r: seq<ApiFavourite>)
    ensures forall f :: f in r <==> f in fs && FavoriteKey(f) in keys
    ensures |r| <= |fs|
    ensures keys == {} ==> r == []
  {
    if |fs| == 0 then []
    else
      var rest := WithKeys(fs[1..], keys);
      assert forall f :: f in fs <==> f == fs[0] || f in fs[1..];
      if FavoriteKey(fs[0]) in keys then [fs[0]] + rest else rest
  }

  /** One announcement of `_publish_favorite_change`. */
  datatype FavAnnouncement = Added(fav: ApiFavourite) | Removed(fav: ApiFavourite)

  function AsAdded(fs: seq<ApiFavourite>): (r: seq<FavAnnouncement>)
    ensures |r| == |fs| && forall i :: 0 <= i < |fs| ==> r[i] == Added(fs[i])
  {
    seq(|fs|, i requires 0 <= i < |fs| => Added(fs[i]))
  }

  function AsRemoved(fs: seq<ApiFavourite>): (r: seq<FavAnnouncement>)
    ensures |r| == |fs| && forall i :: 0 <= i < |fs| ==> r[i] == Removed(fs[i])
  {
    seq(|fs|, i requires 0 <= i < |fs| => Removed(fs[i]))
  }

  /** `_check_favorites_changes`. `last` is `last_favorites` (None before
      the first poll); `current` is the `get_favourites` reply, None when it
      raised. Returns the new `last_favorites` and what is announced:
      additions in the order of `current`, then removals in the order of
      `last`. */
  function CheckFavoritesChanges(enabled: bool, last: Option<seq<ApiFavourite>>,
                                 current: Option<seq<ApiFavourite>>)
    : (out: (Option<seq<ApiFavourite>>, seq<FavAnnouncement>))
    ensures !enabled || current.None? ==> out == (last, [])
    ensures enabled && current.Some? ==> out.0 == current
    ensures last.None? ==> out.1 == []
    ensures last.Some? && current.Some? && KeySet(last.value) == KeySet(current.value) ==> out.1 == []
    ensures forall f :: Added(f) in out.1 <==>
      enabled && current.Some? && last.Some? && f in current.value && FavoriteKey(f) !in KeySet(last.value)
    ensures forall f :: Removed(f) in out.1 <==>
      enabled && current.Some? && last.Some? && f in last.value && FavoriteKey(f) !in KeySet(current.value)
  {
    if !enabled || current.None? then (last, [])
    else if last.None? then (current, [])
    else
      var cur, prev := current.value, last.value;
      var added := WithKeys(cur, KeySet(cur) - KeySet(prev));
      var removed := WithKeys(prev, KeySet(prev) - KeySet(cur));
      var out := AsAdded(added) + AsRemoved(removed);
      assert forall f :: Added(f) in out <==> f in added;
      assert forall f :: Removed(f) in out <==> f in removed;
      (current, out)
  }

  /** `get_favourites`: the `favourites` of the reply, or [] when the RPC
      failed (an RPC error or exception is a None reply) or the field is
      absent. */
  function GetFavourites(reply: Option<Option<seq<ApiFavourite>>>): (fs: seq<ApiFavourite>)
    ensures reply.None? || reply.value.None? ==> fs == []
    ensures reply.Some? && reply.value.Some? ==> fs == reply.value.value
  {
    if reply.None? then [] else reply.value.GetOr([])
  }

  /** A poll whose listing RPC failed sees an empty list: every stored
      favourite is announced as removed, nothing as added, and the empty
      list is stored. */
  lemma {:induction false} FailedListingAnnouncesRemovals(last: seq<ApiFavourite>)
    ensures var out := CheckFavoritesChanges(true, Some(last), Some(GetFavourites(None)));
      && out.0 == Some([])
      && (forall f :: Removed(f) in out.1 <==> f in last)
      && (forall f :: Added(f) !in out.1)
  {
    assert KeySet([]) == {};
  }

  /** Polling again while the list stands still announces nothing. */
  lemma CheckFavoritesSettles(last: Option<seq<ApiFavourite>>, current: seq<ApiFavourite>)
    ensures var s := CheckFavoritesChanges(true, last, Some(current)).0;
      CheckFavoritesChanges(true, s, Some(current)) == (Some(current), [])
  {
  }

  // -----------------------------------------------------------------------
  // Message handlers

  /** The `content` of a watched or resume message. Absent dicts are []. */
  datatype MediaContent = MediaContent(contentType: Option<string>, uniqueid: AssocList<string, string>,
                                       playcount: int, season: int, episode: int,
                                       showUniqueid: AssocList<string, string>,
                                       position: Option<int>, total: int)

  /** A library write a handler asks for. */
  datatype LibraryWrite =
    | SetMoviePlaycount(movieId: int, playcount: int)
    | SetEpisodePlaycount(episodeId: int, playcount: int)
    | SetMovieResume(movieId: int, position: int, total: int)
    | SetEpisodeResume(episodeId: int, position: int, total: int)

  /** What the library answers to the lookups. */
  datatype Library = Library(movies: Option<seq<LibItem>>, shows: Option<seq<LibItem>>,
                             episodesOf: int -> Option<seq<LibEpisode>>)

  /** Python truthiness of an optional id. */
  predicate TruthyId(id: Option<int>) { id.Some? && id.value != 0 }

  function MovieId(lib: Library, c: MediaContent): Option<int> {
    FindByUniqueId(lib.movies, c.uniqueid)
  }

  function EpisodeId(lib: Library, c: MediaContent): Option<int> {
    FindEpisode(lib.shows, c.showUniqueid, c.season, c.episode, lib.episodesOf)
  }

  /** `_handle_watched_message` with `_sync_movie_watched` and
      `_sync_episode_watched`: the write it issues, if any. */
  function HandleWatched(enabled: bool, c: MediaContent, lib: Library): (w: Option<LibraryWrite>)
    ensures !enabled || c.uniqueid == [] ==> w.None?
    ensures c.contentType != Some("movie") && c.contentType != Some("episode") ==> w.None?
    ensures c.contentType == Some("movie") && enabled && c.uniqueid != [] ==>
      w == (if TruthyId(MovieId(lib, c)) then Some(SetMoviePlaycount(MovieId(lib, c).value, c.playcount)) else None)
    ensures c.contentType == Some("episode") && enabled && c.uniqueid != [] ==>
      w == (if TruthyId(EpisodeId(lib, c)) then Some(SetEpisodePlaycount(EpisodeId(lib, c).value, c.playcount)) else None)
  {
    if !enabled || c.uniqueid == [] then None
    else if c.contentType == Some("movie") then
      var id := MovieId(lib, c);
      if TruthyId(id) then Some(SetMoviePlaycount(id.value, c.playcount)) else None
    else if c.contentType == Some("episode") then
      var id := EpisodeId(lib, c);
      if TruthyId(id) then Some(SetEpisodePlaycount(id.value, c.playcount)) else None
    else None
  }

  /** `_handle_resume_message` with `_sync_movie_resume` and
      `_sync_episode_resume`. A position of 0 or none is falsy and stops
      the handler. */
  function HandleResume(enabled: bool, c: MediaContent, lib: Library): (w: Option<LibraryWrite>)
    ensures !enabled || c.uniqueid == [] || c.position.None? || c.position == Some(0) ==> w.None?
    ensures c.contentType != Some("movie") && c.contentType != Some("episode") ==> w.None?
    ensures w.Some? && w.value.SetMovieResume? ==>
      c.contentType == Some("movie") && Some(w.value.movieId) == MovieId(lib, c) && w.value.movieId != 0
      && Some(w.value.position) == c.position && w.value.total == c.total
    ensures w.Some? && w.value.SetEpisodeResume? ==>
      c.contentType == Some("episode") && Some(w.value.episodeId) == EpisodeId(lib, c) && w.value.episodeId != 0
      && Some(w.value.position) == c.position && w.value.total == c.total
    ensures w.Some? ==> w.value.SetMovieResume? || w.value.SetEpisodeResume?
    ensures (&& enabled && c.uniqueid != [] && c.position.Some? && c.position.value != 0
             && c.contentType == Some("movie") && TruthyId(MovieId(lib, c))) ==> w.Some?
    ensures (&& enabled && c.uniqueid != [] && c.position.Some? && c.position.value != 0
             && c.contentType == Some("episode") && TruthyId(EpisodeId(lib, c))) ==> w.Some?
  {
    if !enabled || c.uniqueid == [] || c.position.None? || c.position.value == 0 then None
    else if c.contentType == Some("movie") then
      var id := MovieId(lib, c);
      if TruthyId(id) then Some(SetMovieResume(id.value, c.position.value, c.total)) else None
    else if c.contentType == Some("episode") then
      var id := EpisodeId(lib, c);
      if TruthyId(id) then Some(SetEpisodeResume(id.value, c.position.value, c.total)) else None
    else None
  }

  /** `_handle_resume_message` as its episode branch evidently intends: an
      episode is looked up by its show's unique ids, so those, not the
      episode's own `uniqueid`, are what the message must carry. Movies
      are handled as before. */
  function HandleResumeCorrected(enabled: bool, c: MediaContent, lib: Library): (w: Option<LibraryWrite>)
    ensures c.contentType != Some("episode") ==> w == HandleResume(enabled, c, lib)
    ensures c.contentType == Some("episode") ==>
      (w.Some? <==> && enabled && c.showUniqueid != [] && c.position.Some? && c.position.value != 0
                    && TruthyId(EpisodeId(lib, c)))
    ensures c.contentType == Some("episode") && w.Some? ==>
      w == Some(SetEpisodeResume(EpisodeId(lib, c).value, c.position.value, c.total))
  {
    if c.contentType != Some("episode") then HandleResume(enabled, c, lib)
    else if !enabled || c.showUniqueid == [] || c.position.None? || c.position.value == 0 then None
    else
      var id := EpisodeId(lib, c);
      if TruthyId(id) then Some(SetEpisodeResume(id.value, c.position.value, c.total)) else None
  }

  /** The `content` of a favourites message; absent strings take the
      handler's defaults. */
  datatype FavouriteContent = FavouriteContent(action: Option<string>, title: string, path: string,
                                               favType: string, thumbnail: string)

  /** `_handle_favorites_message` with `_sync_favorite_add`: the
      `add_favourite` request it sends, if any. Removals are received but
      never applied. */
  function HandleFavorite(enabled: bool, c: FavouriteContent): (req: Option<FavouriteParams>)
    ensures req.Some? <==> enabled && c.action == Some("add") && IsValidFavoritePath(c.path)
    ensures req.Some? ==> req.value == AddFavouriteParams(c.title, c.favType, c.path, c.thumbnail, "", "")
    ensures c.action == Some("remove") ==> req.None?
  {
    if !enabled then None
    else if c.action == Some("add") then
      if c.path == "" || !IsValidFavoritePath(c.path) then None
      else Some(AddFavouriteParams(c.title, c.favType, c.path, c.thumbnail, "", ""))
    else None
  }

  /** An accepted favourite always carries its path in the request. */
  lemma AcceptedFavouriteHasPath(enabled: bool, c: FavouriteContent)
    requires HandleFavorite(enabled, c).Some?
    ensures HandleFavorite(enabled, c).value.path == Some(c.path)
    ensures exists k :: OccursAt(c.path, "://", k)
  {
    ValidPathHasScheme(c.path);
  }

  // -----------------------------------------------------------------------
  // The loop counter

  /** Loop ticks between two favourites polls. */
  const FavoritesCheckInterval: nat := 30

  /** One tick of the main loop's favourites counter: returns the new
      counter and whether the poll runs on this tick. */
  function Tick(counter: nat): (out: (nat, bool))
    ensures out.1 <==> counter + 1 >= FavoritesCheckInterval
    ensures out.0 == (if out.1 then 0 else counter + 1)
  {
    if counter + 1 >= FavoritesCheckInterval then (0, true) else (counter + 1, false)
  }

  /** `n` ticks from `counter`: the final counter and how many polls ran. */
  function Ticks(counter: nat, n: nat): (nat, nat)
    decreases n
  {
    if n == 0 then (counter, 0)
    else
      var (c1, ran) := Tick(counter);
      var (c2, polls) := Ticks(c1, n - 1);
      (c2, polls + (if ran then 1 else 0))
  }

  /** From a counter below 30, the poll runs on every 30th tick and on no
      other. */
  lemma {:induction false} TicksPace(counter: nat, n: nat)
    requires counter < FavoritesCheckInterval
    ensures Ticks(counter, n) == ((counter + n) % FavoritesCheckInterval, (counter + n) / FavoritesCheckInterval)
    decreases n
  {
    if n > 0 {
      var (c1, ran) := Tick(counter);
      TicksPace(c1, n - 1);
      if ran {
        assert counter + 1 == 30;
        assert (counter + n) % 30 == (n - 1) % 30 && (counter + n) / 30 == (n - 1) / 30 + 1;
      } else {
        assert c1 + n - 1 == counter + n;
      }
    }
  }
}
